=== FILE: README.md ===
# Log-Analysis-RAG: verified model of the core

This project models, in Dafny, the logic of a log-analysis service with a
retrieval-augmented question answerer. The service has these parts:

- **Upload gate.** An uploaded log file is checked for type and size.
- **Chunking and indexing workflow.** The file is cut into chunks by one of
  several log-aware splitters. The chunks are stored in batches and then
  embedded. This runs as a two-stage background workflow.
- **Progress reporting.** The workflow's progress is kept in a
  `workflow_progress` table. Each write is published on a per-project
  channel and fanned out to WebSocket clients by a connection registry.
- **Log statistics.** A separate analysis folds the access-log lines into
  counters and top-10 views.
- **Question answering.** Questions are answered by searching the project's
  vector collection and prompting an LLM provider. The answer and the chat
  history shown in the web front end are cleaned first.
- **Browser side.** The front end builds API URLs itself. When the page is
  HTTPS and the API is plain HTTP, it goes through a small serverless
  proxy.

Every operation is a pure function or a short method over immutable
datatypes. Effects are handled as follows:

- Store writes, sends and publishes are returned as values or event traces.
- Whether an effect fails is an input: a boolean or a `Result` parameter.
- Regex extractors, the LLM and embedding clients, the vector search, the
  prompt templates and the upstream `fetch` are function parameters.

The modules are:

| module | file | models |
|---|---|---|
| `Wrappers`, `Text`, `Json` | wrappers.dfy, text.dfy, json.dfy | Option/Result, Python string operations, JSON values and insertion-ordered dicts |
| `ProgressStore` | progress_store.dfy | `ProgressManager` and `calculate_overall_progress` |
| `ProgressBroadcaster` | progress_broadcaster.dfy | `ProgressBroadcaster`: store write, then best-effort publish |
| `ConnectionRegistry` | connection_registry.dfy | `ConnectionManager` and its two inverse indexes |
| `WebSocketEndpoint` | websocket_endpoint.dfy | the per-socket message loop and the status route |
| `ProcessWorkflow` | process_workflow.dfy | the two-stage workflow task and its embedding phase |
| `LogChunkers` | log_chunkers.dfy | the log splitters and the method routing |
| `LogStatistics` | log_statistics.dfy | `analyze_log` over already-parsed records |
| `PromptWords`, `AnswerCleaning` | answer_cleaning.dfy | `clean_answer_text`, `filter_chat_history` |
| `GroqProvider` | groq_provider.dfy | the Groq provider's text utilities and history effect |
| `RagWords`, `RagAnswer` | rag_answer.dfy | collection naming, vector search and `answer_rag_question` |
| `ChunkBatching` | chunk_batching.dfy | the chunk record and `insert_many_chunks` |
| `UploadValidation` | upload_validation.dfy | `validate_uploaded_file` |
| `UriEncoding` | uri_encoding.dfy | UTF-8, `encodeURIComponent` and `URLSearchParams` encoding and decoding |
| `ApiProxy` | api_proxy.dfy | the proxy `handler` |
| `ClientConfig` | client_config.dfy | the proxy decision and `buildApiUrl` |

## Model

| member | source | states |
|---|---|---|
| ConnectionRegistry.NextId | src/utils/connection_manager.py:44-47 | the counter rises by one, and the new id was never issued by a registry whose ids all come from its counter |
| ConnectionRegistry.Register | src/utils/connection_manager.py:69-87 | the new connection records the given project; its workflow set is the singleton of a truthy workflow id or empty; no other connection changes |
| ConnectionRegistry.RegisterIndexes | src/utils/connection_manager.py:69-87 | after registration the indexes stay consistent; the id is in a project's index iff that project was given, and in a workflow's index iff that truthy workflow id was given |
| ConnectionRegistry.Disconnect | src/utils/connection_manager.py:105-134 | removes exactly that connection; an unknown id changes nothing |
| ConnectionRegistry.DisconnectValid | src/utils/connection_manager.py:118-132 | disconnect keeps both indexes consistent with the connection map, leaves no empty index entry, and the id is in no index afterwards |
| ConnectionRegistry.Subscribe | src/utils/connection_manager.py:136-153 | a known connection gains the workflow in its own set and in the workflow index; an unknown id changes nothing; other connections and the project index are untouched |
| ConnectionRegistry.SubscribeValid | src/utils/connection_manager.py:147-151 | subscribing preserves the index invariant |
| ConnectionRegistry.SubscribeIdempotent | src/utils/connection_manager.py:144-151 | subscribing twice has the effect of subscribing once |
| ConnectionRegistry.SendPersonal | src/utils/connection_manager.py:155-171 | delivered iff the id is registered and the send succeeds; a failed send disconnects exactly that id; otherwise nothing changes |
| ConnectionRegistry.Connect | src/utils/connection_manager.py:49-103 | a fresh id is issued; the acknowledgement is sent iff its send succeeds, and then the registry is the one registration produced, the connection holding the given project and the truthy workflow alone; a failed acknowledgement disconnects it again; no earlier connection changes |
| ConnectionRegistry.ConnectIndexes | src/utils/connection_manager.py:66-87 | after an acknowledged connect the new id is in the project index exactly under its project and in the workflow index exactly under its truthy workflow |
| ConnectionRegistry.ConnectValid | src/utils/connection_manager.py:49-103 | connect preserves the index invariant whether or not the acknowledgement is delivered |
| ConnectionRegistry.Targets | src/utils/connection_manager.py:196-212 | under the registry invariant, the broadcast targets are exactly the registered connections that follow the workflow or belong to the project |
| ConnectionRegistry.ProgressMessageFields | src/utils/connection_manager.py:187-193 | the broadcast message carries type, workflow id and project id, and any key of the progress data overrides them |
| ConnectionRegistry.SendEach | src/utils/connection_manager.py:207-214 | each live target is sent to exactly once; the failed list is exactly the live targets whose send fails |
| ConnectionRegistry.DisconnectAll | src/utils/connection_manager.py:217-219 | disconnecting a list removes exactly the listed connections and issues no new id |
| ConnectionRegistry.DisconnectAllValid | src/utils/connection_manager.py:217-219 | disconnecting a list keeps the registry invariant |
| ConnectionRegistry.SendToAll | src/utils/connection_manager.py:207-219 | every live target not failing receives the message once, the loop never stops early, exactly the failed targets are disconnected, and validity is preserved |
| ConnectionRegistry.BroadcastWorkflowProgress | src/utils/connection_manager.py:173-219 | recipients are the union of workflow and project subscribers, each once; only failed sends are disconnected |
| ConnectionRegistry.BroadcastToProject | src/utils/connection_manager.py:221-243 | a project without subscribers is a no-op; otherwise each live subscriber is sent to once and the failed ones are disconnected |
| ConnectionRegistry.ActiveCount | src/utils/connection_manager.py:245-247 | the count is the number of registered connections, and it is zero exactly when none is registered |
| ConnectionRegistry.ActiveCountConnect | src/utils/connection_manager.py:49-104 | a connect whose acknowledgement is sent raises the active count by one; one whose acknowledgement fails leaves it unchanged |
| ConnectionRegistry.ActiveCountDisconnect | src/utils/connection_manager.py:105-134 | a disconnect lowers the active count by one exactly when the id was registered |
| ConnectionRegistry.ProjectCount | src/utils/connection_manager.py:249-253 | a project with no index entry counts zero |
| ConnectionRegistry.ProjectCountMeaning | src/utils/connection_manager.py:249-253 | in a consistent registry the project count equals the number of connections registered with that project |
| ConnectionRegistry.Step | src/utils/connection_manager.py:44-47 | only a connect issues an id, and that id carries the next serial |
| ConnectionRegistry.Run | src/utils/connection_manager.py:44-47 | the ids issued over a run carry consecutive serials |
| ConnectionRegistry.RunValid | src/utils/connection_manager.py:44-151 | any sequence of connects, subscribes and disconnects keeps the invariant, issues pairwise distinct ids, and never reuses an id present at the start |
| WebSocketEndpoint.Classify | src/routes/websocket.py:59-118 | a non-object frame crashes the loop; ping, subscribe and get_status are recognised from the action field, the latter two exactly when the workflow id is a non-empty string, and they carry that id; every other object frame asks for nothing |
| WebSocketEndpoint.PingAnswered | src/routes/websocket.py:78-85 | any object frame whose action is ping is classified as ping |
| WebSocketEndpoint.Reply | src/routes/websocket.py:64-118 | a reply exists iff the frame asked for something; ping answers pong, subscribe answers the subscribed message for its workflow, get_status the stored record or the not-found error |
| WebSocketEndpoint.SubscribeReplyNamesWorkflow | src/routes/websocket.py:69-76 | the subscribe reply has type `subscribed` and echoes the workflow id |
| WebSocketEndpoint.StatusReplyNamesWorkflow | src/routes/websocket.py:87-118 | a status reply is a progress update iff the workflow has a record, and then it names that workflow |
| WebSocketEndpoint.HandleFrame | src/routes/websocket.py:59-118 | a reply is delivered iff one is due, the socket is registered and the send succeeds; a delivered ping or get_status leaves the registry unchanged and a delivered subscribe is exactly the subscription; a failed send disconnects after the subscription; a frame that asks for nothing changes nothing |
| WebSocketEndpoint.SessionValid | src/routes/websocket.py:52-125 | a whole session keeps the registry invariant |
| WebSocketEndpoint.SessionOthersUnchanged | src/routes/websocket.py:59-125 | a session never changes another connection and never adds one |
| WebSocketEndpoint.SessionKept | src/routes/websocket.py:59-125 | while the socket stays registered through the loop its project is unchanged and its workflows only grow; once dropped it is not re-added |
| WebSocketEndpoint.SessionEndsDisconnected | src/routes/websocket.py:120-125 | a session whose last event leaves the loop (a close, an undecodable frame, a `data.get` that raises, a get_status whose query raises) leaves the socket unregistered |
| WebSocketEndpoint.Session | src/routes/websocket.py:59-125 | at most one reply is delivered per event; an event that leaves the loop, a get_status whose query raises included, disconnects the socket at once and delivers nothing |
| WebSocketEndpoint.SessionWithoutConnection | src/routes/websocket.py:59-125 | frames on a socket that is no longer registered send nothing and change nothing |
| WebSocketEndpoint.PingsAnswered | src/routes/websocket.py:78-85 | a run of pings is answered by exactly one pong each and leaves the registry unchanged |
| WebSocketEndpoint.Endpoint | src/routes/websocket.py:24-125 | the endpoint keeps the invariant and only ever adds its own connection; while the socket stays connected it belongs to its project and follows its truthy workflow, so it receives their progress updates; a failed acknowledgement sends nothing further |
| WebSocketEndpoint.ConnectionsStatus | src/routes/websocket.py:129-139 | the status route reports the registry's active count and "healthy" |
| ProgressStore.Create | src/utils/progress_manager.py:36-79 | a new record is pending, with no step, step number 0, the given total and zero percentages; it fails on a write failure or an existing id |
| ProgressStore.GetProgress | src/utils/progress_manager.py:164-182 | a record is found iff the id is stored, and it carries that id |
| ProgressStore.Apply | src/utils/progress_manager.py:115-135 | each field given overwrites, each field absent is kept, updated_at is refreshed, and completed_at is set only when completion is flagged |
| ProgressStore.ApplyIdempotent | src/utils/progress_manager.py:115-135 | applying the same update twice at one time equals applying it once |
| ProgressStore.ApplyNoChange | src/utils/progress_manager.py:115-135 | an empty update only refreshes updated_at |
| ProgressStore.UpdateProgress | src/utils/progress_manager.py:81-162 | an unknown id changes nothing and returns None; a known id gets the merged record back; no other record changes; a write failure propagates |
| ProgressStore.StepPercent | src/utils/progress_manager.py:229-231 | with the count within the total, the step percentage lies in [0, 100] |
| ProgressStore.ChunkingOverall | src/utils/progress_manager.py:229-231 | chunking overall progress lies in [5, 50] |
| ProgressStore.EmbeddingOverall | src/utils/progress_manager.py:276-278 | embedding overall progress lies in [50, 98] |
| ProgressStore.MarkChunkingStart | src/utils/progress_manager.py:205-219 | the record enters the chunking step as step 1 |
| ProgressStore.UpdateChunkingProgress | src/utils/progress_manager.py:221-238 | status is unchanged and overall progress follows the chunking formula |
| ProgressStore.MarkChunkingComplete | src/utils/progress_manager.py:240-251 | status is unchanged, step progress 100 and overall 50 |
| ProgressStore.MarkEmbeddingStart | src/utils/progress_manager.py:253-267 | the record enters the embedding step as step 2 |
| ProgressStore.UpdateEmbeddingProgress | src/utils/progress_manager.py:269-285 | status is unchanged and overall progress follows the embedding formula |
| ProgressStore.MarkWorkflowSuccess | src/utils/progress_manager.py:287-301 | success with both percentages at 100, the result and a completion time |
| ProgressStore.MarkWorkflowFailure | src/utils/progress_manager.py:303-316 | failure with the error message and a completion time; both percentages are untouched |
| ProgressStore.Replay | src/utils/progress_manager.py:115-135 | after each update in a sequence, every field that update set holds its value |
| ProgressStore.StepPercentMonotone | src/utils/progress_manager.py:229-231 | the step percentage does not decrease as the count grows |
| ProgressStore.ChunkingOverallsRise | src/utils/progress_manager.py:221-238 | non-decreasing chunking counts give non-decreasing overall values within [5, 50] |
| ProgressStore.EmbeddingOverallsRise | src/utils/progress_manager.py:269-285 | non-decreasing embedding counts give non-decreasing overall values within [50, 98] |
| ProgressStore.PipelineOverallsRise | src/utils/progress_manager.py:205-301 | the phase helpers in pipeline order set non-decreasing overall values ending at 100 |
| ProgressStore.PipelineProgressRises | src/utils/progress_manager.py:205-301 | replaying the pipeline on a record gives non-decreasing overall progress and a final success at 100 |
| ProgressStore.StatusCanGoBack | src/utils/progress_manager.py:115-119 | status is not forward-only: a succeeded record can be put back into chunking |
| ProgressStore.CompletedAtCanMove | src/utils/progress_manager.py:133-134 | completed_at is not write-once: a later failure moves it |
| ProgressStore.GetProjectActiveWorkflows | src/utils/progress_manager.py:184-203 | exactly the project's records that are neither succeeded nor failed, each once, newest first |
| ProgressStore.CalculateOverallProgress | src/utils/progress_manager.py:318-337 | zero when there are no steps, never above 100, and non-negative from step 1 on |
| ProgressStore.OverallProgressContinuous | src/utils/progress_manager.py:318-337 | finishing step k gives the same value as starting step k+1 |
| ProgressStore.OverallProgressMonotone | src/utils/progress_manager.py:318-337 | within a step, more step progress never lowers overall progress |
| ProgressStore.OverallProgressComplete | src/utils/progress_manager.py:318-337 | the last step at 100 gives 100 overall |
| ProgressBroadcaster.Channel | src/utils/progress_broadcaster.py:232 | the channel is the workflow_progress prefix followed by the decimal text of the project id (IsDecimal): a minus sign exactly for a negative id, then at least one digit, no leading zero, digits that read back as its magnitude |
| ProgressBroadcaster.ChannelInjective | src/utils/progress_broadcaster.py:232 | distinct projects publish on distinct channels |
| Text.IntToStringDigits | src/utils/progress_broadcaster.py:232 | the text `str` gives an integer is its canonical decimal form: sign exactly when negative, digits without a leading zero reading back as the magnitude |
| Text.NatToStringCanonical | src/utils/progress_broadcaster.py:232 | the decimal text of a number starts with 0 only for zero and is a single digit exactly below ten |
| ProgressBroadcaster.PayloadFields | src/utils/progress_broadcaster.py:233-246 | the payload is a progress update carrying workflow id, project id, status, step fields, message, result, error and timestamp |
| ProgressBroadcaster.PayloadProgress | src/utils/progress_broadcaster.py:233-246 | the payload's percentages are the ones passed in |
| ProgressBroadcaster.PublishToRedis | src/utils/progress_broadcaster.py:211-253 | at most one publication; none without a Redis client; failures are swallowed; a publication goes to the project's channel with the payload |
| ProgressBroadcaster.WriteThenPublish | src/utils/progress_broadcaster.py:36-49 | a failed store write propagates and publishes nothing; otherwise the store is the written one and the publish follows |
| ProgressBroadcaster.InitializeWorkflow | src/utils/progress_broadcaster.py:29-49 | succeeds iff the record can be created; the record is initial; any publication goes to the project's channel |
| ProgressBroadcaster.StartChunking | src/utils/progress_broadcaster.py:51-70 | succeeds iff the write does, and the record is then chunking |
| ProgressBroadcaster.UpdateChunking | src/utils/progress_broadcaster.py:72-99 | the published overall progress equals the stored one |
| ProgressBroadcaster.CompleteChunking | src/utils/progress_broadcaster.py:101-120 | the stored overall progress is 50 |
| ProgressBroadcaster.StartEmbedding | src/utils/progress_broadcaster.py:122-142 | succeeds iff the write does, and the record is then embedding |
| ProgressBroadcaster.UpdateEmbedding | src/utils/progress_broadcaster.py:144-169 | the published overall progress equals the stored one |
| ProgressBroadcaster.CompleteWorkflow | src/utils/progress_broadcaster.py:171-190 | the record is succeeded with the result |
| ProgressBroadcaster.FailWorkflow | src/utils/progress_broadcaster.py:192-209 | the record is failed with the error message |
| ProgressBroadcaster.GetParentWorkflowId | src/utils/progress_broadcaster.py:256-278 | the parent id if set, else the root id, else nothing |
| ProcessWorkflow.InitializeAll | src/tasks/process_workflow.py:124-164 | the progress record is created first with two steps; the idempotency record is attempted only after that succeeds |
| ProcessWorkflow.ProcessAndPushWorkflow | src/tasks/process_workflow.py:92-122 | initialisation runs under the task's own id, then the chain is dispatched last |
| ProcessWorkflow.FailOpen | src/tasks/process_workflow.py:101-121 | whatever initialisation does, the same chain is dispatched and WORKFLOW_STARTED is returned with the workflow id |
| ProcessWorkflow.RecordFailure | src/tasks/process_workflow.py:68-79 | with a truthy workflow id and a store that opens, the failure write is attempted and logged as a mark_workflow_failed call after the earlier calls, and the store is what that write leaves; otherwise nothing is written; the original error is re-raised |
| ProcessWorkflow.SetupFailureRecorded | src/tasks/process_workflow.py:38-79 | when the embedding phase fails while setting up, the workflow is marked FAILED with the setup error, that is the only store call, and the same error is re-raised |
| ProcessWorkflow.RunEmbeddingPhase | src/tasks/process_workflow.py:38-83 | the phase returns the indexing result, or raises the setup or indexing error |
| ProcessWorkflow.NoWritesWithoutWorkflow | src/tasks/process_workflow.py:48-79 | without a truthy workflow id no progress write occurs |
| ProcessWorkflow.EmbeddingTrace | src/tasks/process_workflow.py:48-66 | the trace is embedding start, then indexing, then success or failure |
| ProcessWorkflow.EmbeddingOutcomeRecorded | src/tasks/process_workflow.py:48-79 | when the writes succeed, the record ends succeeded with the result or failed with the error text |
| ProcessWorkflow.PushAfterProcess | src/tasks/process_workflow.py:18-35 | the second stage reads project, reset flag and workflow id from the first stage's result, with zero inserted chunks by default |
| LogChunkers.StrippedLines | src/controllers/ProcessController.py:288 | every kept line is non-empty and stripped |
| LogChunkers.PrepareLines | src/controllers/ProcessController.py:285-288 | the input lines are non-empty, stripped and newline-free |
| LogChunkers.PrepareLinesOfJoin | src/controllers/ProcessController.py:285-288 | lines that are already clean come back unchanged from joining and re-splitting |
| LogChunkers.SplitFrom | src/controllers/ProcessController.py:298-338 | no chunk is empty |
| LogChunkers.SplitCovers | src/controllers/ProcessController.py:298-338 | the chunks concatenate back to the input lines in order |
| LogChunkers.SplitBoundaries | src/controllers/ProcessController.py:300-326 | a chunk closes at the first line where the size reaches the threshold or the key rule fires, with that line inside it |
| LogChunkers.Annotate | src/controllers/ProcessController.py:376-399 | each line is paired with the key state seen before it |
| LogChunkers.ChunksShape | src/controllers/ProcessController.py:298-338 | the generic splitter partitions the lines and cuts them as the boundary rule says |
| LogChunkers.SizeReachedLast | src/controllers/ProcessController.py:300-314 | within a chunk, only the last line can bring the size to the threshold |
| LogChunkers.RenderedLines | src/controllers/ProcessController.py:315-338 | the documents' contents, split on newlines, are the chunk lines |
| LogChunkers.DocumentsPartition | src/controllers/ProcessController.py:285-338 | a keyed splitter's documents hold exactly the prepared lines in order, and none is empty |
| LogChunkers.RenderedNonEmpty | src/controllers/ProcessController.py:315-338 | no document has empty content |
| LogChunkers.Window | src/controllers/ProcessController.py:366-373 | a time-window key, when present, is non-empty |
| LogChunkers.StatusCategory | src/controllers/ProcessController.py:508-519 | a leading 2, 3, 4 or 5 picks the matching category; anything else or nothing is unknown |
| LogChunkers.StatusCategoryOfCode | src/controllers/ProcessController.py:508-519 | a three-digit code from 200 to 599 falls in the category of its hundreds digit |
| LogChunkers.CountErrors | src/controllers/ProcessController.py:319 | the error-line count is at most the line count and zero iff no line is an error |
| LogChunkers.TimeWindowCuts | src/controllers/ProcessController.py:376-399 | inside a time-window chunk no window change occurs before its last line |
| LogChunkers.StatusCuts | src/controllers/ProcessController.py:486-567 | inside a status chunk no category change occurs before its last line |
| LogChunkers.ErrorBlockCuts | src/controllers/ProcessController.py:308-312 | inside an error block, every line after an error that is not the last is itself an error |
| LogChunkers.CountErrorsAppend | src/controllers/ProcessController.py:319 | appending a line adds one to the error count iff it is an error line |
| LogChunkers.OverlapCount | src/controllers/ProcessController.py:757 | the overlap is at least one line |
| LogChunkers.LastN | src/controllers/ProcessController.py:758 | the overlap is a non-empty suffix of the closed chunk |
| LogChunkers.SlideStart | src/controllers/ProcessController.py:740-776 | the first sliding chunk continues the lines already pending, and pending lines are always emitted |
| LogChunkers.SlideLinks | src/controllers/ProcessController.py:740-762 | every sliding chunk is non-empty and the next one opens with the lines carried over from it |
| LogChunkers.SlideNumbering | src/controllers/ProcessController.py:745-776 | chunk i carries index start + i, and has_overlap from the first closed chunk on |
| LogChunkers.SlideFull | src/controllers/ProcessController.py:740-762 | every chunk closed inside the loop had reached the size |
| LogChunkers.SlidingSplitter | src/controllers/ProcessController.py:723-779 | one document per sliding chunk |
| LogChunkers.SlidingShape | src/controllers/ProcessController.py:740-776 | chunk_index is the position, has_overlap holds exactly from the second chunk on, every chunk closed in the loop has reached the size, and each next chunk opens with the last max(1, n * overlap // 100) lines of the one before |
| LogChunkers.Route | src/controllers/ProcessController.py:75-137 | the four named methods and the sliding method are dispatched; every other name falls back to the time-window splitter |
| LogChunkers.ProcessFileContent | src/controllers/ProcessController.py:60-137 | every routed method but the sliding one hands back the prepared lines exactly once each, in order, in non-empty documents; the sliding one makes one document per sliding chunk |
| LogChunkers.ErrorBlockSplitter | src/controllers/ProcessController.py:278-341 | the documents hold every prepared line exactly once, in order, and none is empty |
| LogChunkers.TimeWindowSplitter | src/controllers/ProcessController.py:343-416 | the documents hold every prepared line exactly once, in order, and none is empty |
| LogChunkers.ComponentSplitter | src/controllers/ProcessController.py:418-484 | the documents hold every prepared line exactly once, in order, and none is empty |
| LogChunkers.StatusCodeSplitter | src/controllers/ProcessController.py:486-567 | the documents hold every prepared line exactly once, in order, and none is empty |
| LogChunkers.UrlPatternSplitter | src/controllers/ProcessController.py:569-649 | the documents hold every prepared line exactly once, in order, and none is empty |
| LogChunkers.BotHumanSplitter | src/controllers/ProcessController.py:651-721 | the documents hold every prepared line exactly once, in order, and none is empty |
| LogChunkers.HttpMethodSplitter | src/controllers/ProcessController.py:781-844 | the documents hold every prepared line exactly once, in order, and none is empty |
| LogChunkers.LongPieces | src/controllers/ProcessController.py:852 | the simple splitter keeps only stripped lines longer than one character |
| LogChunkers.SimplerFrom | src/controllers/ProcessController.py:855-871 | the loop always closes with the stripped leftover as its last chunk, empty or not |
| LogChunkers.SimplerSplitter | src/controllers/ProcessController.py:847-873 | there is always at least one chunk, even for a file with no text |
| LogChunkers.SimplerEmptyChunk | src/controllers/ProcessController.py:867-871 | as written, empty input gives one empty chunk |
| LogChunkers.SimplerTrailingEmptyChunk | src/controllers/ProcessController.py:867-871 | as written, input that fills the last chunk exactly gives a trailing empty chunk |
| LogChunkers.SimplerSplitterIntended | src/controllers/ProcessController.py:847-874 | with the final append guarded by non-emptiness, no chunk is empty and empty input gives none |
| LogChunkers.SimplerAgree | src/controllers/ProcessController.py:857-871 | the guarded splitter equals the written one with empty chunks removed |
| LogStatistics.Bump | src/controllers/EDAController.py:55-86 | incrementing a counter adds one for that key, keeps every other count, and keeps keys distinct |
| LogStatistics.BumpErrorTotal | src/controllers/EDAController.py:58-62 | a status at or above 400 adds one error |
| LogStatistics.ErrorTotalAtMostTotal | src/controllers/EDAController.py:58-62 | errors never exceed requests |
| LogStatistics.HourOf | src/controllers/EDAController.py:82-84 | an hour key exists iff the timestamp has a colon; it is the prefix of the timestamp up to its second colon, or all of it when there is none, and holds exactly one colon |
| LogStatistics.Step | src/controllers/EDAController.py:49-86 | one record adds one request and its size; the error count grows by one exactly for a status at or above 400; the status count of the record grows by one; the IP joins the visitor set and its count grows by one exactly when it is known or the set is under its cap; the URL count grows by one exactly when the URL is known or the URL table is under its cap; the hour count grows by one exactly when the hour table is under its cap; a timestamp without an hour or a full hour table leaves the hours unchanged; in every counter no other key's count moves (Tallied) |
| LogStatistics.StepValid | src/controllers/EDAController.py:49-86 | one record keeps the caps and the count relations |
| LogStatistics.Matched | src/controllers/EDAController.py:44-46 | at most one record per line |
| LogStatistics.FoldSkipsUnmatched | src/controllers/EDAController.py:44-46 | folding the lines equals folding only the records of matching lines |
| LogStatistics.FoldRecordsValid | src/controllers/EDAController.py:44-86 | the fold keeps the caps and counts one request per record |
| LogStatistics.ArgMax | src/controllers/EDAController.py:102 | picks the first entry of largest count |
| LogStatistics.Top | src/controllers/EDAController.py:102-105 | keeps min(k, n) entries of the counter |
| LogStatistics.TopDescending | src/controllers/EDAController.py:102-105 | the top entries are in descending count order |
| LogStatistics.TopLeavesSmaller | src/controllers/EDAController.py:102-105 | no entry left out counts more than an entry kept |
| LogStatistics.StrLtIrreflexive | src/controllers/EDAController.py:108 | the string order used to sort labels is irreflexive |
| LogStatistics.StrLtTransitive | src/controllers/EDAController.py:108 | that order is transitive |
| LogStatistics.StrLtTotal | src/controllers/EDAController.py:108 | that order is total on distinct strings |
| LogStatistics.SortStrings | src/controllers/EDAController.py:108 | sorting is a permutation |
| LogStatistics.SortStringsAscending | src/controllers/EDAController.py:108 | sorting distinct strings gives strictly ascending labels |
| LogStatistics.TrafficAligned | src/controllers/EDAController.py:107-112 | the labels are the hours in ascending order and each value is that hour's count |
| LogStatistics.AnalyzeLog | src/controllers/EDAController.py:18-130 | a missing or unreadable file is an error, no matching line is "No valid log lines found", otherwise the report |
| LogStatistics.ReportBounds | src/controllers/EDAController.py:53-86 | unique visitors at most 10000, at most 5000 hours, error rate within [0, 100], status counts summing to the requests, at most 10 top entries |
| LogStatistics.ReportCharts | src/controllers/EDAController.py:100-111 | both top lists run from most to least counted and no entry left out outnumbers one kept; the hour labels are exactly the counted hours in ascending order, each value that hour's count |
| LogStatistics.Report | src/controllers/EDAController.py:99-130 | the request count, the unique visitors and the status counts are carried over; the error rate is the error count as a percentage of the requests (Percent), within [0, 100] whenever errors do not exceed requests; the bandwidth is the total size in megabytes (Megabytes); the average size is the mean (Average); the top IPs and URLs are the ten-entry Top of their counters; the labels and values are the Traffic chart of the hourly counter, one per counted hour |
| LogStatistics.Percent | src/controllers/EDAController.py:118 | the rate times the request count is 100 times the error count, and it lies within [0, 100] when the part does not exceed the whole |
| LogStatistics.Megabytes | src/controllers/EDAController.py:117 | the bandwidth times 1024 * 1024 is the total size in bytes |
| LogStatistics.Average | src/controllers/EDAController.py:119 | the average times the request count is the total size |
| LogStatistics.FoldValid | src/controllers/EDAController.py:44-86 | folding all lines from the empty statistics keeps every cap and counts one request per matching line |
| LogStatistics.AnalyzeLogIsReport | src/controllers/EDAController.py:88-130 | when some line matches, the analysis is the report of the folded statistics |
| LogStatistics.AnalyzeLogCounts | src/controllers/EDAController.py:44-130 | the report counts exactly the matching lines, respects every bound, gives the error rate as the share of 4xx and 5xx statuses, lists the top IPs and URLs in descending order and the hours in ascending order, one value per label |
| AnswerCleaning.OrdinaryLineClean | streamlit_app.py:167-214 | a line without a system keyword or separator is clean |
| AnswerCleaning.CleanFrom | streamlit_app.py:166-214 | every kept line is free of the separator and every system keyword |
| AnswerCleaning.CleanFromOrdinary | streamlit_app.py:166-214 | when no line is a system line, every line is kept |
| AnswerCleaning.MarkerContent | streamlit_app.py:190-202 | content is taken iff a marker occurs, and it is a stripped piece of the line |
| AnswerCleaning.CollapseBlankLines | streamlit_app.py:228-229 | the result has no run of three newlines |
| AnswerCleaning.CollapseAvoids | streamlit_app.py:228-229 | collapsing blank lines creates no forbidden word |
| AnswerCleaning.DropPrefix | streamlit_app.py:219-222 | dropping the answer prefix keeps the text clean |
| AnswerCleaning.KeptText | streamlit_app.py:145-216 | the joined kept lines are clean and stripped |
| AnswerCleaning.RemoveSeparators | streamlit_app.py:225 | on clean text, removing separators only strips |
| AnswerCleaning.Finish | streamlit_app.py:219-231 | the result is stripped and has no triple newline |
| AnswerCleaning.CleanAnswerText | streamlit_app.py:136-231 | empty input is returned as is; otherwise the result has no separator, no system keyword, no triple newline and no surrounding whitespace |
| AnswerCleaning.CleanAnswerTextKeepsOrdinary | streamlit_app.py:136-231 | text that is already clean and has no answer prefix comes back unchanged |
| AnswerCleaning.CleanContent | streamlit_app.py:241-243 | falsy content comes back as is; string content is replaced by its cleaned text, other content by the cleaned text of its rendering; truthy cleaned content is a clean, stripped, non-empty string |
| AnswerCleaning.FilterChatHistory | streamlit_app.py:233-247 | only user and assistant messages are kept, never more than given |
| AnswerCleaning.FilterAppend | streamlit_app.py:233-247 | filtering a concatenation is the concatenation of the filtered parts, so each message is filtered on its own and kept in place |
| AnswerCleaning.FilterOne | streamlit_app.py:235-246 | filtering a one-message history is filtering that message |
| AnswerCleaning.FilterTurn | streamlit_app.py:237-246 | a user message is kept as is; an assistant message is rebuilt as an assistant turn with its cleaned content and kept exactly when that content is truthy; any other role is dropped |
| AnswerCleaning.FilterKeepsUserTurns | streamlit_app.py:233-247 | user messages pass through unchanged and in order |
| AnswerCleaning.FilterCleansAssistantTurns | streamlit_app.py:233-247 | every assistant message kept carries non-empty, clean, stripped content |
| GroqProvider.NewProvider | src/stores/llm/providers/GroqProvider.py:8-25 | the API URL defaults when none is given; no model is set |
| GroqProvider.PyPrefix | src/stores/llm/providers/GroqProvider.py:91 | Python slicing semantics, negative bounds included |
| GroqProvider.ProcessText | src/stores/llm/providers/GroqProvider.py:89-91 | the result is stripped, within the limit and a piece of the text |
| GroqProvider.ProcessTextKeepsShort | src/stores/llm/providers/GroqProvider.py:89-91 | short stripped text is unchanged |
| GroqProvider.ConstructPrompt | src/stores/llm/providers/GroqProvider.py:93-98 | a two-key message with the role and the content unchanged |
| GroqProvider.GenerateText | src/stores/llm/providers/GroqProvider.py:40-68 | no model raises before the history is touched; otherwise one user message with the processed prompt is appended, to a fresh list when there is no history |
| GroqProvider.EmbedText | src/stores/llm/providers/GroqProvider.py:77-83 | no embedding is ever produced |
| RagAnswer.CollectionName | src/controllers/NLPController.py:21-22 | the name is stripped, and for a stripped id it is the prefix, the vector size, an underscore and the id |
| RagAnswer.CollectionNameInjective | src/controllers/NLPController.py:21-22 | distinct sizes or stripped ids give distinct collection names |
| RagAnswer.SearchVectorDbCollection | src/controllers/NLPController.py:67-93 | results come only from a search with the first vector and are non-empty; an unusable embedding gives False; errors propagate |
| RagAnswer.NoDataResponse | src/controllers/NLPController.py:197-210 | the response embeds the query between the fixed head and tail |
| RagAnswer.NoDataResponseInjective | src/controllers/NLPController.py:197-210 | the query can be read back from the response |
| RagAnswer.Unquote | src/controllers/NLPController.py:119 | the refined query is no longer and has no surrounding quote |
| RagAnswer.RefineQuery | src/controllers/NLPController.py:108-122 | refinement applies only with more than one history entry and a truthy reply; any failure keeps the query |
| RagAnswer.DocumentPrompts | src/controllers/NLPController.py:142-148 | one prompt per document, numbered from 1, over the processed text |
| RagAnswer.FullPrompt | src/controllers/NLPController.py:141-166 | starts with the count line, contains every document prompt, ends with the footer |
| RagAnswer.SeedHistory | src/controllers/NLPController.py:158-164 | an absent or empty history is seeded with exactly one system message |
| RagAnswer.Generate | src/controllers/NLPController.py:168-195 | the seed history is kept as a prefix; a failure gives no answer; an empty answer gives the no-data response after the sent message; a success appends the sent message, the user query and the answer |
| RagAnswer.DocumentsHistory | src/controllers/NLPController.py:137-195 | once documents are found the history starts with the caller's truthy history or one system message, and a real answer closes it with the query and the answer |
| RagAnswer.AnswerHistory | src/controllers/NLPController.py:95-195 | the caller's truthy history is a prefix of the result; a built prompt on a falsy history starts with the system message; a real answer ends the history with the query and the answer |
| RagAnswer.AnswerRagQuestion | src/controllers/NLPController.py:95-195 | a prompt is built iff the search found documents; without a prompt the history comes back as given; there is no answer iff the search raised or, with documents, the generation raised or has no model |
| RagAnswer.AnswerFromSearch | src/controllers/NLPController.py:125-195 | the same three facts for a given search outcome, and an answer without a prompt is the no-data reply |
| RagAnswer.NothingFoundAnswer | src/controllers/NLPController.py:131-133 | no documents gives the no-data response, no prompt and the history as given |
| RagAnswer.NoEmbeddingsNoData | src/controllers/NLPController.py:77-93 | with the Groq provider as embedder every question gets the no-data response |
| RagAnswer.AnswerTurnRecorded | src/controllers/NLPController.py:169-191 | a truthy answer is recorded as a user turn then an assistant turn |
| RagAnswer.GenerationFailureKeepsPrompt | src/controllers/NLPController.py:193-195 | a failing generation returns no answer but keeps the full prompt |
| RagAnswer.EmptyAnswerNoData | src/controllers/NLPController.py:175-177 | an empty answer gives the no-data response |
| ChunkBatching.MakeChunk | src/models/db_schemes/data_chunk.py:7-9 | a chunk is accepted iff its text is non-empty and its order positive, with its fields unchanged |
| ChunkBatching.BatchesCut | src/models/ChunkModel.py:46-47 | the batches concatenate back to the list and all but the last are full |
| ChunkBatching.BatchCount | src/models/ChunkModel.py:46-54 | there are ceil(n / size) batches |
| ChunkBatching.WellCutIsBatches | src/models/ChunkModel.py:46-47 | any well-cut split of a list is its batching |
| ChunkBatching.InsertManyChunks | src/models/ChunkModel.py:44-56 | a zero size raises, a negative one writes nothing, a positive one writes the batches in order; the count returned is the list length |
| ChunkBatching.InsertedInOrder | src/models/ChunkModel.py:44-56 | every chunk is written once, in order, in ceil(n / size) writes of at most size each |
| UploadValidation.ValidateUploadedFile | src/controllers/DataController.py:8-13 | valid iff the type is allowed and the size is within the limit, with the matching message |
| UploadValidation.RejectionReasons | src/controllers/DataController.py:9-12 | a wrong type is always the reason reported, whatever the size |
| UploadValidation.LimitInclusive | src/controllers/DataController.py:6-12 | the size limit is inclusive |
| UriEncoding.Utf8 | config.js:42 | each character is one to four bytes, the later ones continuation bytes |
| UriEncoding.Utf8RoundTrip | config.js:42 | UTF-8 decoding inverts encoding |
| UriEncoding.PercentBytes | config.js:42 | three upper-case escape characters per byte |
| UriEncoding.EncodeURIComponent | config.js:42 | only unreserved characters and escapes appear |
| UriEncoding.UriEncodeAvoids | config.js:42 | an encoded component holds no '&', '=' or '+' |
| UriEncoding.UriComponentRoundTrip | config.js:42 | percent-decoding inverts encodeURIComponent |
| UriEncoding.FormEncode | api/proxy.js:69-78 | form encoding uses only safe characters, '+' and escapes |
| UriEncoding.FormRoundTrip | api/proxy.js:69-78 | form decoding inverts form encoding |
| UriEncoding.FormEncodeAvoids | api/proxy.js:69-78 | a form-encoded value holds no '&' or '=' |
| UriEncoding.SerializeQuery | api/proxy.js:69-78 | the query string is empty iff there are no parameters |
| UriEncoding.QueryRoundTrip | api/proxy.js:69-78 | parsing a serialised query gives the parameters back, in order |
| UriEncoding.DropLeadingSlash | api/proxy.js:29 | exactly one leading slash is removed, if present |
| UriEncoding.DropTrailingSlash | config.js:28 | exactly one trailing slash is removed, if present |
| UriEncoding.WithTrailingSlash | api/proxy.js:30 | a slash is added only when missing |
| ApiProxy.QueryGet | api/proxy.js:21 | the value found is bound to the key, and nothing is found only when the key is absent |
| ApiProxy.ForwardedParams | api/proxy.js:69-74 | exactly the parameters other than path, in the order the query lists them (the reordering of integer-like keys is left out), unchanged when there is no path |
| ApiProxy.ForwardedParamsAppend | api/proxy.js:69-74 | the parameters of a concatenation are those of each part, in the same order, so the forwarded query follows the order of the query as given (integer-like keys are not moved first) |
| ApiProxy.TargetUrl | api/proxy.js:28-31 | the base with one trailing slash then the path less one leading slash |
| ApiProxy.ForwardBody | api/proxy.js:40-66 | a body is forwarded iff the method is not GET and the body is truthy; JSON bodies lose only path; form bodies keep every entry |
| ApiProxy.Handle | api/proxy.js:8-105 | CORS on every reply; OPTIONS gives 200 unforwarded; a missing path gives 400 unforwarded; otherwise the request is forwarded with its method, body and query, and the upstream status and data are relayed, or 500 with the proxy error |
| ApiProxy.UpstreamSeesParams | api/proxy.js:69-78 | the API parses the forwarded URL's query into exactly the client's parameters less path |
| ClientConfig.ApiBase | config.js:23-28 | in proxy mode the proxy URL less one trailing slash, otherwise the API base |
| ClientConfig.ProxyUrl | config.js:13 | the proxy URL is non-empty exactly when the setting is a non-empty text, and is then that text |
| ClientConfig.NeedsProxy | config.js:16-20 | only an HTTPS page can need the proxy, and never for an API base that is already HTTPS |
| ClientConfig.UseProxy | config.js:21 | the proxy is used exactly when a non-empty proxy URL is set and it is needed, so only from an HTTPS page to a non-HTTPS API |
| ClientConfig.BuildApiUrl | config.js:38-49 | proxy mode puts the encoded clean path in the path parameter; direct mode joins the base and the clean path with one slash |
| ClientConfig.PathQueryRoundTrip | config.js:42 | the proxy reads back exactly the path the client encoded |
| ClientConfig.ProxyUrlQuery | config.js:39-42 | a proxy-mode URL is the proxy URL, a question mark, and a query that parses to the single path parameter holding the clean path |
| ClientConfig.ForwardsPathOnly | api/proxy.js:21-31 | a request whose only parameter is a non-empty path is forwarded to that path's target URL with no query string |
| ClientConfig.DirectUrlIsTarget | config.js:43-47 | against the proxy's own API base, direct mode builds the proxy's target URL for the clean path |
| ClientConfig.ProxyReachesDirectUrl | config.js:38-49 | a request built in proxy mode reaches the same URL the direct mode would have built |

## Left out

- Databases, Redis, WebSockets and HTTP are modelled as effects. Sessions, commits and rollbacks, sockets, `fetch`, file reading and the loaders are not modelled. Their results and failures are parameters.
- Timestamps, `datetime.now`, ISO strings and connection-id strings are parameters or opaque values. A connection id is a (serial, stamp) pair rather than its rendered text.
- Celery is not modelled: the queue, the chain runtime, retries, countdowns and time limits. Each operation is atomic, and `_index_data_content` is a parameter outcome.
- Asyncio scheduling is not modelled; every `await` is an atomic step.
- Regex extraction is not modelled. The timestamp, IP, component, URL, bot and HTTP-method patterns and the access-log pattern are function parameters. Only `get_status_category` is defined.
- Floating point is replaced by exact `real`. The EDA report's rounding of bandwidth, error rate and average size is not modelled.
- LogChunkers.Route: the splitters' logging and the `metadatas` argument are left out; neither affects the chunks.
- LogChunkers.SlideFrom: the sliding splitter's metadata is reduced to `chunk_index` and `has_overlap`.
- LogChunkers.SimplerSplitter: the tag is one character, the default "\n". A longer `splitter_tag` is not modelled. The only call, in a branch of `process_file_content` that is commented out, passes no tag.
- AnswerCleaning.CleanContent: the `str()` rendering of non-string content is a parameter.
- WebSocketEndpoint.Classify: a truthy non-string `workflow_id` in a client frame is treated like a missing one.
- GroqProvider.GenerateText: the temperature and token-limit arguments are dropped, and the network call is a parameter. The role strings "system", "user" and "assistant" are assumed, because the provider's enum file is not part of this model.
- RagAnswer.AnswerHistory: the prompt templates are parameters. The embedding client, vector search and generation replies are parameters. A vector of non-list type is treated like a missing one.
- `reset_vector_db_collection`, `get_vector_db_collection_info` and `index_into_vector_db` are not part of this model: they only forward to the vector store.
- ChunkBatching.InsertManyChunks: a failing bulk write is not modelled; every write is taken to succeed.
- UploadValidation.ValidateUploadedFile: a missing content type or size is not modelled.
- ApiProxy.ForwardedParams: JavaScript's `Object.keys` lists integer-like query keys first, in ascending order; the model keeps the order of the query as given, so `?path=x&b=1&0=y` forwards `b=1&0=y` here but `0=y&b=1` in the proxy.
- ApiProxy.Handle has these gaps:
  - a repeated query key, which the platform turns into an array value, is kept as separate pairs;
  - a non-string path is not modelled;
  - `Object.entries` ordering of integer-like keys is not modelled;
  - File and Blob form values are not distinguished from `String()` conversion;
  - the JSON-or-text reading of the upstream reply is folded into the upstream parameter.
- UriEncoding.ParseQuery: malformed escapes are kept raw, and lone surrogates never reach the encoder, because strings here are Unicode scalar values.
- ClientConfig.UseProxy: the `window` globals, the mixed-content console warning and the WebSocket base URL are left out.
- The Streamlit page layout, polling loop and requests are not modelled, apart from the two cleaning functions.

## Findings

| source | as written | input that shows it | evidently intended | confidence | as-written member | corrected member |
|---|---|---|---|---|---|---|
| src/controllers/ProcessController.py:867-871 | the final chunk is appended under `len(current_chunk) >= 0`, which always holds | texts `[]` give one empty document; texts `["ab"]` with chunk size 1 give `"ab"` and then an empty document | append the final chunk only when it is non-empty, as every other splitter does | not executed | LogChunkers.SimplerTrailingEmptyChunk | LogChunkers.SimplerSplitterIntended |

=== FILE: answer_cleaning.dfy ===
/** The fixed words of the prompt templates that the answer clean-up
    looks for. */
module PromptWords {

  /** A run of `n` box-drawing bars. */
  function Bars(n: nat): (r: string)
    ensures |r| == n && forall i | 0 <= i < n :: r[i] == '\U{2550}'
  {
    if n == 0 then "" else Bars(n - 1) + "\U{2550}"
  }

  /** The separator line of the prompt templates: 63 bars. */
  const Separator: string := Bars(63)

  /** Words that mark a line as part of the system prompt. */
  const SystemKeywords: seq<string> := [
    "ANTI-HALLUCINATION",
    "CONVERSATION CONTEXT",
    "RESPONSE STYLE",
    "LOG TERMINOLOGY",
    "EXAMPLE GOOD RESPONSE",
    "USER QUESTION",
    "INSTRUCTIONS FOR YOUR RESPONSE",
    "YOUR RESPONSE:",
    "You are an expert log analysis AI assistant"
  ]

  /** Markers after which the answer starts, tried in this order. */
  const AnswerMarkers: seq<string> := ["**Answer:**", "**YOUR RESPONSE:**", "Answer:", "Answer :"]

  /** Everything that must not survive the clean-up. */
  const Forbidden: seq<string> := SystemKeywords + [Separator]

  /** Non-empty words without line breaks. */
  predicate SingleLineWords(words: seq<string>) {
    forall j | 0 <= j < |words| :: |words[j]| > 0 && '\n' !in words[j]
  }

  /** The keywords but the last, one at a time: each is non-empty and has
      no line break. */
  lemma KeywordSingleLine(j: nat)
    requires j < |SystemKeywords| - 1
    ensures |SystemKeywords[j]| > 0 && '\n' !in SystemKeywords[j]
  {
    var w := SystemKeywords[j];
    if j == 0 { assert w == "ANTI-HALLUCINATION"; }
    else if j == 1 { assert w == "CONVERSATION CONTEXT"; }
    else if j == 2 { assert w == "RESPONSE STYLE"; }
    else if j == 3 { assert w == "LOG TERMINOLOGY"; }
    else if j == 4 { assert w == "EXAMPLE GOOD RESPONSE"; }
    else if j == 5 { assert w == "USER QUESTION"; }
    else if j == 6 { assert w == "INSTRUCTIONS FOR YOUR RESPONSE"; }
    else { assert w == "YOUR RESPONSE:"; }
  }

  lemma IntroHasNoBreak()
    ensures '\n' !in "You are an expert log analysis AI assistant"
  {
  }

  /** The last keyword, the opening of the system prompt. */
  lemma LastKeywordSingleLine()
    ensures var w := SystemKeywords[|SystemKeywords| - 1]; |w| > 0 && '\n' !in w
  {
    assert SystemKeywords[|SystemKeywords| - 1] == "You are an expert log analysis AI assistant";
    IntroHasNoBreak();
  }

  lemma KeywordsSingleLine()
    ensures SingleLineWords(SystemKeywords)
  {
    forall j | 0 <= j < |SystemKeywords|
      ensures |SystemKeywords[j]| > 0 && '\n' !in SystemKeywords[j]
    {
      if j < |SystemKeywords| - 1 {
        KeywordSingleLine(j);
      } else {
        LastKeywordSingleLine();
      }
    }
  }

  lemma SingleLineAppend(words: seq<string>, w: string)
    requires SingleLineWords(words) && |w| > 0 && '\n' !in w
    ensures SingleLineWords(words + [w])
  {
  }

  lemma ForbiddenSingleLine()
    ensures SingleLineWords(Forbidden)
  {
    KeywordsSingleLine();
    SingleLineAppend(SystemKeywords, Separator);
  }
}

/**
  The chat front end's clean-up of generated answers: dropping the lines of
  an echoed system prompt, picking up the answer after its marker, removing
  leftover separators and collapsing runs of blank lines; and the filter
  that keeps only the user's and the assistant's turns of a chat history.
*/
module AnswerCleaning {
  import opened Wrappers
  import opened Text
  import opened Json
  import opened PromptWords

  /** `s` contains none of `words`. */
  predicate Avoids(s: string, words: seq<string>) {
    forall j | 0 <= j < |words| :: !Contains(s, words[j])
  }

  /** `any(keyword in line for keyword in system_keywords)`. */
  predicate IsSystemLine(line: string) {
    !Avoids(line, SystemKeywords)
  }

  /** Free of every keyword and of the separator. */
  predicate Clean(s: string) {
    Avoids(s, Forbidden)
  }

  /** A line that is neither a system line nor holds the separator is clean. */
  lemma OrdinaryLineClean(line: string)
    requires !IsSystemLine(line) && !Contains(line, Separator)
    ensures Clean(line)
  {
    forall j | 0 <= j < |Forbidden| ensures !Contains(line, Forbidden[j]) {
      if j < |SystemKeywords| {
        assert Forbidden[j] == SystemKeywords[j];
      } else {
        assert Forbidden[j] == Separator;
      }
    }
  }

  lemma CleanHasNoSeparator(s: string)
    requires Clean(s)
    ensures !Contains(s, Separator)
  {
    assert Forbidden[|Forbidden| - 1] == Separator;
  }

  /** A slice of a string avoiding some words avoids them. */
  lemma AvoidsSlice(s: string, words: seq<string>, lo: int, hi: int)
    requires 0 <= lo <= hi <= |s| && Avoids(s, words)
    ensures Avoids(s[lo..hi], words)
  {
    forall j | 0 <= j < |words| ensures !Contains(s[lo..hi], words[j]) {
      NotContainsSlice(s, words[j], lo, hi);
    }
  }

  lemma CleanSlice(s: string, lo: int, hi: int)
    requires 0 <= lo <= hi <= |s| && Clean(s)
    ensures Clean(s[lo..hi])
  {
    AvoidsSlice(s, Forbidden, lo, hi);
  }

  lemma CleanStrip(s: string)
    requires Clean(s)
    ensures Clean(Strip(s))
  {
    var r := Strip(s);
    CleanSlice(s, LeadingSpaces(s), LeadingSpaces(s) + |r|);
  }

  /** `line.split(marker, 1)[-1]`: what follows the first occurrence of the
      marker, or the whole line when it does not occur. */
  function AfterMarker(line: string, marker: string): (r: string)
    ensures |r| <= |line| && r == line[|line| - |r|..]
    ensures !Contains(line, marker) ==> r == line
  {
    match IndexOf(line, marker)
    case None => line
    case Some(i) => line[i + |marker|..]
  }

  /** A piece found inside a string avoiding some words avoids them. */
  lemma AvoidsInside(s: string, piece: string, words: seq<string>)
    requires Contains(s, piece) && Avoids(s, words)
    ensures Avoids(piece, words)
  {
    var i :| 0 <= i <= |s| - |piece| && SubstringAt(s, piece, i);
    assert s[i..i + |piece|] == piece;
    AvoidsSlice(s, words, i, i + |piece|);
  }

  /** The stripped text after a marker the line holds is a piece of it. */
  lemma AfterMarkerInLine(line: string, marker: string)
    ensures Contains(line, Strip(AfterMarker(line, marker)))
  {
    var rest := AfterMarker(line, marker);
    StripOfTailInside(line, |line| - |rest|);
  }

  /** Some marker occurs in the line iff the first does or one of the
      others does. */
  lemma SomeMarkerSplit(line: string, markers: seq<string>)
    requires |markers| > 0
    ensures (exists j | 0 <= j < |markers| :: Contains(line, markers[j]))
        <==> Contains(line, markers[0]) || exists j | 0 <= j < |markers[1..]| :: Contains(line, markers[1..][j])
  {
    assert forall j | 1 <= j < |markers| :: markers[j] == markers[1..][j - 1];
  }

  /** The content after the first of `markers` that the line holds,
      stripped: a stripped piece of the line. */
  function MarkerContent(line: string, markers: seq<string>): (r: Option<string>)
    ensures r.Some? <==> exists j | 0 <= j < |markers| :: Contains(line, markers[j])
    ensures r.Some? ==> Contains(line, r.value) && Stripped(r.value)
    decreases |markers|
  {
    if |markers| == 0 then None
    else
      SomeMarkerSplit(line, markers);
      if Contains(line, markers[0]) then
        AfterMarkerInLine(line, markers[0]);
        Some(Strip(AfterMarker(line, markers[0])))
      else MarkerContent(line, markers[1..])
  }

  /** The line loop from line `i` on, `skip` being `skip_until_answer`. A
      line with a keyword or the separator is dropped and starts skipping
      (the separator test that also looks at the surrounding lines ends the
      same way). While skipping, a line with a marker contributes what
      follows the marker and ends skipping; failing that, a non-blank line
      past the sixth ends skipping and is kept. */
  function CleanFrom(lines: seq<string>, i: nat, skip: bool): (r: seq<string>)
    ensures forall k | 0 <= k < |r| :: Clean(r[k])
    decreases |lines| - i
  {
    if i >= |lines| then []
    else
      var line := lines[i];
      if IsSystemLine(line) || Contains(line, Separator) then CleanFrom(lines, i + 1, true)
      else
        OrdinaryLineClean(line);
        var rest := CleanFrom(lines, i + 1, false);
        if skip then
          match MarkerContent(line, AnswerMarkers)
          case Some(content) =>
            AvoidsInside(line, content, Forbidden);
            (if content != "" then [content] else []) + rest
          case None =>
            if Strip(line) != "" && i > 5 then [line] + rest
            else CleanFrom(lines, i + 1, true)
        else [line] + rest
  }

  /** Lines without keywords or separators, outside a skip, are all kept. */
  lemma {:induction false} CleanFromOrdinary(lines: seq<string>, i: nat)
    requires i <= |lines|
    requires forall k | 0 <= k < |lines| :: !IsSystemLine(lines[k]) && !Contains(lines[k], Separator)
    ensures CleanFrom(lines, i, false) == lines[i..]
    decreases |lines| - i
  {
    if i < |lines| {
      CleanFromOrdinary(lines, i + 1);
      assert lines[i..] == [lines[i]] + lines[i + 1..];
    }
  }

  /** Joining clean lines with newlines gives a clean text. */
  lemma CleanJoin(parts: seq<string>)
    requires forall k | 0 <= k < |parts| :: Clean(parts[k])
    ensures Clean(Join(parts, "\n"))
  {
    ForbiddenSingleLine();
    forall j | 0 <= j < |Forbidden| ensures !Contains(Join(parts, "\n"), Forbidden[j]) {
      JoinAvoids(parts, '\n', Forbidden[j]);
    }
  }

  /** `while '\n\n\n' in s: s = s.replace('\n\n\n', '\n\n')`. */
  function CollapseBlankLines(s: string): (r: string)
    ensures !Contains(r, "\n\n\n")
    ensures |r| <= |s|
    decreases |s|
  {
    if Contains(s, "\n\n\n") then CollapseBlankLines(Replace(s, "\n\n\n", "\n\n")) else s
  }

  /** Collapsing cannot create a word free of line breaks. */
  lemma {:induction false} CollapseAvoids(s: string, sub: string)
    requires |sub| > 0 && '\n' !in sub && !Contains(s, sub)
    ensures !Contains(CollapseBlankLines(s), sub)
    decreases |s|
  {
    if Contains(s, "\n\n\n") {
      ReplaceAvoids(s, "\n\n\n", "\n\n", '\n', sub);
      CollapseAvoids(Replace(s, "\n\n\n", "\n\n"), sub);
    }
  }

  lemma CollapseClean(s: string)
    requires Clean(s)
    ensures Clean(CollapseBlankLines(s))
  {
    ForbiddenSingleLine();
    forall j | 0 <= j < |Forbidden| ensures !Contains(CollapseBlankLines(s), Forbidden[j]) {
      CollapseAvoids(s, Forbidden[j]);
    }
  }

  /** A stripped tail of a clean text is clean. */
  lemma CleanStrippedTail(t: string, k: nat)
    requires k <= |t|
    ensures Clean(t) ==> Clean(Strip(t[k..]))
  {
    if Clean(t) {
      CleanSlice(t, k, |t|);
      assert t[k..|t|] == t[k..];
      CleanStrip(t[k..]);
    }
  }

  /** Drop a leading `prefix` and strip again, when the text starts with it. */
  function DropPrefix(t: string, prefix: string): (r: string)
    ensures Clean(t) ==> Clean(r)
    ensures !StartsWith(t, prefix) ==> r == t
  {
    if StartsWith(t, prefix) then
      assert ReplaceFirst(t, prefix, "") == t[|prefix|..];
      CleanStrippedTail(t, |prefix|);
      Strip(ReplaceFirst(t, prefix, ""))
    else t
  }

  /** The kept lines joined back and stripped. */
  function KeptText(text: string): (r: string)
    ensures Clean(r) && Stripped(r)
  {
    var lines := CleanFrom(Split(text, '\n'), 0, false);
    CleanJoin(lines);
    CleanStrip(Join(lines, "\n"));
    Strip(Join(lines, "\n"))
  }

  /** `cleaned_text.replace(separator, '').strip()`, which on a clean text
      only strips. */
  function RemoveSeparators(t: string): (r: string)
    ensures Clean(t) ==> r == Strip(t) && Clean(r)
  {
    assert Clean(t) ==> Replace(t, Separator, "") == t && Clean(Strip(t)) by {
      if Clean(t) {
        CleanHasNoSeparator(t);
        ReplaceAbsent(t, Separator, "");
        CleanStrip(t);
      }
    }
    Strip(Replace(t, Separator, ""))
  }

  /** The blank-line collapse and the final strip. */
  function Finish(t: string): (r: string)
    ensures Clean(t) ==> Clean(r)
    ensures Stripped(r) && !Contains(r, "\n\n\n")
  {
    var c := CollapseBlankLines(t);
    StripAvoids(c, "\n\n\n");
    assert Clean(t) ==> Clean(Strip(c)) by {
      if Clean(t) {
        CollapseClean(t);
        CleanStrip(c);
      }
    }
    Strip(c)
  }

  lemma EmptyClean()
    ensures Clean("")
  {
  }

  /** `clean_answer_text`. The result holds no keyword and no separator
      (so no line of it does), no run of three line breaks, and no
      surrounding whitespace. */
  function CleanAnswerText(text: string): (r: string)
    ensures text == "" ==> r == ""
    ensures Clean(r) && Stripped(r) && !Contains(r, "\n\n\n")
  {
    if text == "" then
      EmptyClean();
      text
    else
      Finish(RemoveSeparators(DropPrefix(DropPrefix(KeptText(text), "Answer:"), "**Answer:**")))
  }

  /** An ordinary answer, clean, stripped, without a leading answer marker
      and without runs of three line breaks, comes back unchanged. */
  lemma CleanAnswerTextKeepsOrdinary(text: string)
    requires Clean(text) && Stripped(text) && !Contains(text, "\n\n\n")
    requires !StartsWith(text, "Answer:") && !StartsWith(text, "**Answer:**")
    ensures CleanAnswerText(text) == text
  {
    if text != "" {
      var pieces := Split(text, '\n');
      forall k | 0 <= k < |pieces| ensures !IsSystemLine(pieces[k]) && !Contains(pieces[k], Separator) {
        forall j | 0 <= j < |SystemKeywords| ensures !Contains(pieces[k], SystemKeywords[j]) {
          assert Forbidden[j] == SystemKeywords[j];
          if Contains(pieces[k], SystemKeywords[j]) {
            ContainsInJoin(pieces, "\n", k, SystemKeywords[j]);
          }
        }
        assert Forbidden[|Forbidden| - 1] == Separator;
        if Contains(pieces[k], Separator) {
          ContainsInJoin(pieces, "\n", k, Separator);
        }
      }
      CleanFromOrdinary(pieces, 0);
      assert pieces[0..] == pieces;
      assert Join(pieces, "\n") == text;
      StripOfStripped(text);
      assert KeptText(text) == text;
    }
  }

  // ---------------------------------------------------------------------
  // filter_chat_history
  // ---------------------------------------------------------------------

  predicate HasRole(msg: Dict, role: string) {
    Get(msg, "role") == Some(JStr(role))
  }

  /** A content value that is a non-empty, clean, stripped text. */
  predicate CleanText(j: Json) {
    j.JStr? && j.s != "" && Clean(j.s) && Stripped(j.s)
  }

  /** `clean_answer_text` on a content value: a falsy value comes back as
      it is, anything else is rendered with `str` (`show`) and cleaned. */
  function CleanContent(content: Json, show: Json -> string): (r: Json)
    ensures JTruthy(r) ==> CleanText(r)
    ensures !JTruthy(content) ==> r == content
    ensures JTruthy(content) && content.JStr? ==> r == JStr(CleanAnswerText(content.s))
    ensures JTruthy(content) && !content.JStr? ==> r == JStr(CleanAnswerText(show(content)))
  {
    if !JTruthy(content) then content
    else if content.JStr? then CleanedText(content.s)
    else CleanedText(show(content))
  }

  /** `clean_answer_text` on a text, as a content value. */
  function CleanedText(text: string): (r: Json)
    ensures r == JStr(CleanAnswerText(text))
    ensures JTruthy(r) ==> CleanText(r)
  {
    JStr(CleanAnswerText(text))
  }

  /** An assistant turn as the filter rebuilds it: exactly a role and a
      non-empty, clean, stripped content text. */
  predicate CleanAssistantTurn(m: Dict) {
    && |m| == 2 && m[0] == ("role", JStr("assistant")) && m[1].0 == "content"
    && CleanText(m[1].1)
  }

  /** Every assistant turn of `turns` is a rebuilt, clean one. */
  predicate AssistantTurnsClean(turns: seq<Dict>) {
    forall k | 0 <= k < |turns| :: HasRole(turns[k], "assistant") ==> CleanAssistantTurn(turns[k])
  }

  /** What the filter keeps of one message: the message itself for a user
      turn, the rebuilt turn for an assistant turn with something left
      after cleaning, nothing otherwise. */
  function FilterTurn(msg: Dict, show: Json -> string): (r: seq<Dict>)
    ensures |r| <= 1
    ensures HasRole(msg, "user") ==> r == [msg]
    ensures |r| == 1 && !HasRole(msg, "user") ==> CleanAssistantTurn(r[0])
    ensures HasRole(msg, "assistant") ==>
      var cleaned := CleanContent(Get(msg, "content").GetOr(JStr("")), show);
      && (r != [] <==> JTruthy(cleaned))
      && (r != [] ==> r[0] == [("role", JStr("assistant")), ("content", cleaned)])
    ensures !HasRole(msg, "user") && !HasRole(msg, "assistant") ==> r == []
  {
    if HasRole(msg, "assistant") then
      var cleaned := CleanContent(Get(msg, "content").GetOr(JStr("")), show);
      if JTruthy(cleaned) then [[("role", JStr("assistant")), ("content", cleaned)]]
      else []
    else if HasRole(msg, "user") then [msg]
    else []
  }

  /** A rebuilt assistant turn has the assistant role and not the user
      one. */
  lemma CleanAssistantTurnRole(m: Dict)
    requires CleanAssistantTurn(m)
    ensures HasRole(m, "assistant") && !HasRole(m, "user")
  {
  }

  /** `filter_chat_history`: user turns unchanged, assistant turns cleaned
      and dropped when nothing is left, every other turn dropped. */
  function FilterChatHistory(history: seq<Dict>, show: Json -> string): (r: seq<Dict>)
    ensures |r| <= |history|
    ensures forall k | 0 <= k < |r| :: HasRole(r[k], "user") || HasRole(r[k], "assistant")
    decreases |history|
  {
    if |history| == 0 then []
    else
      var head := FilterTurn(history[0], show);
      var rest := FilterChatHistory(history[1..], show);
      if |head| == 1 && !HasRole(history[0], "user") then
        CleanAssistantTurnRole(head[0]);
        [head[0]] + rest
      else head + rest
  }

  /** One step of the filter: what `FilterTurn` keeps of the first
      message, then the filtered rest. */
  lemma FilterStep(history: seq<Dict>, show: Json -> string)
    requires |history| > 0
    ensures FilterChatHistory(history, show)
         == FilterTurn(history[0], show) + FilterChatHistory(history[1..], show)
  {
  }

  /** The filter works message by message: a history of one message is
      filtered to what `FilterTurn` keeps of it. */
  lemma FilterOne(msg: Dict, show: Json -> string)
    ensures FilterChatHistory([msg], show) == FilterTurn(msg, show)
  {
    FilterStep([msg], show);
    assert [msg][1..] == [];
  }

  /** Filtering distributes over concatenation, so every kept turn stays
      in the place of the message it came from. */
  lemma {:induction false} FilterAppend(a: seq<Dict>, b: seq<Dict>, show: Json -> string)
    ensures FilterChatHistory(a + b, show) == FilterChatHistory(a, show) + FilterChatHistory(b, show)
    decreases |a|
  {
    if |a| == 0 {
      assert a + b == b;
    } else {
      var head := FilterTurn(a[0], show);
      assert (a + b)[0] == a[0];
      assert (a + b)[1..] == a[1..] + b;
      FilterStep(a + b, show);
      FilterStep(a, show);
      FilterAppend(a[1..], b, show);
      calc {
        FilterChatHistory(a + b, show);
        head + FilterChatHistory(a[1..] + b, show);
        head + (FilterChatHistory(a[1..], show) + FilterChatHistory(b, show));
        { AppendAssoc(head, FilterChatHistory(a[1..], show), FilterChatHistory(b, show)); }
        (head + FilterChatHistory(a[1..], show)) + FilterChatHistory(b, show);
        FilterChatHistory(a, show) + FilterChatHistory(b, show);
      }
    }
  }

  lemma AppendAssoc<T>(x: seq<T>, y: seq<T>, z: seq<T>)
    ensures x + (y + z) == (x + y) + z
  {
  }

  /** The user turns, in order. */
  function UserTurns(history: seq<Dict>): seq<Dict>
    decreases |history|
  {
    if |history| == 0 then []
    else (if HasRole(history[0], "user") then [history[0]] else []) + UserTurns(history[1..])
  }

  /** Filtering keeps every user turn, unchanged and in order. */
  lemma {:induction false} FilterKeepsUserTurns(history: seq<Dict>, show: Json -> string)
    ensures UserTurns(FilterChatHistory(history, show)) == UserTurns(history)
    decreases |history|
  {
    if |history| > 0 {
      var msg := history[0];
      var head := FilterTurn(msg, show);
      var rest := FilterChatHistory(history[1..], show);
      FilterKeepsUserTurns(history[1..], show);
      var r := FilterChatHistory(history, show);
      assert r == head + rest;
      if |head| == 1 && !HasRole(msg, "user") {
        CleanAssistantTurnRole(head[0]);
      }
      if |head| == 1 {
        assert r[1..] == rest;
      } else {
        assert r == rest;
      }
    }
  }

  /** Each assistant turn the filter keeps is rebuilt with a non-empty,
      clean, stripped text. */
  lemma {:induction false} FilterCleansAssistantTurns(history: seq<Dict>, show: Json -> string)
    ensures AssistantTurnsClean(FilterChatHistory(history, show))
    decreases |history|
  {
    if |history| > 0 {
      var head := FilterTurn(history[0], show);
      var rest := FilterChatHistory(history[1..], show);
      FilterCleansAssistantTurns(history[1..], show);
      if |head| == 1 && HasRole(history[0], "user") {
        assert head == [history[0]];
        assert !HasRole(head[0], "assistant");
      }
      assert AssistantTurnsClean(head);
      assert FilterChatHistory(history, show) == head + rest;
      AssistantTurnsCleanAppend(head, rest);
    }
  }

  lemma AssistantTurnsCleanAppend(a: seq<Dict>, b: seq<Dict>)
    requires AssistantTurnsClean(a) && AssistantTurnsClean(b)
    ensures AssistantTurnsClean(a + b)
  {
    forall k | 0 <= k < |a + b| && HasRole((a + b)[k], "assistant")
      ensures CleanAssistantTurn((a + b)[k])
    {
      if k >= |a| {
        assert (a + b)[k] == b[k - |a|];
      }
    }
  }
}

=== FILE: api_proxy.dfy ===
/**
  The serverless proxy that lets an HTTPS front end reach the plain-HTTP
  API: pre-flight handling, the `path` gate, the target URL, the forwarded
  query and body, and the reply. The upstream request is a parameter: the
  status and data it would answer, or the error it would throw.
*/
module ApiProxy {
  import opened Wrappers
  import opened Text
  import opened Json
  import opened UriEncoding

  /** The API the proxy forwards to. */
  const ProxyApiBase: string := "http://4.232.170.195/"
  const MissingPathMessage: string := "Missing path parameter. Use ?path=api/v1/..."

  /** The CORS headers set on every reply. */
  const CorsHeaders: seq<(string, string)> := [
    ("Access-Control-Allow-Origin", "*"),
    ("Access-Control-Allow-Methods", "GET, POST, PUT, DELETE, OPTIONS"),
    ("Access-Control-Allow-Headers", "Content-Type, Authorization")
  ]

  /** An incoming request: the method, the parsed query in order, the
      `content-type` header and the parsed body. */
  datatype Request = Request(httpMethod: string, query: seq<(string, string)>, contentType: Option<string>,
                             body: Option<Json>)

  /** What is forwarded as the upstream body. */
  datatype Body = NoBody | FormBody(fields: Dict) | JsonBody(fields: Dict)

  /** The upstream request: URL, method, whether the JSON content type is
      set, and the body. */
  datatype Forward = Forward(url: string, httpMethod: string, jsonContentType: bool, body: Body)

  datatype Reply = Reply(headers: seq<(string, string)>, status: int, body: Option<Json>)

  /** The reply and the upstream request made, if any. */
  datatype Handled = Handled(reply: Reply, sent: Option<Forward>)

  /** JavaScript truthiness of a parsed body. */
  predicate JsTruthy(j: Json) {
    match j
    case JNull => false
    case JBool(b) => b
    case JInt(i) => i != 0
    case JNum(x) => x != 0.0
    case JStr(s) => s != ""
    case JArr(_) => true
    case JObj(_) => true
  }

  /** `Object.entries` of a parsed body, which is also what an object
      spread copies: an object's own fields, an array's or a string's
      indexed items, nothing for other values. */
  function Entries(j: Json): Dict {
    match j
    case JObj(fields) => fields
    case JArr(items) => seq(|items|, i requires 0 <= i < |items| => (IntToString(i), items[i]))
    case JStr(s) => seq(|s|, i requires 0 <= i < |s| => (IntToString(i), JStr([s[i]])))
    case _ => []
  }

  /** The first value of a query key. */
  function QueryGet(query: seq<(string, string)>, key: string): (r: Option<string>)
    ensures r.Some? ==> (key, r.value) in query
    ensures r.None? ==> forall i | 0 <= i < |query| :: query[i].0 != key
  {
    if |query| == 0 then None
    else if query[0].0 == key then Some(query[0].1)
    else QueryGet(query[1..], key)
  }

  /** The query parameters forwarded upstream: all but `path`, in order. */
  function ForwardedParams(query: seq<(string, string)>): (r: seq<(string, string)>)
    ensures forall x :: x in r <==> x in query && x.0 != "path"
    ensures (forall i | 0 <= i < |query| :: query[i].0 != "path") ==> r == query
    ensures |r| <= |query|
  {
    if |query| == 0 then []
    else (if query[0].0 == "path" then [] else [query[0]]) + ForwardedParams(query[1..])
  }

  /** The filter works pair by pair: the parameters of a concatenation are
      those of each part, in the same order. With the one-pair case of the
      definition this pins the forwarded order to the order of `query`. */
  lemma {:induction false} ForwardedParamsAppend(a: seq<(string, string)>, b: seq<(string, string)>)
    ensures ForwardedParams(a + b) == ForwardedParams(a) + ForwardedParams(b)
    decreases |a|
  {
    if |a| == 0 {
      assert a + b == b;
    } else {
      assert (a + b)[0] == a[0];
      assert (a + b)[1..] == a[1..] + b;
      ForwardedParamsAppend(a[1..], b);
      var head := if a[0].0 == "path" then [] else [a[0]];
      assert ForwardedParams(a + b) == head + (ForwardedParams(a[1..]) + ForwardedParams(b));
      assert head + (ForwardedParams(a[1..]) + ForwardedParams(b))
          == (head + ForwardedParams(a[1..])) + ForwardedParams(b);
    }
  }

  /** The upstream target: the base with one trailing slash, then the path
      without one leading slash. */
  function TargetUrl(apiPath: string): (r: string)
    ensures r == ProxyApiBase + DropLeadingSlash(apiPath)
  {
    assert EndsWith(ProxyApiBase, "/") by {
      assert ProxyApiBase[|ProxyApiBase| - 1] == '/';
      assert ProxyApiBase[|ProxyApiBase| - 1..] == "/";
    }
    WithTrailingSlash(ProxyApiBase) + DropLeadingSlash(apiPath)
  }

  /** The upstream body: none for a GET or a falsy body; the form fields
      for a form content type; otherwise the JSON fields without `path`. */
  function ForwardBody(req: Request): (b: Body)
    ensures b != NoBody <==> req.httpMethod != "GET" && req.body.Some? && JsTruthy(req.body.value)
    ensures b.JsonBody? ==> !HasKey(b.fields, "path")
    ensures b.JsonBody? ==> forall k | k != "path" :: Get(b.fields, k) == Get(Entries(req.body.value), k)
    ensures b.FormBody? ==> b.fields == Entries(req.body.value)
  {
    if req.httpMethod != "GET" && req.body.Some? && JsTruthy(req.body.value) then
      var ct := req.contentType.GetOr("");
      if Contains(ct, "multipart/form-data") || Contains(ct, "form-data") then FormBody(Entries(req.body.value))
      else JsonBody(Remove(Entries(req.body.value), "path"))
    else NoBody
  }

  /** The reply for an upstream failure. */
  function ProxyError(message: string): Json {
    JObj([("error", JStr("Proxy error")), ("message", JStr(message)),
          ("details", JStr("Failed to connect to API server"))])
  }

  /** `handler`. */
  function Handle(req: Request, upstream: Forward -> Result<(int, Json)>): (h: Handled)
    ensures h.reply.headers == CorsHeaders
    ensures req.httpMethod == "OPTIONS" ==> h.reply.status == 200 && h.reply.body.None? && h.sent.None?
    ensures req.httpMethod != "OPTIONS" && !Truthy(QueryGet(req.query, "path")) ==>
      && h.reply.status == 400 && h.sent.None?
      && h.reply.body == Some(JObj([("error", JStr(MissingPathMessage))]))
    ensures h.sent.Some? <==> req.httpMethod != "OPTIONS" && Truthy(QueryGet(req.query, "path"))
    ensures h.sent.Some? ==>
      var f := h.sent.value;
      var target := TargetUrl(QueryGet(req.query, "path").value);
      && f.httpMethod == req.httpMethod
      && f.body == ForwardBody(req)
      && f.jsonContentType == f.body.JsonBody?
      && (ForwardedParams(req.query) == [] ==> f.url == target)
      && (ForwardedParams(req.query) != [] ==> f.url == target + "?" + SerializeQuery(ForwardedParams(req.query)))
    ensures h.sent.Some? && upstream(h.sent.value).Ok? ==>
      h.reply.status == upstream(h.sent.value).value.0 && h.reply.body == Some(upstream(h.sent.value).value.1)
    ensures h.sent.Some? && upstream(h.sent.value).Err? ==>
      h.reply.status == 500 && h.reply.body == Some(ProxyError(upstream(h.sent.value).error))
  {
    if req.httpMethod == "OPTIONS" then Handled(Reply(CorsHeaders, 200, None), None)
    else
      var apiPath := QueryGet(req.query, "path");
      if !Truthy(apiPath) then
        Handled(Reply(CorsHeaders, 400, Some(JObj([("error", JStr(MissingPathMessage))]))), None)
      else
        var body := ForwardBody(req);
        var qs := SerializeQuery(ForwardedParams(req.query));
        var url := if qs != "" then TargetUrl(apiPath.value) + "?" + qs else TargetUrl(apiPath.value);
        var f := Forward(url, req.httpMethod, body.JsonBody?, body);
        match upstream(f)
        case Ok((status, data)) => Handled(Reply(CorsHeaders, status, Some(data)), Some(f))
        case Err(e) => Handled(Reply(CorsHeaders, 500, Some(ProxyError(e))), Some(f))
  }

  /** The API sees exactly the query the client sent, less `path`: parsing
      the forwarded URL's query gives the forwarded parameters back. */
  lemma UpstreamSeesParams(req: Request, upstream: Forward -> Result<(int, Json)>)
    requires Handle(req, upstream).sent.Some?
    ensures var f := Handle(req, upstream).sent.value;
      var target := TargetUrl(QueryGet(req.query, "path").value);
      && StartsWith(f.url, target)
      && (|f.url| == |target| || f.url[|target|] == '?')
      && ParseQuery(if |f.url| == |target| then "" else f.url[|target| + 1..]) == ForwardedParams(req.query)
  {
    var f := Handle(req, upstream).sent.value;
    var target := TargetUrl(QueryGet(req.query, "path").value);
    var ps := ForwardedParams(req.query);
    QueryRoundTrip(ps);
    if ps == [] {
      assert f.url == target;
      assert f.url[..|target|] == target;
      assert SerializeQuery(ps) == "";
    } else {
      var qs := SerializeQuery(ps);
      assert f.url == target + "?" + qs;
      assert f.url[..|target|] == target;
      assert f.url[|target| + 1..] == qs;
    }
  }
}

=== FILE: chunk_batching.dfy ===
/**
  The chunk store's bulk insertion: the chunk record with its validation
  (non-empty text, positive order) and the split of a chunk list into
  consecutive batches, one bulk write per batch.
*/
module ChunkBatching {
  import opened Wrappers
  import opened Json

  /** A chunk as handed to the store, before validation. */
  datatype DataChunk = DataChunk(text: string, metadata: Dict, order: int, projectId: string)

  /** The record's own constraints: the text has at least one character
      and the order is positive. */
  predicate ValidChunk(c: DataChunk) {
    |c.text| >= 1 && c.order > 0
  }

  /** A chunk that passed validation. */
  type Chunk = c: DataChunk | ValidChunk(c) witness DataChunk("x", [], 1, "")

  /** Building a chunk record: rejected exactly when a constraint fails. */
  function MakeChunk(text: string, metadata: Dict, order: int, projectId: string): (r: Result<Chunk>)
    ensures r.Ok? <==> |text| >= 1 && order > 0
    ensures r.Ok? ==> r.value.text == text && r.value.metadata == metadata
                      && r.value.order == order && r.value.projectId == projectId
  {
    var c := DataChunk(text, metadata, order, projectId);
    if ValidChunk(c) then Ok(c) else Err("validation error")
  }

  /** The concatenation of a list of batches. */
  function Flatten<T>(batches: seq<seq<T>>): seq<T> {
    if |batches| == 0 then [] else batches[0] + Flatten(batches[1..])
  }

  /** Every batch is non-empty and holds at most `size` items; every batch
      but the last holds exactly `size`. */
  predicate WellCut<T>(batches: seq<seq<T>>, size: nat) {
    && (forall i | 0 <= i < |batches| :: 0 < |batches[i]| <= size)
    && (forall i | 0 <= i < |batches| - 1 :: |batches[i]| == size)
  }

  /** The slices `xs[i:i+size]` for `i` in `range(0, len(xs), size)`. */
  function Batches<T>(xs: seq<T>, size: nat): seq<seq<T>>
    requires size > 0
    decreases |xs|
  {
    if |xs| == 0 then []
    else if |xs| <= size then [xs]
    else [xs[..size]] + Batches(xs[size..], size)
  }

  /** The batches concatenate back to the list and are cut as `WellCut`
      says. */
  lemma {:induction false} BatchesCut<T>(xs: seq<T>, size: nat)
    requires size > 0
    ensures Flatten(Batches(xs, size)) == xs
    ensures WellCut(Batches(xs, size), size)
    decreases |xs|
  {
    if |xs| > size {
      var rest := Batches(xs[size..], size);
      BatchesCut(xs[size..], size);
      assert ([xs[..size]] + rest)[1..] == rest;
      assert xs[..size] + xs[size..] == xs;
    }
  }

  /** `q` is `ceil(n / b)`: the least multiple count of `b` covering `n`. */
  predicate IsCeilDiv(q: int, n: int, b: int) {
    n <= q * b < n + b
  }

  /** There are `ceil(len(xs) / size)` batches, none for an empty list. */
  lemma {:induction false} BatchCount<T>(xs: seq<T>, size: nat)
    requires size > 0
    ensures IsCeilDiv(|Batches(xs, size)|, |xs|, size)
    decreases |xs|
  {
    if |xs| > size {
      var q := |Batches(xs[size..], size)|;
      BatchCount(xs[size..], size);
      assert (q + 1) * size == q * size + size;
    }
  }

  /** Batches are determined by their concatenation and the size: any
      well-cut split of `xs` is the batching of `xs`. */
  lemma {:induction false} WellCutIsBatches<T>(batches: seq<seq<T>>, size: nat)
    requires size > 0 && WellCut(batches, size)
    ensures Batches(Flatten(batches), size) == batches
    decreases |batches|
  {
    if |batches| > 0 {
      var xs := Flatten(batches);
      var rest := batches[1..];
      assert WellCut(rest, size) by {
        forall i | 0 <= i < |rest| ensures 0 < |rest[i]| <= size {
          assert rest[i] == batches[i + 1];
        }
        forall i | 0 <= i < |rest| - 1 ensures |rest[i]| == size {
          assert rest[i] == batches[i + 1];
        }
      }
      WellCutIsBatches(rest, size);
      if |batches| == 1 {
        assert rest == [];
        assert xs == batches[0];
      } else {
        assert |batches[0]| == size;
        assert |Flatten(rest)| > 0 by {
          assert |rest[0]| > 0;
          assert Flatten(rest) == rest[0] + Flatten(rest[1..]);
        }
        assert xs[..size] == batches[0];
        assert xs[size..] == Flatten(rest);
      }
    }
  }

  function Min(a: int, b: int): int {
    if a < b then a else b
  }

  /** One loop step: the batching of the list from `i` on starts with the
      slice `chunks[i:i+size]` and goes on with the batching after it. */
  lemma BatchStep<T>(chunks: seq<T>, i: nat, size: nat)
    requires i < |chunks| && size > 0
    ensures Batches(chunks[i..], size)
         == [chunks[i..Min(i + size, |chunks|)]] + Batches(chunks[Min(i + size, |chunks|)..], size)
  {
    var tail := chunks[i..];
    if |tail| > size {
      assert tail[size..] == chunks[i + size..];
      assert tail[..size] == chunks[i..i + size];
    } else {
      assert tail == chunks[i..|chunks|];
      assert chunks[|chunks|..] == [];
    }
  }

  /** `insert_many_chunks`: the batches written, in order, and the return
      value. `range` refuses a zero step and yields nothing for a negative
      one; the count returned is always the length of the list. */
  method InsertManyChunks(chunks: seq<Chunk>, batchSize: int) returns (r: Result<nat>, writes: seq<seq<Chunk>>)
    ensures batchSize == 0 ==> r.Err? && writes == []
    ensures batchSize < 0 ==> r == Ok(|chunks|) && writes == []
    ensures batchSize > 0 ==> r == Ok(|chunks|) && writes == Batches(chunks, batchSize)
  {
    writes := [];
    if batchSize == 0 {
      return Err("range() arg 3 must not be zero"), writes;
    }
    if batchSize < 0 {
      return Ok(|chunks|), writes;
    }
    var i := 0;
    ghost var rest := chunks;
    while i < |chunks|
      invariant 0 <= i
      invariant rest == chunks[Min(i, |chunks|)..]
      invariant writes + Batches(rest, batchSize) == Batches(chunks, batchSize)
      decreases |chunks| - i
    {
      var batch := chunks[i..Min(i + batchSize, |chunks|)];
      ghost var next := chunks[Min(i + batchSize, |chunks|)..];
      BatchStep(chunks, i, batchSize);
      assert Batches(rest, batchSize) == [batch] + Batches(next, batchSize);
      assert writes + [batch] + Batches(next, batchSize) == Batches(chunks, batchSize);
      writes := writes + [batch];
      rest := next;
      i := i + batchSize;
    }
    assert chunks[Min(i, |chunks|)..] == [];
    r := Ok(|chunks|);
  }

  /** What the writes of `insert_many_chunks` amount to: every chunk is
      written once, in order, in `ceil(n / batch_size)` bulk writes of at
      most `batch_size` chunks each. */
  lemma InsertedInOrder(chunks: seq<Chunk>, batchSize: nat)
    requires batchSize > 0
    ensures var writes := Batches(chunks, batchSize);
      && Flatten(writes) == chunks
      && WellCut(writes, batchSize)
      && IsCeilDiv(|writes|, |chunks|, batchSize)
  {
    BatchesCut(chunks, batchSize);
    BatchCount(chunks, batchSize);
  }
}

=== FILE: client_config.dfy ===
/**
  The front end's API configuration: whether an HTTPS page must go through
  the proxy to reach a plain-HTTP API, the API base it then uses, and how
  request URLs are built in either mode.
*/
module ClientConfig {
  import opened Wrappers
  import opened Text
  import opened Json
  import opened UriEncoding
  import opened ApiProxy

  /** The API base the page is built with. */
  const DefaultApiBaseUrl: string := "http://4.232.170.195/"

  /** The build-time API base, the page's protocol and the proxy URL the
      page sets, if any. */
  datatype Config = Config(apiBaseUrl: string, protocol: string, proxySetting: Option<string>)

  /** `window.API_PROXY_URL || ''`: the setting when it is a non-empty
      text, the empty text otherwise. */
  function ProxyUrl(c: Config): (r: string)
    ensures r != "" <==> Truthy(c.proxySetting)
    ensures r != "" ==> c.proxySetting == Some(r)
  {
    if Truthy(c.proxySetting) then c.proxySetting.value else ""
  }

  /** An HTTPS page cannot call a plain-HTTP API directly; a page served
      over anything but HTTPS, or an API base that is already HTTPS, never
      needs the proxy. */
  predicate NeedsProxy(c: Config)
    ensures c.protocol != "https:" ==> !NeedsProxy(c)
    ensures StartsWith(c.apiBaseUrl, "https://") ==> !NeedsProxy(c)
  {
    assert StartsWith(c.apiBaseUrl, "http://") ==> c.apiBaseUrl[4] == "http://"[4] == ':';
    c.protocol == "https:" && StartsWith(c.apiBaseUrl, "http://")
  }

  /** The proxy is used only when it is needed and a proxy URL is set. */
  predicate UseProxy(c: Config)
    ensures UseProxy(c) <==> Truthy(c.proxySetting) && NeedsProxy(c)
    ensures UseProxy(c) ==> c.protocol == "https:" && !StartsWith(c.apiBaseUrl, "https://")
  {
    ProxyUrl(c) != "" && NeedsProxy(c)
  }

  /** The base URLs are built on: the proxy URL less one trailing slash in
      proxy mode, the configured API base otherwise. */
  function ApiBase(c: Config): (r: string)
    ensures UseProxy(c) ==> r == ProxyUrl(c) || r + "/" == ProxyUrl(c)
    ensures UseProxy(c) && EndsWith(ProxyUrl(c), "/") ==> r + "/" == ProxyUrl(c)
    ensures !UseProxy(c) ==> r == c.apiBaseUrl
  {
    if UseProxy(c) then DropTrailingSlash(ProxyUrl(c)) else c.apiBaseUrl
  }

  /** `buildApiUrl`: in proxy mode the path (less one leading slash) goes,
      encoded, into the `path` query parameter of the proxy; otherwise it
      is appended to the base, with exactly one slash between them when
      the path has at most one leading slash. */
  function BuildApiUrl(c: Config, path: string): (r: string)
    ensures UseProxy(c) ==> r == ApiBase(c) + "?path=" + EncodeURIComponent(DropLeadingSlash(path))
    ensures !UseProxy(c) ==> StartsWith(r, c.apiBaseUrl) && EndsWith(r, DropLeadingSlash(path))
    ensures !UseProxy(c) && !StartsWith(DropLeadingSlash(path), "/") ==>
      r == DropTrailingSlash(c.apiBaseUrl) + "/" + DropLeadingSlash(path)
  {
    var cleanPath := DropLeadingSlash(path);
    if UseProxy(c) then ApiBase(c) + "?path=" + EncodeURIComponent(cleanPath)
    else
      var base := WithTrailingSlash(c.apiBaseUrl);
      var r := base + cleanPath;
      assert r[..|c.apiBaseUrl|] == c.apiBaseUrl;
      assert r[|r| - |cleanPath|..] == cleanPath;
      assert DropTrailingSlash(c.apiBaseUrl) + "/" == base;
      r
  }

  /** A text without the separator splits into itself. */
  lemma SplitWhole(s: string, sep: char)
    requires sep !in s
    ensures Split(s, sep) == [s]
  {
    SplitJoin([s], sep);
  }

  lemma DecodedPathName()
    ensures Decoded("path") == "path"
  {
    assert FormEncode("path") == "path" by {
      assert "path"[1..] == "ath" && "ath"[1..] == "th" && "th"[1..] == "h" && "h"[1..] == "";
    }
    FormRoundTrip("path");
  }

  lemma DecodedComponent(p: string)
    ensures Decoded(EncodeURIComponent(p)) == p
  {
    var e := EncodeURIComponent(p);
    UriEncodeAvoids(p);
    assert PlusToSpace(e) == e;
    UriComponentRoundTrip(p);
  }

  lemma ParsePathPair(e: string)
    ensures ParsePair("path=" + e) == ("path", Decoded(e))
  {
    var s := "path=" + e;
    assert s[4] == '=';
    assert s[..4] == "path";
    var i := IndexOfChar(s, '=');
    assert i == 4;
    assert s[i + 1..] == e;
    DecodedPathName();
  }

  /** The proxy reads the `path` parameter of a built URL back as exactly
      the path that was encoded. */
  lemma PathQueryRoundTrip(p: string)
    ensures ParseQuery("path=" + EncodeURIComponent(p)) == [("path", p)]
  {
    var e := EncodeURIComponent(p);
    var s := "path=" + e;
    UriEncodeAvoids(p);
    assert '&' !in s by {
      assert forall i | 0 <= i < |s| :: s[i] == if i < 5 then "path="[i] else e[i - 5];
    }
    SplitWhole(s, '&');
    assert Split(s, '&')[1..] == [];
    assert ParsePieces(Split(s, '&')) == [ParsePair(s)];
    ParsePathPair(e);
    DecodedComponent(p);
  }

  /** A request whose only query parameter is a non-empty `path` is
      forwarded to the target URL of that path, with no query string. */
  lemma ForwardsPathOnly(p: string, httpMethod: string, contentType: Option<string>, body: Option<Json>,
                         upstream: Forward -> Result<(int, Json)>)
    requires p != "" && httpMethod != "OPTIONS"
    ensures var h := Handle(Request(httpMethod, [("path", p)], contentType, body), upstream);
      h.sent.Some? && h.sent.value.url == TargetUrl(p)
  {
    var query := [("path", p)];
    assert QueryGet(query, "path") == Some(p);
    assert ForwardedParams(query) == [];
  }

  /** Built directly against the proxy's own API base, a clean path's URL
      is the proxy's target URL for that path. */
  lemma DirectUrlIsTarget(c: Config, path: string)
    requires !UseProxy(c) && c.apiBaseUrl == ProxyApiBase
    requires !StartsWith(DropLeadingSlash(path), "/")
    ensures BuildApiUrl(c, path) == TargetUrl(DropLeadingSlash(path))
  {
    assert EndsWith(ProxyApiBase, "/") by {
      assert ProxyApiBase[|ProxyApiBase| - 1..] == "/";
    }
  }

  /** A URL built in proxy mode is the proxy URL, a `?`, and a query that
      parses to the single `path` parameter holding the clean path. */
  lemma ProxyUrlQuery(c: Config, path: string)
    requires UseProxy(c) && '?' !in ApiBase(c)
    ensures var url := BuildApiUrl(c, path);
      && |url| > |ApiBase(c)| && url[|ApiBase(c)|] == '?'
      && ParseQuery(url[|ApiBase(c)| + 1..]) == [("path", DropLeadingSlash(path))]
  {
    var clean := DropLeadingSlash(path);
    var url := BuildApiUrl(c, path);
    var base := ApiBase(c);
    assert url == base + "?" + ("path=" + EncodeURIComponent(clean));
    assert url[|base|] == '?';
    assert url[|base| + 1..] == "path=" + EncodeURIComponent(clean);
    PathQueryRoundTrip(clean);
  }

  /** In proxy mode the page still reaches the API endpoint it would reach
      directly: the proxy forwards a built URL's request to the direct URL
      of the same path. */
  lemma ProxyReachesDirectUrl(c: Config, path: string, httpMethod: string, contentType: Option<string>,
                              body: Option<Json>, upstream: Forward -> Result<(int, Json)>)
    requires UseProxy(c) && '?' !in ApiBase(c) && c.apiBaseUrl == ProxyApiBase
    requires httpMethod != "OPTIONS"
    requires DropLeadingSlash(path) != "" && !StartsWith(DropLeadingSlash(path), "/")
    ensures var url := BuildApiUrl(c, path);
      && |url| > |ApiBase(c)| && url[|ApiBase(c)|] == '?'
      && var h := Handle(Request(httpMethod, ParseQuery(url[|ApiBase(c)| + 1..]), contentType, body), upstream);
         h.sent.Some? && h.sent.value.url == BuildApiUrl(c.(proxySetting := None), path)
  {
    var clean := DropLeadingSlash(path);
    ProxyUrlQuery(c, path);
    ForwardsPathOnly(clean, httpMethod, contentType, body, upstream);
    assert !UseProxy(c.(proxySetting := None));
    DirectUrlIsTarget(c.(proxySetting := None), path);
  }
}

=== FILE: connection_registry.dfy ===
/** `ConnectionManager` (src/utils/connection_manager.py): the registry of
    live WebSocket connections and its two inverse indexes, workflow id to
    subscribers and project id to subscribers. Every `await` is one atomic
    step; a `send_json` that raises is an explicit failure input, as a
    boolean for one send and as the set of connections whose send fails for
    a broadcast. Messages are JSON dictionaries. */
module ConnectionRegistry {
  import opened Wrappers
  import opened Text
  import opened Json

  /** `f"conn_{counter}_{timestamp}"`: the serial from the counter and the
      rendered wall-clock timestamp, kept apart. */
  datatype ConnId = ConnId(serial: nat, stamp: string)

  function IdText(id: ConnId): string {
    "conn_" + NatToString(id.serial) + "_" + id.stamp
  }

  /** `ConnectionInfo`; the socket object itself is not modelled. */
  datatype ConnectionInfo = ConnectionInfo(projectId: Option<int>, workflowIds: set<string>, connectedAt: int)

  datatype Registry = Registry(
    connections: map<ConnId, ConnectionInfo>,
    workflowSubscribers: map<string, set<ConnId>>,
    projectSubscribers: map<int, set<ConnId>>,
    counter: nat)

  const Empty: Registry := Registry(map[], map[], map[], 0)

  // ---------------------------------------------------------------------
  // The index invariant
  // ---------------------------------------------------------------------

  /** Every subscriber listed for a workflow is registered with that workflow. */
  predicate WorkflowIndexSound(r: Registry) {
    forall w | w in r.workflowSubscribers ::
      forall c | c in r.workflowSubscribers[w] :: c in r.connections && w in r.connections[c].workflowIds
  }

  /** Every workflow of a registered connection lists it as a subscriber. */
  predicate WorkflowIndexComplete(r: Registry) {
    forall c | c in r.connections ::
      forall w | w in r.connections[c].workflowIds :: w in r.workflowSubscribers && c in r.workflowSubscribers[w]
  }

  /** Every subscriber listed for a project is registered with that project. */
  predicate ProjectIndexSound(r: Registry) {
    forall p | p in r.projectSubscribers ::
      forall c | c in r.projectSubscribers[p] :: c in r.connections && r.connections[c].projectId == Some(p)
  }

  /** Every registered connection with a project is listed under it. */
  predicate ProjectIndexComplete(r: Registry) {
    forall c | c in r.connections && r.connections[c].projectId.Some? ::
      r.connections[c].projectId.value in r.projectSubscribers
      && c in r.projectSubscribers[r.connections[c].projectId.value]
  }

  /** No index keeps a key whose subscriber set has emptied. */
  predicate NoEmptyEntries(r: Registry) {
    && (forall w | w in r.workflowSubscribers :: r.workflowSubscribers[w] != {})
    && (forall p | p in r.projectSubscribers :: r.projectSubscribers[p] != {})
  }

  /** Every registered id was issued by the counter. */
  predicate SerialsIssued(r: Registry) {
    forall c | c in r.connections :: 1 <= c.serial <= r.counter
  }

  predicate Valid(r: Registry) {
    && WorkflowIndexSound(r)
    && WorkflowIndexComplete(r)
    && ProjectIndexSound(r)
    && ProjectIndexComplete(r)
    && NoEmptyEntries(r)
    && SerialsIssued(r)
  }

  lemma EmptyValid()
    ensures Valid(Empty)
  {
  }

  // ---------------------------------------------------------------------
  // Operations
  // ---------------------------------------------------------------------

  /** `_generate_connection_id`: bump the counter, then use it. */
  function NextId(r: Registry, stamp: string): (res: (Registry, ConnId))
    ensures res.0 == r.(counter := r.counter + 1)
    ensures res.1.serial == r.counter + 1 && res.1.stamp == stamp
    ensures SerialsIssued(r) ==> res.1 !in r.connections
  {
    (r.(counter := r.counter + 1), ConnId(r.counter + 1, stamp))
  }

  function AddTo<K>(m: map<K, set<ConnId>>, k: K, c: ConnId): (m': map<K, set<ConnId>>)
    ensures k in m' && m'[k] == (if k in m then m[k] else {}) + {c}
    ensures forall k' | k' in m && k' != k :: k' in m' && m'[k'] == m[k']
    ensures m'.Keys == m.Keys + {k}
  {
    m[k := (if k in m then m[k] else {}) + {c}]
  }

  /** The registration part of `connect`: a fresh id, recorded with its
      project and, when `workflow_id` is truthy, that one workflow, and
      entered in the matching indexes. */
  function Register(r: Registry, projectId: Option<int>, workflowId: Option<string>, stamp: string, now: int)
    : (res: (Registry, ConnId))
    ensures var (r', id) := res;
      && id.serial == r.counter + 1
      && r'.counter == r.counter + 1
      && id in r'.connections
      && r'.connections[id].projectId == projectId
      && r'.connections[id].workflowIds == (if Truthy(workflowId) then {workflowId.value} else {})
      && (SerialsIssued(r) ==> id !in r.connections && r'.connections == r.connections[id := r'.connections[id]])
  {
    var (r1, id) := NextId(r, stamp);
    var wids := if Truthy(workflowId) then {workflowId.value} else {};
    var conns := r1.connections[id := ConnectionInfo(projectId, wids, now)];
    var ps := if projectId.Some? then AddTo(r1.projectSubscribers, projectId.value, id) else r1.projectSubscribers;
    var ws := if Truthy(workflowId) then AddTo(r1.workflowSubscribers, workflowId.value, id) else r1.workflowSubscribers;
    (Registry(conns, ws, ps, r1.counter), id)
  }

  lemma RegisterWorkflowSound(r: Registry, projectId: Option<int>, workflowId: Option<string>, stamp: string, now: int)
    requires WorkflowIndexSound(r) && SerialsIssued(r)
    ensures WorkflowIndexSound(Register(r, projectId, workflowId, stamp, now).0)
  {
    var (r', id) := Register(r, projectId, workflowId, stamp, now);
    forall w | w in r'.workflowSubscribers
      ensures forall c | c in r'.workflowSubscribers[w] :: c in r'.connections && w in r'.connections[c].workflowIds
    {
      forall c | c in r'.workflowSubscribers[w] ensures c in r'.connections && w in r'.connections[c].workflowIds {
        if c != id {
          assert w in r.workflowSubscribers && c in r.workflowSubscribers[w];
        }
      }
    }
  }

  lemma RegisterWorkflowComplete(r: Registry, projectId: Option<int>, workflowId: Option<string>, stamp: string,
                                 now: int)
    requires WorkflowIndexComplete(r) && SerialsIssued(r)
    ensures WorkflowIndexComplete(Register(r, projectId, workflowId, stamp, now).0)
  {
    var (r', id) := Register(r, projectId, workflowId, stamp, now);
    forall c | c in r'.connections
      ensures forall w | w in r'.connections[c].workflowIds :: w in r'.workflowSubscribers && c in r'.workflowSubscribers[w]
    {
      if c != id {
        assert r'.connections[c] == r.connections[c];
      }
    }
  }

  lemma RegisterProjectSound(r: Registry, projectId: Option<int>, workflowId: Option<string>, stamp: string, now: int)
    requires ProjectIndexSound(r) && SerialsIssued(r)
    ensures ProjectIndexSound(Register(r, projectId, workflowId, stamp, now).0)
  {
    var (r', id) := Register(r, projectId, workflowId, stamp, now);
    forall p | p in r'.projectSubscribers
      ensures forall c | c in r'.projectSubscribers[p] :: c in r'.connections && r'.connections[c].projectId == Some(p)
    {
      forall c | c in r'.projectSubscribers[p] ensures c in r'.connections && r'.connections[c].projectId == Some(p) {
        if c != id {
          assert p in r.projectSubscribers && c in r.projectSubscribers[p];
        }
      }
    }
  }

  lemma RegisterProjectComplete(r: Registry, projectId: Option<int>, workflowId: Option<string>, stamp: string,
                                now: int)
    requires ProjectIndexComplete(r) && SerialsIssued(r)
    ensures ProjectIndexComplete(Register(r, projectId, workflowId, stamp, now).0)
  {
    var (r', id) := Register(r, projectId, workflowId, stamp, now);
    forall c | c in r'.connections && r'.connections[c].projectId.Some?
      ensures r'.connections[c].projectId.value in r'.projectSubscribers
              && c in r'.projectSubscribers[r'.connections[c].projectId.value]
    {
      if c != id {
        assert r'.connections[c] == r.connections[c];
      }
    }
  }

  lemma RegisterIndexedAt(r: Registry, projectId: Option<int>, workflowId: Option<string>, stamp: string, now: int)
    requires Valid(r)
    ensures var (r', id) := Register(r, projectId, workflowId, stamp, now);
      && (forall p :: p in r'.projectSubscribers && id in r'.projectSubscribers[p] <==> projectId == Some(p))
      && (forall w :: w in r'.workflowSubscribers && id in r'.workflowSubscribers[w]
                      <==> Truthy(workflowId) && w == workflowId.value)
  {
    var (r', id) := Register(r, projectId, workflowId, stamp, now);
    assert id !in r.connections;
    forall p | p in r.projectSubscribers ensures id !in r.projectSubscribers[p] {
    }
    forall w | w in r.workflowSubscribers ensures id !in r.workflowSubscribers[w] {
    }
  }

  /** After registration the new id is indexed under its project exactly
      when one was given and under a workflow exactly when a truthy one was. */
  lemma RegisterIndexes(r: Registry, projectId: Option<int>, workflowId: Option<string>, stamp: string, now: int)
    requires Valid(r)
    ensures var (r', id) := Register(r, projectId, workflowId, stamp, now);
      && Valid(r')
      && (forall p :: p in r'.projectSubscribers && id in r'.projectSubscribers[p] <==> projectId == Some(p))
      && (forall w :: w in r'.workflowSubscribers && id in r'.workflowSubscribers[w]
                      <==> Truthy(workflowId) && w == workflowId.value)
  {
    RegisterWorkflowSound(r, projectId, workflowId, stamp, now);
    RegisterWorkflowComplete(r, projectId, workflowId, stamp, now);
    RegisterProjectSound(r, projectId, workflowId, stamp, now);
    RegisterProjectComplete(r, projectId, workflowId, stamp, now);
    RegisterIndexedAt(r, projectId, workflowId, stamp, now);
  }

  /** `disconnect`: an unknown id changes nothing; otherwise the id leaves
      its project's and its workflows' subscriber sets, emptied entries are
      deleted, and the connection is removed. */
  function Disconnect(r: Registry, id: ConnId): (r': Registry)
    ensures id !in r.connections ==> r' == r
    ensures r'.connections == r.connections - {id}
    ensures r'.counter == r.counter
  {
    if id !in r.connections then r
    else
      var info := r.connections[id];
      var ps := r.projectSubscribers;
      var ps' :=
        if info.projectId.Some? && info.projectId.value in ps then
          var p := info.projectId.value;
          if ps[p] - {id} == {} then ps - {p} else ps[p := ps[p] - {id}]
        else ps;
      var ws := r.workflowSubscribers;
      var ws' := map w | w in ws && (w !in info.workflowIds || ws[w] - {id} != {}) ::
                   if w in info.workflowIds then ws[w] - {id} else ws[w];
      Registry(r.connections - {id}, ws', ps', r.counter)
  }

  lemma DisconnectWorkflowSound(r: Registry, id: ConnId)
    requires WorkflowIndexSound(r) && id in r.connections
    ensures WorkflowIndexSound(Disconnect(r, id))
    ensures forall w | w in Disconnect(r, id).workflowSubscribers :: id !in Disconnect(r, id).workflowSubscribers[w]
  {
    var r' := Disconnect(r, id);
    var info := r.connections[id];
    forall w | w in r'.workflowSubscribers
      ensures forall c | c in r'.workflowSubscribers[w] :: c in r'.connections && w in r'.connections[c].workflowIds
      ensures id !in r'.workflowSubscribers[w]
    {
      if w !in info.workflowIds {
        assert r'.workflowSubscribers[w] == r.workflowSubscribers[w];
      }
    }
  }

  lemma DisconnectWorkflowComplete(r: Registry, id: ConnId)
    requires WorkflowIndexComplete(r) && id in r.connections
    ensures WorkflowIndexComplete(Disconnect(r, id))
  {
    var r' := Disconnect(r, id);
    forall c | c in r'.connections
      ensures forall w | w in r'.connections[c].workflowIds :: w in r'.workflowSubscribers && c in r'.workflowSubscribers[w]
    {
      forall w | w in r'.connections[c].workflowIds
        ensures w in r'.workflowSubscribers && c in r'.workflowSubscribers[w]
      {
        assert c in r.workflowSubscribers[w];
        assert c in r.workflowSubscribers[w] - {id};
      }
    }
  }

  lemma DisconnectProjectIndex(r: Registry, id: ConnId)
    requires ProjectIndexSound(r) && ProjectIndexComplete(r) && NoEmptyEntries(r) && id in r.connections
    ensures ProjectIndexSound(Disconnect(r, id)) && ProjectIndexComplete(Disconnect(r, id))
    ensures forall p | p in Disconnect(r, id).projectSubscribers :: Disconnect(r, id).projectSubscribers[p] != {}
    ensures forall p | p in Disconnect(r, id).projectSubscribers :: id !in Disconnect(r, id).projectSubscribers[p]
  {
  }

  /** `disconnect` keeps the indexes consistent. */
  lemma DisconnectValid(r: Registry, id: ConnId)
    requires Valid(r)
    ensures Valid(Disconnect(r, id))
    ensures forall w | w in Disconnect(r, id).workflowSubscribers :: id !in Disconnect(r, id).workflowSubscribers[w]
    ensures forall p | p in Disconnect(r, id).projectSubscribers :: id !in Disconnect(r, id).projectSubscribers[p]
  {
    if id in r.connections {
      DisconnectWorkflowSound(r, id);
      DisconnectWorkflowComplete(r, id);
      DisconnectProjectIndex(r, id);
    }
  }

  /** `subscribe_to_workflow`: an unknown id changes nothing; otherwise the
      workflow joins the connection's set and the connection joins the
      workflow's subscribers. */
  function Subscribe(r: Registry, id: ConnId, workflowId: string): (r': Registry)
    ensures id !in r.connections ==> r' == r
    ensures id in r.connections ==>
      && r'.connections.Keys == r.connections.Keys
      && r'.connections[id].workflowIds == r.connections[id].workflowIds + {workflowId}
      && r'.connections[id].projectId == r.connections[id].projectId
      && workflowId in r'.workflowSubscribers && id in r'.workflowSubscribers[workflowId]
    ensures forall c | c in r.connections && c != id :: c in r'.connections && r'.connections[c] == r.connections[c]
    ensures r'.projectSubscribers == r.projectSubscribers && r'.counter == r.counter
  {
    if id !in r.connections then r
    else
      var info := r.connections[id];
      r.(connections := r.connections[id := info.(workflowIds := info.workflowIds + {workflowId})],
         workflowSubscribers := AddTo(r.workflowSubscribers, workflowId, id))
  }

  lemma SubscribeWorkflowSound(r: Registry, id: ConnId, workflowId: string)
    requires WorkflowIndexSound(r) && id in r.connections
    ensures WorkflowIndexSound(Subscribe(r, id, workflowId))
  {
    var r' := Subscribe(r, id, workflowId);
    forall w | w in r'.workflowSubscribers
      ensures forall c | c in r'.workflowSubscribers[w] :: c in r'.connections && w in r'.connections[c].workflowIds
    {
      if w != workflowId {
        assert r'.workflowSubscribers[w] == r.workflowSubscribers[w];
      }
    }
  }

  lemma SubscribeWorkflowComplete(r: Registry, id: ConnId, workflowId: string)
    requires WorkflowIndexComplete(r) && id in r.connections
    ensures WorkflowIndexComplete(Subscribe(r, id, workflowId))
  {
    var r' := Subscribe(r, id, workflowId);
    forall c | c in r'.connections
      ensures forall w | w in r'.connections[c].workflowIds :: w in r'.workflowSubscribers && c in r'.workflowSubscribers[w]
    {
      if c != id {
        assert r'.connections[c] == r.connections[c];
      }
    }
  }

  lemma SubscribeProjectIndex(r: Registry, id: ConnId, workflowId: string)
    requires ProjectIndexSound(r) && ProjectIndexComplete(r) && id in r.connections
    ensures ProjectIndexSound(Subscribe(r, id, workflowId)) && ProjectIndexComplete(Subscribe(r, id, workflowId))
  {
  }

  /** Subscribing keeps the indexes consistent. */
  lemma SubscribeValid(r: Registry, id: ConnId, workflowId: string)
    requires Valid(r)
    ensures Valid(Subscribe(r, id, workflowId))
  {
    if id in r.connections {
      SubscribeWorkflowSound(r, id, workflowId);
      SubscribeWorkflowComplete(r, id, workflowId);
      SubscribeProjectIndex(r, id, workflowId);
    }
  }

  /** Subscribing twice is subscribing once. */
  lemma SubscribeIdempotent(r: Registry, id: ConnId, workflowId: string)
    ensures Subscribe(Subscribe(r, id, workflowId), id, workflowId) == Subscribe(r, id, workflowId)
  {
    if id in r.connections {
      var r1 := Subscribe(r, id, workflowId);
      assert r1.connections[id].workflowIds + {workflowId} == r1.connections[id].workflowIds;
      assert r1.workflowSubscribers[workflowId] + {id} == r1.workflowSubscribers[workflowId];
    }
  }

  /** `send_personal_message`: an unknown id sends nothing; a failing send
      disconnects that connection and no other. */
  function SendPersonal(r: Registry, id: ConnId, sendOk: bool): (res: (Registry, bool))
    ensures var (r', delivered) := res;
      && (delivered <==> id in r.connections && sendOk)
      && (id !in r.connections || sendOk ==> r' == r)
      && (id in r.connections && !sendOk ==> r' == Disconnect(r, id))
  {
    if id !in r.connections then (r, false)
    else if sendOk then (r, true)
    else (Disconnect(r, id), false)
  }

  /** The acknowledgement `connect` sends. */
  function ConnectedMessage(id: ConnId, projectId: Option<int>, workflowId: Option<string>): Dict {
    FromPairs([("type", JStr("connected")),
               ("connection_id", JStr(IdText(id))),
               ("project_id", OptInt(projectId)),
               ("workflow_id", OptStr(workflowId)),
               ("message", JStr("Connected to progress updates"))])
  }

  /** `connect`: register, then acknowledge; a failed acknowledgement
      disconnects the new connection straight away. The id is returned
      either way. */
  function Connect(r: Registry, projectId: Option<int>, workflowId: Option<string>, stamp: string, now: int,
                   ackOk: bool): (res: (Registry, ConnId, Option<Dict>))
    ensures var (r', id, ack) := res;
      && id.serial == r.counter + 1
      && r'.counter == r.counter + 1
      && (ack.Some? <==> ackOk)
      && (ackOk ==> id in r'.connections && ack.value == ConnectedMessage(id, projectId, workflowId))
      && (!ackOk ==> id !in r'.connections)
      && (SerialsIssued(r) ==> r'.connections - {id} == r.connections)
      && (ackOk ==> r' == Register(r, projectId, workflowId, stamp, now).0)
      && (!ackOk ==> r' == Disconnect(Register(r, projectId, workflowId, stamp, now).0, id))
      && (ackOk ==> r'.connections[id].projectId == projectId)
      && (ackOk ==> r'.connections[id].workflowIds == (if Truthy(workflowId) then {workflowId.value} else {}))
  {
    var (r1, id) := Register(r, projectId, workflowId, stamp, now);
    var (r2, delivered) := SendPersonal(r1, id, ackOk);
    (r2, id, if delivered then Some(ConnectedMessage(id, projectId, workflowId)) else None)
  }

  /** A connection that stays is indexed under its project exactly when one
      was given and under a workflow exactly when a truthy one was, so the
      broadcasts for them reach it. */
  lemma ConnectIndexes(r: Registry, projectId: Option<int>, workflowId: Option<string>, stamp: string, now: int)
    requires Valid(r)
    ensures var (r', id, _) := Connect(r, projectId, workflowId, stamp, now, true);
      && (forall p :: p in r'.projectSubscribers && id in r'.projectSubscribers[p] <==> projectId == Some(p))
      && (forall w :: w in r'.workflowSubscribers && id in r'.workflowSubscribers[w]
                      <==> Truthy(workflowId) && w == workflowId.value)
  {
    RegisterIndexedAt(r, projectId, workflowId, stamp, now);
  }

  lemma ConnectValid(r: Registry, projectId: Option<int>, workflowId: Option<string>, stamp: string, now: int,
                     ackOk: bool)
    requires Valid(r)
    ensures Valid(Connect(r, projectId, workflowId, stamp, now, ackOk).0)
  {
    RegisterIndexes(r, projectId, workflowId, stamp, now);
    var (r1, id) := Register(r, projectId, workflowId, stamp, now);
    DisconnectValid(r1, id);
  }

  // ---------------------------------------------------------------------
  // Broadcasts
  // ---------------------------------------------------------------------

  /** The connections a workflow update goes to: the union of the
      workflow's and the project's subscribers. Under the invariant these
      are exactly the live connections that follow the workflow or belong
      to the project. */
  function Targets(r: Registry, workflowId: string, projectId: int): (t: set<ConnId>)
    ensures Valid(r) ==> forall c :: c in t <==>
      c in r.connections && (workflowId in r.connections[c].workflowIds || r.connections[c].projectId == Some(projectId))
  {
    (if workflowId in r.workflowSubscribers then r.workflowSubscribers[workflowId] else {})
    + (if projectId in r.projectSubscribers then r.projectSubscribers[projectId] else {})
  }

  /** The message of `broadcast_workflow_progress`: a header, then every
      entry of `progress_data`, which wins over the header on a shared key. */
  function ProgressMessage(workflowId: string, projectId: int, stamp: string, progressData: Dict): Dict {
    Update(FromPairs([("type", JStr("progress_update")),
                      ("workflow_id", JStr(workflowId)),
                      ("project_id", JInt(projectId)),
                      ("timestamp", JStr(stamp))]),
           progressData)
  }

  /** What a subscriber reads from a progress message. */
  lemma ProgressMessageFields(workflowId: string, projectId: int, stamp: string, progressData: Dict, k: string)
    requires UniqueKeys(progressData)
    ensures var m := ProgressMessage(workflowId, projectId, stamp, progressData);
      && (HasKey(progressData, k) ==> Get(m, k) == Get(progressData, k))
      && (!HasKey(progressData, k) && k == "type" ==> Get(m, k) == Some(JStr("progress_update")))
      && (!HasKey(progressData, k) && k == "workflow_id" ==> Get(m, k) == Some(JStr(workflowId)))
      && (!HasKey(progressData, k) && k == "project_id" ==> Get(m, k) == Some(JInt(projectId)))
  {
    var header := [("type", JStr("progress_update")), ("workflow_id", JStr(workflowId)),
                   ("project_id", JInt(projectId)), ("timestamp", JStr(stamp))];
    GetUpdate(FromPairs(header), progressData, k);
    assert UniqueKeys(header);
    GetFromPairs(header, k);
    if k == "type" { GetAt(header, k, 0); }
    if k == "workflow_id" { GetAt(header, k, 1); }
    if k == "project_id" { GetAt(header, k, 2); }
  }

  /** The clean-up after a broadcast: each listed id is disconnected in
      turn, which removes exactly the listed connections. */
  function DisconnectAll(r: Registry, ids: seq<ConnId>): (r': Registry)
    ensures r'.connections == r.connections - (set c | c in ids)
    ensures r'.counter == r.counter
    decreases |ids|
  {
    if |ids| == 0 then r
    else
      assert (set c | c in ids) == {ids[0]} + (set c | c in ids[1..]);
      DisconnectAll(Disconnect(r, ids[0]), ids[1..])
  }

  /** Disconnecting a list keeps the indexes consistent. */
  lemma {:induction false} DisconnectAllValid(r: Registry, ids: seq<ConnId>)
    requires Valid(r)
    ensures Valid(DisconnectAll(r, ids))
    decreases |ids|
  {
    if |ids| > 0 {
      DisconnectValid(r, ids[0]);
      DisconnectAllValid(Disconnect(r, ids[0]), ids[1..]);
    }
  }

  /** The send loop shared by both broadcasts: every registered target is
      attempted once, in any order, without stopping at a failure; the
      targets split into those reached and those whose send failed. */
  method SendEach(r: Registry, targets: set<ConnId>, fails: set<ConnId>)
    returns (recipients: seq<ConnId>, failed: seq<ConnId>)
    ensures forall c :: c in recipients <==> c in targets && c in r.connections && c !in fails
    ensures forall i, j | 0 <= i < j < |recipients| :: recipients[i] != recipients[j]
    ensures (set c | c in failed) == targets * fails * r.connections.Keys
  {
    var todo := targets;
    recipients := [];
    failed := [];
    while todo != {}
      invariant todo <= targets
      invariant forall c :: c in recipients <==> c in targets && c !in todo && c in r.connections && c !in fails
      invariant forall c :: c in failed <==> c in targets && c !in todo && c in r.connections && c in fails
      invariant forall i, j | 0 <= i < j < |recipients| :: recipients[i] != recipients[j]
      decreases |todo|
    {
      var c :| c in todo;
      if c in r.connections {
        if c in fails {
          failed := failed + [c];
        } else {
          recipients := recipients + [c];
        }
      }
      todo := todo - {c};
    }
  }

  /** A broadcast: the send loop, then the failed targets are
      disconnected. */
  method SendToAll(r: Registry, targets: set<ConnId>, fails: set<ConnId>)
    returns (r': Registry, recipients: seq<ConnId>)
    ensures forall c :: c in recipients <==> c in targets && c in r.connections && c !in fails
    ensures forall i, j | 0 <= i < j < |recipients| :: recipients[i] != recipients[j]
    ensures r'.connections == r.connections - (targets * fails)
    ensures r'.counter == r.counter
    ensures Valid(r) ==> Valid(r')
  {
    var failed;
    recipients, failed := SendEach(r, targets, fails);
    r' := DisconnectAll(r, failed);
    if Valid(r) { DisconnectAllValid(r, failed); }
  }

  /** `broadcast_workflow_progress`: one message to every live subscriber
      of the workflow or of the project, each once; exactly the failed ones
      are disconnected afterwards. */
  method BroadcastWorkflowProgress(r: Registry, workflowId: string, projectId: int, progressData: Dict,
                                   stamp: string, fails: set<ConnId>)
    returns (r': Registry, message: Dict, recipients: seq<ConnId>)
    ensures message == ProgressMessage(workflowId, projectId, stamp, progressData)
    ensures forall c :: c in recipients <==> c in Targets(r, workflowId, projectId) && c in r.connections && c !in fails
    ensures forall i, j | 0 <= i < j < |recipients| :: recipients[i] != recipients[j]
    ensures r'.connections == r.connections - (Targets(r, workflowId, projectId) * fails)
    ensures Valid(r) ==> Valid(r')
  {
    message := ProgressMessage(workflowId, projectId, stamp, progressData);
    r', recipients := SendToAll(r, Targets(r, workflowId, projectId), fails);
  }

  /** `broadcast_to_project`: a project without subscribers is a no-op;
      otherwise as the workflow broadcast, over the project's subscribers. */
  method BroadcastToProject(r: Registry, projectId: int, fails: set<ConnId>)
    returns (r': Registry, recipients: seq<ConnId>)
    ensures projectId !in r.projectSubscribers ==> r' == r && recipients == []
    ensures projectId in r.projectSubscribers ==>
      && (forall c :: c in recipients <==> c in r.projectSubscribers[projectId] && c in r.connections && c !in fails)
      && r'.connections == r.connections - (r.projectSubscribers[projectId] * fails)
    ensures forall i, j | 0 <= i < j < |recipients| :: recipients[i] != recipients[j]
    ensures Valid(r) ==> Valid(r')
  {
    if projectId !in r.projectSubscribers {
      return r, [];
    }
    r', recipients := SendToAll(r, r.projectSubscribers[projectId], fails);
  }

  /** `get_active_connections_count`. */
  function ActiveCount(r: Registry): (n: nat)
    ensures n == |r.connections.Keys|
    ensures n == 0 <==> r.connections == map[]
  {
    |r.connections|
  }

  /** A map that is `m0` plus at most the key `k` is one larger exactly
      when it holds `k`. */
  lemma MapAddSize<K, V>(m: map<K, V>, m0: map<K, V>, k: K, added: bool)
    requires m - {k} == m0 && (k in m <==> added)
    ensures |m| == |m0| + (if added then 1 else 0)
  {
    if added {
      assert m0.Keys == m.Keys - {k};
    } else {
      assert m == m0;
    }
  }

  /** A connect adds one to the count when its acknowledgement is
      delivered, and nothing when the failed send disconnects it again. */
  lemma ActiveCountConnect(r: Registry, projectId: Option<int>, workflowId: Option<string>, stamp: string,
                           now: int, ackOk: bool)
    requires SerialsIssued(r)
    ensures ActiveCount(Connect(r, projectId, workflowId, stamp, now, ackOk).0)
         == ActiveCount(r) + (if ackOk then 1 else 0)
  {
    var res := Connect(r, projectId, workflowId, stamp, now, ackOk);
    MapAddSize(res.0.connections, r.connections, res.1, ackOk);
  }

  /** A disconnect removes one from the count for a registered id and
      nothing for an unknown one. */
  lemma ActiveCountDisconnect(r: Registry, id: ConnId)
    ensures ActiveCount(Disconnect(r, id)) == ActiveCount(r) - (if id in r.connections then 1 else 0)
  {
    MapAddSize(r.connections, Disconnect(r, id).connections, id, id in r.connections);
  }

  /** `get_project_connections_count`. */
  function ProjectCount(r: Registry, projectId: int): (n: nat)
    ensures projectId !in r.projectSubscribers ==> n == 0
  {
    if projectId !in r.projectSubscribers then 0 else |r.projectSubscribers[projectId]|
  }

  /** Under the invariant the project count is the number of live
      connections registered with that project. */
  lemma ProjectCountMeaning(r: Registry, projectId: int)
    requires Valid(r)
    ensures ProjectCount(r, projectId) == |set c | c in r.connections && r.connections[c].projectId == Some(projectId)|
  {
    var s := set c | c in r.connections && r.connections[c].projectId == Some(projectId);
    if projectId in r.projectSubscribers {
      assert r.projectSubscribers[projectId] == s;
    } else {
      assert s == {};
    }
  }

  // ---------------------------------------------------------------------
  // Runs of single-connection operations
  // ---------------------------------------------------------------------

  datatype Op =
    | OpConnect(projectId: Option<int>, workflowId: Option<string>, stamp: string, now: int, ackOk: bool)
    | OpSubscribe(id: ConnId, topic: string)
    | OpDisconnect(id: ConnId)
    | OpSend(id: ConnId, sendOk: bool)

  function Step(r: Registry, op: Op): (res: (Registry, Option<ConnId>))
    ensures res.1.Some? <==> op.OpConnect?
    ensures res.0.counter == r.counter + (if op.OpConnect? then 1 else 0)
    ensures res.1.Some? ==> res.1.value.serial == r.counter + 1
  {
    match op
    case OpConnect(p, w, s, t, ok) =>
      var (r', id, _) := Connect(r, p, w, s, t, ok);
      (r', Some(id))
    case OpSubscribe(id, w) => (Subscribe(r, id, w), None)
    case OpDisconnect(id) => (Disconnect(r, id), None)
    case OpSend(id, ok) => (SendPersonal(r, id, ok).0, None)
  }

  /** The registry after a run and the ids its connects issued, in order. */
  function Run(r: Registry, ops: seq<Op>): (res: (Registry, seq<ConnId>))
    ensures res.0.counter == r.counter + |res.1|
    ensures forall i | 0 <= i < |res.1| :: res.1[i].serial == r.counter + i + 1
    decreases |ops|
  {
    if |ops| == 0 then (r, [])
    else
      var (r1, issued) := Step(r, ops[0]);
      var (r2, rest) := Run(r1, ops[1..]);
      (r2, (if issued.Some? then [issued.value] else []) + rest)
  }

  /** Any run of connects, subscribes, disconnects and sends keeps the
      indexes consistent, and its connects issue pairwise distinct ids, none
      of which was registered before the run. */
  lemma {:induction false} RunValid(r: Registry, ops: seq<Op>)
    requires Valid(r)
    ensures Valid(Run(r, ops).0)
    ensures var ids := Run(r, ops).1; forall i, j | 0 <= i < j < |ids| :: ids[i] != ids[j]
    ensures forall i | 0 <= i < |Run(r, ops).1| :: Run(r, ops).1[i] !in r.connections
    decreases |ops|
  {
    if |ops| > 0 {
      var (r1, _) := Step(r, ops[0]);
      match ops[0] {
        case OpConnect(p, w, s, t, ok) => ConnectValid(r, p, w, s, t, ok);
        case OpSubscribe(id, w) => SubscribeValid(r, id, w);
        case OpDisconnect(id) => DisconnectValid(r, id);
        case OpSend(id, ok) => DisconnectValid(r, id);
      }
      RunValid(r1, ops[1..]);
    }
  }
}

=== FILE: groq_provider.dfy ===
/**
  The local behaviour of the Groq chat provider: its configuration, the
  input clipping applied to every prompt, chat-message construction, the
  effect of a generation call on the caller's history, and the embedding
  placeholder. The chat-completion request itself is a parameter: the
  reply it would give, or the error it would raise.
*/
module GroqProvider {
  import opened Wrappers
  import opened Text
  import opened Json

  const DefaultApiUrl := "https://api.groq.com"
  const DefaultInputMaxCharacters := 1000
  const DefaultOutputMaxTokens := 1000
  const ModelNotSet := "Groq model is not set! Call set_generation_model()."

  /** Chat roles, as the provider's role enumeration spells them. */
  const SystemRole := "system"
  const UserRole := "user"
  const AssistantRole := "assistant"

  datatype Provider = Provider(apiKey: string, apiUrl: string, inputMaxCharacters: int, outputMaxTokens: int,
                               generationModel: Option<string>, embeddingModel: Option<string>,
                               embeddingSize: Option<int>)

  /** The constructor: a missing or empty `api_url` falls back to the
      public endpoint, and no model is chosen yet. */
  function NewProvider(apiKey: string, apiUrl: Option<string>, inputMaxCharacters: int, outputMaxTokens: int)
    : (p: Provider)
    ensures !Truthy(apiUrl) ==> p.apiUrl == DefaultApiUrl
    ensures Truthy(apiUrl) ==> p.apiUrl == apiUrl.value
    ensures p.generationModel.None? && p.embeddingModel.None? && p.embeddingSize.None?
  {
    Provider(apiKey, if Truthy(apiUrl) then apiUrl.value else DefaultApiUrl, inputMaxCharacters, outputMaxTokens,
             None, None, None)
  }

  function SetGenerationModel(p: Provider, modelId: string): Provider {
    p.(generationModel := Some(modelId))
  }

  /** Python's `s[:n]`: a negative `n` counts from the end. */
  function PyPrefix(s: string, n: int): (r: string)
    ensures r <= s
    ensures n >= 0 ==> |r| == if n < |s| then n else |s|
    ensures n < 0 ==> |r| == if |s| + n > 0 then |s| + n else 0
  {
    if n >= 0 then (if n < |s| then s[..n] else s)
    else if |s| + n > 0 then s[..|s| + n]
    else ""
  }

  /** `process_text`: the first `default_input_max_characters` characters,
      stripped: a stripped piece of the text, never longer than the limit. */
  function ProcessText(p: Provider, text: string): (r: string)
    ensures Stripped(r)
    ensures p.inputMaxCharacters >= 0 ==> |r| <= p.inputMaxCharacters
    ensures Contains(text, r)
  {
    var head := PyPrefix(text, p.inputMaxCharacters);
    var r := Strip(head);
    assert text[LeadingSpaces(head)..LeadingSpaces(head) + |r|] == r;
    ContainsWitness(text, r, LeadingSpaces(head));
    r
  }

  /** A stripped text within the limit passes `process_text` unchanged. */
  lemma ProcessTextKeepsShort(p: Provider, text: string)
    requires Stripped(text) && |text| <= p.inputMaxCharacters
    ensures ProcessText(p, text) == text
  {
    StripOfStripped(text);
  }

  /** `construct_prompt`: a message holding the role and content as given. */
  function ConstructPrompt(prompt: string, role: string): (m: Dict)
    ensures UniqueKeys(m) && |m| == 2
    ensures Get(m, "role") == Some(JStr(role)) && Get(m, "content") == Some(JStr(prompt))
  {
    [("role", JStr(role)), ("content", JStr(prompt))]
  }

  /** What a `generate_text` call leaves behind: its outcome, the caller's
      history object afterwards (`None` when the caller passed none), and
      the messages sent, if the request was made. */
  datatype Generation = Generation(outcome: Result<Option<string>>, history: Option<seq<Dict>>,
                                   sent: Option<seq<Dict>>)

  /** The user message `generate_text` appends for a prompt. */
  function UserMessage(p: Provider, prompt: string): Dict {
    ConstructPrompt(ProcessText(p, prompt), UserRole)
  }

  /** `generate_text` with `reply` standing for the chat-completion request.
      Without a model it raises before touching anything; otherwise it
      appends one user message to the history (a fresh list when none is
      given) and sends the whole history. */
  function GenerateText(p: Provider, prompt: string, history: Option<seq<Dict>>, reply: Result<Option<string>>)
    : (g: Generation)
    ensures !Truthy(p.generationModel) ==> g == Generation(Err(ModelNotSet), history, None)
    ensures Truthy(p.generationModel) ==> g.outcome == reply && g.sent.Some?
    ensures Truthy(p.generationModel) && history.Some? ==>
      && g.history.Some? && history.value <= g.history.value
      && |g.history.value| == |history.value| + 1
      && g.history.value[|history.value|] == UserMessage(p, prompt)
      && g.sent == g.history
    ensures Truthy(p.generationModel) && history.None? ==>
      g.history.None? && g.sent == Some([UserMessage(p, prompt)])
  {
    if !Truthy(p.generationModel) then Generation(Err(ModelNotSet), history, None)
    else
      var messages := history.GetOr([]) + [UserMessage(p, prompt)];
      assert messages[|history.GetOr([])|] == UserMessage(p, prompt);
      assert history.Some? ==> history.GetOr([]) == history.value;
      assert history.None? ==> messages == [UserMessage(p, prompt)];
      Generation(reply, if history.Some? then Some(messages) else None, Some(messages))
  }

  /** `embed_text`: the provider has no embeddings and answers `None`. */
  function EmbedText(p: Provider, texts: seq<string>): (r: Option<seq<seq<real>>>)
    ensures r.None?
  {
    None
  }
}

=== FILE: json.dfy ===
/** JSON values as exchanged over the WebSocket, published on Redis and
    stored in the `result` column, with the ordered-dictionary operations
    the code uses on them: literal construction, `d[k] = v`, `{**a, **b}`
    and key removal. Dictionaries are association lists in insertion order,
    as Python dicts and JavaScript objects with string keys are. */
module Json {
  import opened Wrappers

  datatype Json =
    | JNull
    | JBool(b: bool)
    | JInt(i: int)
    | JNum(r: real)
    | JStr(s: string)
    | JArr(items: seq<Json>)
    | JObj(fields: seq<(string, Json)>)

  type Dict = seq<(string, Json)>

  predicate UniqueKeys(d: Dict) {
    forall i, j | 0 <= i < j < |d| :: d[i].0 != d[j].0
  }

  predicate HasKey(d: Dict, k: string) {
    exists i | 0 <= i < |d| :: d[i].0 == k
  }

  /** Past a first entry with another key, the key is held by the rest. */
  lemma HasKeyTail(d: Dict, k: string)
    requires |d| > 0 && d[0].0 != k
    ensures HasKey(d, k) <==> HasKey(d[1..], k)
  {
    if HasKey(d, k) {
      var i :| 0 <= i < |d| && d[i].0 == k;
      assert d[1..][i - 1].0 == k;
    }
    if HasKey(d[1..], k) {
      var i :| 0 <= i < |d[1..]| && d[1..][i].0 == k;
      assert d[i + 1] == d[1..][i];
    }
  }

  /** `d.get(k)`: the value stored under `k`, if any. */
  function Get(d: Dict, k: string): (r: Option<Json>)
    ensures r.Some? <==> HasKey(d, k)
  {
    if |d| == 0 then None
    else if d[0].0 == k then Some(d[0].1)
    else
      assert HasKey(d, k) ==> HasKey(d[1..], k) by {
        if HasKey(d, k) {
          var i :| 0 <= i < |d| && d[i].0 == k;
          assert d[1..][i - 1].0 == k;
        }
      }
      Get(d[1..], k)
  }

  /** With distinct keys, `Get` finds the value of the one entry holding the key. */
  lemma {:induction false} GetAt(d: Dict, k: string, i: nat)
    requires UniqueKeys(d) && i < |d| && d[i].0 == k
    ensures Get(d, k) == Some(d[i].1)
    decreases |d|
  {
    if i > 0 {
      assert d[0].0 != k;
      assert d[1..][i - 1] == d[i];
      GetAt(d[1..], k, i - 1);
    }
  }

  /** `d[k] = v`: overwrite in place when `k` is present, append otherwise. */
  function Put(d: Dict, k: string, v: Json): (r: Dict)
    ensures Get(r, k) == Some(v)
    ensures forall k' | k' != k :: Get(r, k') == Get(d, k')
  {
    if |d| == 0 then [(k, v)]
    else if d[0].0 == k then [(k, v)] + d[1..]
    else
      [d[0]] + Put(d[1..], k, v)
  }

  /** Putting keeps the key order: every existing key stays in its slot,
      and a new key goes last. */
  lemma {:induction false} PutShape(d: Dict, k: string, v: Json)
    ensures |Put(d, k, v)| == if HasKey(d, k) then |d| else |d| + 1
    ensures forall i | 0 <= i < |d| :: Put(d, k, v)[i].0 == d[i].0
    ensures !HasKey(d, k) ==> Put(d, k, v)[|d|] == (k, v)
    decreases |d|
  {
    if |d| == 0 {
    } else if d[0].0 == k {
    } else {
      var rest := Put(d[1..], k, v);
      PutShape(d[1..], k, v);
      assert Put(d, k, v) == [d[0]] + rest;
      HasKeyTail(d, k);
      forall i | 1 <= i < |d| ensures Put(d, k, v)[i].0 == d[i].0 {
        assert Put(d, k, v)[i] == rest[i - 1];
        assert d[i] == d[1..][i - 1];
      }
    }
  }

  /** Putting into a dictionary with distinct keys keeps them distinct. */
  lemma PutUnique(d: Dict, k: string, v: Json)
    requires UniqueKeys(d)
    ensures UniqueKeys(Put(d, k, v))
  {
    PutShape(d, k, v);
    var r := Put(d, k, v);
    forall i, j | 0 <= i < j < |r| ensures r[i].0 != r[j].0 {
      if j < |d| {
        assert r[i].0 == d[i].0 && r[j].0 == d[j].0;
      } else {
        assert j == |d| && !HasKey(d, k);
        assert r[j].0 == k && r[i].0 == d[i].0;
      }
    }
  }

  /** `{**d, **e}`: every entry of `e` put into `d`, left to right. */
  function Update(d: Dict, e: Dict): (r: Dict)
    ensures UniqueKeys(d) ==> UniqueKeys(r)
    decreases |e|
  {
    if |e| == 0 then d
    else
      assert UniqueKeys(d) ==> UniqueKeys(Put(d, e[0].0, e[0].1)) by {
        if UniqueKeys(d) { PutUnique(d, e[0].0, e[0].1); }
      }
      Update(Put(d, e[0].0, e[0].1), e[1..])
  }

  /** A dictionary literal `{k1: v1, k2: v2, ...}`. */
  function FromPairs(pairs: Dict): (r: Dict)
    ensures UniqueKeys(r)
  {
    Update([], pairs)
  }

  /** `{**d, **e}` reads from `e` where `e` has the key and from `d` elsewhere. */
  lemma {:induction false} GetUpdate(d: Dict, e: Dict, k: string)
    requires UniqueKeys(e)
    ensures Get(Update(d, e), k) == if HasKey(e, k) then Get(e, k) else Get(d, k)
    decreases |e|
  {
    if |e| == 0 {
    } else {
      var d' := Put(d, e[0].0, e[0].1);
      assert UniqueKeys(e[1..]);
      GetUpdate(d', e[1..], k);
      if k == e[0].0 {
        assert !HasKey(e[1..], k);
      } else {
        assert HasKey(e, k) <==> HasKey(e[1..], k) by {
          if HasKey(e, k) {
            var i :| 0 <= i < |e| && e[i].0 == k;
            assert e[1..][i - 1].0 == k;
          }
        }
        if HasKey(e[1..], k) {
          var i :| 0 <= i < |e[1..]| && e[1..][i].0 == k;
          assert e[i + 1] == e[1..][i];
        }
      }
    }
  }

  /** A literal built from distinct keys maps each key to its own value. */
  lemma GetFromPairs(pairs: Dict, k: string)
    requires UniqueKeys(pairs)
    ensures Get(FromPairs(pairs), k) == Get(pairs, k)
  {
    GetUpdate([], pairs, k);
  }

  /** Merging entries that never carry `k` leaves the value under `k` alone. */
  lemma {:induction false} GetUpdateAbsent(d: Dict, e: Dict, k: string)
    requires forall j | 0 <= j < |e| :: e[j].0 != k
    ensures Get(Update(d, e), k) == Get(d, k)
    decreases |e|
  {
    if |e| > 0 {
      GetUpdateAbsent(Put(d, e[0].0, e[0].1), e[1..], k);
    }
  }

  /** The last entry of `e` carrying `k` decides the merged value under `k`. */
  lemma {:induction false} GetUpdateAt(d: Dict, e: Dict, k: string, i: nat)
    requires i < |e| && e[i].0 == k
    requires forall j | i < j < |e| :: e[j].0 != k
    ensures Get(Update(d, e), k) == Some(e[i].1)
    decreases |e|
  {
    var d' := Put(d, e[0].0, e[0].1);
    if i == 0 {
      GetUpdateAbsent(d', e[1..], k);
    } else {
      GetUpdateAt(d', e[1..], k, i - 1);
    }
  }

  /** In a literal, a key reads as the value written last for it. */
  lemma GetLiteral(pairs: Dict, k: string, i: nat)
    requires i < |pairs| && pairs[i].0 == k
    requires forall j | i < j < |pairs| :: pairs[j].0 != k
    ensures Get(FromPairs(pairs), k) == Some(pairs[i].1)
  {
    GetUpdateAt([], pairs, k, i);
  }

  /** `delete d[k]` / `{k: _, ...rest} = d`: the same entries without `k`,
      in the same order. */
  function Remove(d: Dict, k: string): (r: Dict)
    ensures !HasKey(r, k)
    ensures forall k' | k' != k :: Get(r, k') == Get(d, k')
    ensures |r| <= |d|
    ensures UniqueKeys(d) ==> UniqueKeys(r)
    ensures forall i | 0 <= i < |r| :: exists j | 0 <= j < |d| :: r[i] == d[j]
  {
    if |d| == 0 then []
    else if d[0].0 == k then Remove(d[1..], k)
    else
      var rest := Remove(d[1..], k);
      assert forall i | 0 <= i < |rest| :: exists j | 0 <= j < |d| :: rest[i] == d[j] by {
        forall i | 0 <= i < |rest| ensures exists j | 0 <= j < |d| :: rest[i] == d[j] {
          var j :| 0 <= j < |d[1..]| && rest[i] == d[1..][j];
          assert rest[i] == d[j + 1];
        }
      }
      [d[0]] + rest
  }

  /** Python truthiness of a JSON value. */
  predicate JTruthy(j: Json) {
    match j
    case JNull => false
    case JBool(b) => b
    case JInt(i) => i != 0
    case JNum(x) => x != 0.0
    case JStr(s) => s != ""
    case JArr(items) => items != []
    case JObj(fields) => fields != []
  }

  // `None` is rendered as `null`.

  function OptStr(s: Option<string>): Json {
    if s.Some? then JStr(s.value) else JNull
  }

  function OptInt(n: Option<int>): Json {
    if n.Some? then JInt(n.value) else JNull
  }

  function OptNum(x: Option<real>): Json {
    if x.Some? then JNum(x.value) else JNull
  }

  function OptJson(j: Option<Json>): Json {
    if j.Some? then j.value else JNull
  }
}

=== FILE: log_chunkers.dfy ===
/** The log chunkers of `ProcessController` (src/controllers/ProcessController.py).
    Every `process_log_*_splitter` but the sliding one is an instance of one
    loop: lines are appended to the current chunk, which closes as soon as
    its size (each line's length plus one) reaches `chunk_size` or the
    method's boundary rule fires on the appended line. The rules look at the
    state before that line (the last window, component, category, ...), at
    the line itself and at the chunk so far. The regular-expression
    extractors are uninterpreted functions; the status categories are not. */
module LogChunkers {
  import opened Wrappers
  import opened Text
  import opened Json

  /** A LangChain `Document`. */
  datatype Document = Document(pageContent: string, metadata: Dict)

  // ---------------------------------------------------------------------
  // Preparing the lines
  // ---------------------------------------------------------------------

  lemma SliceAvoids(s: string, c: char, i: int, j: int)
    requires 0 <= i <= j <= |s| && c !in s
    ensures c !in s[i..j]
  {
  }

  /** The stripped pieces that are not blank, in order. */
  function StrippedLines(pieces: seq<string>): (r: seq<string>)
    ensures forall i | 0 <= i < |r| :: r[i] != [] && Stripped(r[i])
    ensures (forall i | 0 <= i < |pieces| :: '\n' !in pieces[i]) ==> forall i | 0 <= i < |r| :: '\n' !in r[i]
    decreases |pieces|
  {
    if |pieces| == 0 then []
    else
      var l := Strip(pieces[0]);
      assert '\n' !in pieces[0] ==> '\n' !in l by {
        if '\n' !in pieces[0] {
          SliceAvoids(pieces[0], '\n', LeadingSpaces(pieces[0]), LeadingSpaces(pieces[0]) + |l|);
        }
      }
      (if l != [] then [l] else []) + StrippedLines(pieces[1..])
  }

  /** The lines every splitter works on: the texts joined with a space,
      split on newlines, stripped, blank ones dropped. */
  function PrepareLines(texts: seq<string>): (lines: seq<string>)
    ensures forall i | 0 <= i < |lines| :: lines[i] != [] && Stripped(lines[i]) && '\n' !in lines[i]
  {
    StrippedLines(Split(Join(texts, " "), '\n'))
  }

  lemma {:induction false} StrippedLinesOfLines(lines: seq<string>)
    requires forall i | 0 <= i < |lines| :: lines[i] != [] && Stripped(lines[i])
    ensures StrippedLines(lines) == lines
    decreases |lines|
  {
    if |lines| > 0 {
      StripOfStripped(lines[0]);
      StrippedLinesOfLines(lines[1..]);
    }
  }

  /** Preparing the newline-joined lines again gives the same lines, so a
      chunk's page content carries exactly its lines. */
  lemma PrepareLinesOfJoin(lines: seq<string>)
    requires forall i | 0 <= i < |lines| :: lines[i] != [] && Stripped(lines[i]) && '\n' !in lines[i]
    ensures PrepareLines([Join(lines, "\n")]) == lines
  {
    var j := Join(lines, "\n");
    assert Join([j], " ") == j;
    if |lines| == 0 {
      assert Split(j, '\n') == [""];
      assert StrippedLines([""]) == [];
    } else {
      SplitJoin(lines, '\n');
      assert Split(j, '\n') == lines;
      StrippedLinesOfLines(lines);
    }
  }

  // ---------------------------------------------------------------------
  // The shared chunking loop
  // ---------------------------------------------------------------------

  /** `sum(len(l) + 1 for l in lines)`, the running `current_chunk_size`. */
  function Size(lines: seq<string>): int
    decreases |lines|
  {
    if |lines| == 0 then 0 else Size(lines[..|lines| - 1]) + |lines[|lines| - 1]| + 1
  }

  /** A chunk: its lines, each with the splitter state before it, and the
      state its metadata is rendered from. */
  datatype Chunk<S> = Chunk(items: seq<(string, S)>, tag: S)

  /** The condition `should_chunk` after appending the last item. */
  predicate Fires<S>(chunkSize: int, close: (S, string, seq<string>) -> bool, items: seq<(string, S)>)
    requires |items| > 0
  {
    Size(Firsts(items)) >= chunkSize || close(items[|items| - 1].1, items[|items| - 1].0, Firsts(items))
  }

  /** The loop from a current chunk `cur` on: a chunk that fires is emitted
      tagged with the state before its last line; what is left at the end
      is emitted tagged with the final state. */
  function SplitFrom<S>(items: seq<(string, S)>, chunkSize: int, close: (S, string, seq<string>) -> bool,
                        final: S, cur: seq<(string, S)>): (r: seq<Chunk<S>>)
    ensures forall i | 0 <= i < |r| :: r[i].items != []
    decreases |items|
  {
    if |items| == 0 then (if cur == [] then [] else [Chunk(cur, final)])
    else
      var cur' := cur + [items[0]];
      if Fires(chunkSize, close, cur') then [Chunk(cur', items[0].1)] + SplitFrom(items[1..], chunkSize, close, final, [])
      else SplitFrom(items[1..], chunkSize, close, final, cur')
  }

  function Flatten<S>(chunks: seq<Chunk<S>>): seq<(string, S)>
    decreases |chunks|
  {
    if |chunks| == 0 then [] else chunks[0].items + Flatten(chunks[1..])
  }

  /** The chunks partition the input: concatenated, they give back the
      current chunk followed by every remaining line, in order. */
  lemma {:induction false} SplitCovers<S>(items: seq<(string, S)>, chunkSize: int,
                                          close: (S, string, seq<string>) -> bool, final: S, cur: seq<(string, S)>)
    ensures Flatten(SplitFrom(items, chunkSize, close, final, cur)) == cur + items
    decreases |items|
  {
    if |items| > 0 {
      var cur' := cur + [items[0]];
      assert cur + items == cur' + items[1..];
      if Fires(chunkSize, close, cur') {
        SplitCovers(items[1..], chunkSize, close, final, []);
        var r := SplitFrom(items, chunkSize, close, final, cur);
        assert r[1..] == SplitFrom(items[1..], chunkSize, close, final, []);
      } else {
        SplitCovers(items[1..], chunkSize, close, final, cur');
      }
    }
  }

  /** No proper prefix of the chunk fires. */
  predicate NoEarlyFire<S>(chunkSize: int, close: (S, string, seq<string>) -> bool, items: seq<(string, S)>) {
    forall j | 1 <= j < |items| :: !Fires(chunkSize, close, items[..j])
  }

  /** The chunk closed in the loop: it fires, and its tag is the state
      before its last line. */
  ghost predicate ClosedInLoop<S>(chunkSize: int, close: (S, string, seq<string>) -> bool, c: Chunk<S>)
    requires c.items != []
  {
    Fires(chunkSize, close, c.items) && c.tag == c.items[|c.items| - 1].1
  }

  /** Every chunk closes at the first line that fires and not before; every
      chunk but a leftover one at the end closed in the loop. */
  ghost predicate WellCut<S>(chunkSize: int, close: (S, string, seq<string>) -> bool, final: S, r: seq<Chunk<S>>)
    requires forall i | 0 <= i < |r| :: r[i].items != []
  {
    forall i | 0 <= i < |r| ::
      && NoEarlyFire(chunkSize, close, r[i].items)
      && (ClosedInLoop(chunkSize, close, r[i]) || (i == |r| - 1 && r[i].tag == final))
  }

  lemma {:induction false} SplitBoundaries<S>(items: seq<(string, S)>, chunkSize: int,
                                                  close: (S, string, seq<string>) -> bool, final: S,
                                                  cur: seq<(string, S)>)
    requires forall j | 1 <= j <= |cur| :: !Fires(chunkSize, close, cur[..j])
    ensures WellCut(chunkSize, close, final, SplitFrom(items, chunkSize, close, final, cur))
    decreases |items|
  {
    var r := SplitFrom(items, chunkSize, close, final, cur);
    if |items| == 0 {
      if cur != [] {
        assert NoEarlyFire(chunkSize, close, r[0].items);
      }
    } else {
      var cur' := cur + [items[0]];
      forall j | 1 <= j <= |cur| ensures !Fires(chunkSize, close, cur'[..j]) {
        assert cur'[..j] == cur[..j];
      }
      if Fires(chunkSize, close, cur') {
        SplitBoundaries(items[1..], chunkSize, close, final, []);
        var rest := SplitFrom(items[1..], chunkSize, close, final, []);
        assert r == [Chunk(cur', items[0].1)] + rest;
        assert NoEarlyFire(chunkSize, close, cur');
        assert WellCut(chunkSize, close, final, rest);
        forall i | 1 <= i < |r|
          ensures NoEarlyFire(chunkSize, close, r[i].items)
          ensures ClosedInLoop(chunkSize, close, r[i]) || (i == |r| - 1 && r[i].tag == final)
        {
          assert r[i] == rest[i - 1];
        }
      } else {
        assert cur'[..|cur'|] == cur';
        SplitBoundaries(items[1..], chunkSize, close, final, cur');
        assert r == SplitFrom(items[1..], chunkSize, close, final, cur');
      }
    }
  }

  /** Each line paired with the state before it, from `s` on. */
  function Annotate<S>(lines: seq<string>, s: S, next: (S, string) -> S): (r: seq<(string, S)>)
    ensures Firsts(r) == lines
    ensures |r| > 0 ==> r[0].1 == s
    ensures forall i | 0 <= i < |r| - 1 :: r[i + 1].1 == next(r[i].1, lines[i])
    decreases |lines|
  {
    if |lines| == 0 then []
    else
      var rest := Annotate(lines[1..], next(s, lines[0]), next);
      assert Firsts([(lines[0], s)] + rest) == lines;
      [(lines[0], s)] + rest
  }

  /** The state after every line. */
  function Final<S>(lines: seq<string>, s: S, next: (S, string) -> S): S
    decreases |lines|
  {
    if |lines| == 0 then s else Final(lines[1..], next(s, lines[0]), next)
  }

  /** The shared loop over prepared lines. */
  function Chunks<S>(lines: seq<string>, chunkSize: int, init: S, next: (S, string) -> S,
                     close: (S, string, seq<string>) -> bool): seq<Chunk<S>>
  {
    SplitFrom(Annotate(lines, init, next), chunkSize, close, Final(lines, init, next), [])
  }

  /** What every instance of the loop guarantees: the chunks are non-empty
      and partition the lines, each closes at its first firing line, and all
      but a leftover last one closed in the loop. */
  lemma ChunksShape<S>(lines: seq<string>, chunkSize: int, init: S, next: (S, string) -> S,
                           close: (S, string, seq<string>) -> bool)
    ensures Firsts(Flatten(Chunks(lines, chunkSize, init, next, close))) == lines
    ensures WellCut(chunkSize, close, Final(lines, init, next), Chunks(lines, chunkSize, init, next, close))
  {
    var items := Annotate(lines, init, next);
    var final := Final(lines, init, next);
    var r := SplitFrom(items, chunkSize, close, final, []);
    assert Chunks(lines, chunkSize, init, next, close) == r;
    SplitCovers(items, chunkSize, close, final, []);
    assert Flatten(r) == items by {
      assert [] + items == items;
    }
    SplitBoundaries(items, chunkSize, close, final, []);
  }

  /** A chunk's size is reached at its last line at the earliest: without
      its last line a chunk is below `chunk_size`. */
  lemma SizeReachedLast<S>(chunkSize: int, close: (S, string, seq<string>) -> bool, items: seq<(string, S)>)
    requires |items| > 1 && NoEarlyFire(chunkSize, close, items)
    ensures Size(Firsts(items[..|items| - 1])) < chunkSize
  {
    assert !Fires(chunkSize, close, items[..|items| - 1]);
  }

  // ---------------------------------------------------------------------
  // Rendering
  // ---------------------------------------------------------------------

  /** One `Document` per chunk, its lines joined with newlines. */
  function Render<S>(chunks: seq<Chunk<S>>, meta: (seq<string>, S) -> Dict): (docs: seq<Document>)
    ensures |docs| == |chunks|
    decreases |chunks|
  {
    if |chunks| == 0 then []
    else
      var ls := Firsts(chunks[0].items);
      [Document(Join(ls, "\n"), meta(ls, chunks[0].tag))] + Render(chunks[1..], meta)
  }

  /** The lines of the documents' page contents, in order. */
  function ContentLines(docs: seq<Document>): seq<string>
    decreases |docs|
  {
    if |docs| == 0 then [] else Split(docs[0].pageContent, '\n') + ContentLines(docs[1..])
  }

  /** Splitting the rendered documents on newlines gives back the chunked
      lines, all of them and in order. */
  lemma {:induction false} RenderedLines<S>(chunks: seq<Chunk<S>>, meta: (seq<string>, S) -> Dict)
    requires forall i | 0 <= i < |chunks| :: chunks[i].items != []
    requires forall k | 0 <= k < |Flatten(chunks)| :: '\n' !in Flatten(chunks)[k].0
    ensures ContentLines(Render(chunks, meta)) == Firsts(Flatten(chunks))
    decreases |chunks|
  {
    if |chunks| > 0 {
      var c := chunks[0].items;
      assert Flatten(chunks) == c + Flatten(chunks[1..]);
      FirstsAppend(c, Flatten(chunks[1..]));
      forall k | 0 <= k < |c| ensures '\n' !in Firsts(c)[k] {
        assert Flatten(chunks)[k] == c[k];
      }
      SplitJoin(Firsts(c), '\n');
      forall k | 0 <= k < |Flatten(chunks[1..])| ensures '\n' !in Flatten(chunks[1..])[k].0 {
        assert Flatten(chunks)[|c| + k] == Flatten(chunks[1..])[k];
      }
      RenderedLines(chunks[1..], meta);
      assert Render(chunks, meta)[1..] == Render(chunks[1..], meta);
    }
  }

  /** The documents of any instance of the loop carry exactly the prepared
      lines, none of them empty. */
  lemma DocumentsPartition<S>(texts: seq<string>, chunkSize: int, init: S, next: (S, string) -> S,
                                  close: (S, string, seq<string>) -> bool, meta: (seq<string>, S) -> Dict)
    ensures var docs := Render(Chunks(PrepareLines(texts), chunkSize, init, next, close), meta);
      && ContentLines(docs) == PrepareLines(texts)
      && forall i | 0 <= i < |docs| :: docs[i].pageContent != []
  {
    var lines := PrepareLines(texts);
    var r := Chunks(lines, chunkSize, init, next, close);
    ChunksShape(lines, chunkSize, init, next, close);
    forall k | 0 <= k < |Flatten(r)| ensures '\n' !in Flatten(r)[k].0 {
      assert Flatten(r)[k].0 == Firsts(Flatten(r))[k];
    }
    RenderedLines(r, meta);
    RenderedNonEmpty(r, meta, lines);
  }

  lemma {:induction false} RenderedNonEmpty<S>(chunks: seq<Chunk<S>>, meta: (seq<string>, S) -> Dict,
                                               lines: seq<string>)
    requires forall i | 0 <= i < |chunks| :: chunks[i].items != []
    requires Firsts(Flatten(chunks)) == lines
    requires forall i | 0 <= i < |lines| :: lines[i] != []
    ensures forall i | 0 <= i < |Render(chunks, meta)| :: Render(chunks, meta)[i].pageContent != []
    decreases |chunks|
  {
    if |chunks| > 0 {
      var c := chunks[0].items;
      FirstsAppend(c, Flatten(chunks[1..]));
      assert Firsts(c)[0] == lines[0];
      assert |Join(Firsts(c), "\n")| >= |Firsts(c)[0]| by {
        if |c| > 1 {
          assert Join(Firsts(c), "\n") == Firsts(c)[0] + "\n" + Join(Firsts(c)[1..], "\n");
        }
      }
      RenderedNonEmpty(chunks[1..], meta, lines[|c|..]);
      assert Render(chunks, meta)[1..] == Render(chunks[1..], meta);
    }
  }

  // ---------------------------------------------------------------------
  // The extractors and the boundary rules
  // ---------------------------------------------------------------------

  /** The groups of the timestamp pattern `[dd/Mon/yyyy:hh:mm:ss`. */
  datatype Stamp = Stamp(day: string, month: string, year: string, hour: string, minute: string, second: string)

  /** The regular-expression searches, uninterpreted. */
  datatype Extractors = Extractors(
    stampOf: string -> Option<Stamp>,     // the timestamp pattern
    ipOf: string -> Option<string>,       // a leading dotted quad
    statusOf: string -> Option<string>,   // the three digits after `" `
    urlCategoryOf: string -> string,      // `get_url_category`
    isBot: string -> bool,                // the user-agent bot patterns
    methodOf: string -> Option<string>)   // the quoted HTTP verb

  /** `f"{year}-{month}-{day}_{hour}:00"`, the hour the line falls in. */
  function Window(ex: Extractors, line: string): (w: Option<string>)
    ensures w.Some? ==> w.value != ""
  {
    match ex.stampOf(line)
    case None => None
    case Some(st) => Some(st.year + "-" + st.month + "-" + st.day + "_" + st.hour + ":00")
  }

  /** `current_time_window` keeps the last window seen. */
  function WindowNext(ex: Extractors): (Option<string>, string) -> Option<string> {
    (s: Option<string>, line: string) => if Truthy(Window(ex, line)) then Window(ex, line) else s
  }

  predicate WindowChange(ex: Extractors, s: Option<string>, line: string) {
    Truthy(s) && Truthy(Window(ex, line)) && s != Window(ex, line)
  }

  function WindowClose(ex: Extractors): (Option<string>, string, seq<string>) -> bool {
    (s: Option<string>, line: string, cur: seq<string>) => WindowChange(ex, s, line)
  }

  /** The categorising splitters keep the key of the previous line. */
  function KeyNext<K>(key: string -> K): (Option<K>, string) -> Option<K> {
    (s: Option<K>, line: string) => Some(key(line))
  }

  /** A key change with more than one line in the chunk; a string key is
      tested for truthiness, the bot flag against `None`. */
  function KeyChangeClose(key: string -> string): (Option<string>, string, seq<string>) -> bool {
    (s: Option<string>, line: string, cur: seq<string>) => Truthy(s) && s.value != key(line) && |cur| > 1
  }

  function Component(ex: Extractors): string -> string {
    (line: string) => ex.ipOf(line).GetOr("UNKNOWN")
  }

  function HttpMethod(ex: Extractors): string -> string {
    (line: string) => ex.methodOf(line).GetOr("UNKNOWN")
  }

  const Categories: seq<string> := ["2xx_success", "3xx_redirect", "4xx_client_error", "5xx_server_error"]

  /** `get_status_category`: the leading digit 2 to 5 picks the category;
      no code, an empty one or any other digit is `'unknown'`. */
  function StatusCategory(code: Option<string>): (c: string)
    ensures c == "unknown" || c in Categories
    ensures c == "unknown" <==> !(code.Some? && code.value != "" && '2' <= code.value[0] <= '5')
    ensures c != "unknown" ==> c == Categories[code.value[0] as int - '2' as int]
  {
    if code.Some? && code.value != "" then
      var d := code.value[0];
      if d == '2' then "2xx_success"
      else if d == '3' then "3xx_redirect"
      else if d == '4' then "4xx_client_error"
      else if d == '5' then "5xx_server_error"
      else "unknown"
    else "unknown"
  }

  /** The decimal text of a three-digit number starts with its hundreds digit. */
  lemma ThreeDigits(n: nat)
    requires 100 <= n < 1000
    ensures NatToString(n)[0] == DigitChar(n / 100)
  {
    assert (n / 10) / 10 == n / 100;
    assert NatToString(n / 10) == NatToString(n / 100) + [DigitChar((n / 10) % 10)];
    assert NatToString(n) == NatToString(n / 10) + [DigitChar(n % 10)];
  }

  /** A status code from 200 to 599 falls in the category of its hundreds. */
  lemma StatusCategoryOfCode(n: nat)
    requires 200 <= n < 600
    ensures StatusCategory(Some(NatToString(n))) == Categories[n / 100 - 2]
  {
    ThreeDigits(n);
    assert "0123456789"[n / 100] as int - '2' as int == n / 100 - 2;
  }

  function StatusKey(ex: Extractors): string -> string {
    (line: string) => StatusCategory(ex.statusOf(line))
  }

  /** Every change of category closes the chunk, whatever its length. */
  function StatusClose(ex: Extractors): (Option<string>, string, seq<string>) -> bool {
    (s: Option<string>, line: string, cur: seq<string>) => Truthy(s) && s.value != StatusKey(ex)(line)
  }

  function BotClose(ex: Extractors): (Option<bool>, string, seq<string>) -> bool {
    (s: Option<bool>, line: string, cur: seq<string>) => s.Some? && s.value != ex.isBot(line) && |cur| > 1
  }

  const ErrorStatuses: seq<string> := ["400", "401", "403", "404", "405", "500", "501", "502", "503", "504"]

  /** The line holds one of the error statuses between spaces. */
  predicate IsErrorLine(line: string) {
    exists k | 0 <= k < |ErrorStatuses| :: Contains(line, " " + ErrorStatuses[k] + " ")
  }

  function CountErrors(lines: seq<string>): (n: nat)
    ensures n <= |lines|
    ensures n == 0 <==> forall i | 0 <= i < |lines| :: !IsErrorLine(lines[i])
    decreases |lines|
  {
    if |lines| == 0 then 0
    else
      assert forall i | 1 <= i < |lines| :: lines[1..][i - 1] == lines[i];
      (if IsErrorLine(lines[0]) then 1 else 0) + CountErrors(lines[1..])
  }

  /** The error-block rule: the chunk has an error line, the appended line
      is not one, and the chunk has more than one line. */
  function ErrorClose(): ((), string, seq<string>) -> bool {
    (s: (), line: string, cur: seq<string>) => CountErrors(cur) > 0 && !IsErrorLine(line) && |cur| > 1
  }

  function NoState(): ((), string) -> () {
    (s: (), line: string) => s
  }

  // ---------------------------------------------------------------------
  // The splitters
  // ---------------------------------------------------------------------

  function Entries(name: string, key: string, tag: Json, lines: seq<string>): Dict {
    FromPairs([("method", JStr(name)), (key, tag), ("entries", JInt(|lines|))])
  }

  function TimeWindowMeta(): (seq<string>, Option<string>) -> Dict {
    (ls: seq<string>, tag: Option<string>) => Entries("log_time_window", "time_window", OptStr(tag), ls)
  }

  function ComponentMeta(): (seq<string>, Option<string>) -> Dict {
    (ls: seq<string>, tag: Option<string>) => Entries("log_component_based", "component", OptStr(tag), ls)
  }

  function StatusMeta(): (seq<string>, Option<string>) -> Dict {
    (ls: seq<string>, tag: Option<string>) => Entries("log_status_code", "status_category", OptStr(tag), ls)
  }

  function UrlMeta(): (seq<string>, Option<string>) -> Dict {
    (ls: seq<string>, tag: Option<string>) => Entries("log_url_pattern", "url_category", OptStr(tag), ls)
  }

  function BotMeta(): (seq<string>, Option<bool>) -> Dict {
    (ls: seq<string>, tag: Option<bool>) =>
      Entries("log_bot_human", "traffic_type", JStr(if tag == Some(true) then "bot" else "human"), ls)
  }

  function HttpMeta(): (seq<string>, Option<string>) -> Dict {
    (ls: seq<string>, tag: Option<string>) => Entries("log_http_method", "http_method", OptStr(tag), ls)
  }

  function ErrorMeta(): (seq<string>, ()) -> Dict {
    (ls: seq<string>, tag: ()) =>
      FromPairs([("method", JStr("log_error_block")), ("error_lines", JInt(CountErrors(ls))),
                 ("total_lines", JInt(|ls|))])
  }

  function TimeWindowChunks(lines: seq<string>, chunkSize: int, ex: Extractors): seq<Chunk<Option<string>>> {
    Chunks(lines, chunkSize, None, WindowNext(ex), WindowClose(ex))
  }

  function StatusChunks(lines: seq<string>, chunkSize: int, ex: Extractors): seq<Chunk<Option<string>>> {
    Chunks(lines, chunkSize, None, KeyNext(StatusKey(ex)), StatusClose(ex))
  }

  function ErrorBlockChunks(lines: seq<string>, chunkSize: int): seq<Chunk<()>> {
    Chunks(lines, chunkSize, (), NoState(), ErrorClose())
  }

  /** The documents hand back the prepared lines exactly once each and in
      order, and none of them is empty. */
  predicate Partitions(docs: seq<Document>, texts: seq<string>) {
    && ContentLines(docs) == PrepareLines(texts)
    && forall i | 0 <= i < |docs| :: docs[i].pageContent != []
  }

  /** `process_log_time_window_splitter`. */
  function TimeWindowSplitter(texts: seq<string>, chunkSize: int, ex: Extractors): (docs: seq<Document>)
    ensures Partitions(docs, texts)
  {
    DocumentsPartition(texts, chunkSize, None, WindowNext(ex), WindowClose(ex), TimeWindowMeta());
    Render(TimeWindowChunks(PrepareLines(texts), chunkSize, ex), TimeWindowMeta())
  }

  /** `process_log_error_block_splitter`. */
  function ErrorBlockSplitter(texts: seq<string>, chunkSize: int): (docs: seq<Document>)
    ensures Partitions(docs, texts)
  {
    DocumentsPartition(texts, chunkSize, (), NoState(), ErrorClose(), ErrorMeta());
    Render(ErrorBlockChunks(PrepareLines(texts), chunkSize), ErrorMeta())
  }

  /** `process_log_component_based_splitter`. */
  function ComponentSplitter(texts: seq<string>, chunkSize: int, ex: Extractors): (docs: seq<Document>)
    ensures Partitions(docs, texts)
  {
    DocumentsPartition(texts, chunkSize, None, KeyNext(Component(ex)), KeyChangeClose(Component(ex)), ComponentMeta());
    Render(Chunks(PrepareLines(texts), chunkSize, None, KeyNext(Component(ex)), KeyChangeClose(Component(ex))),
           ComponentMeta())
  }

  /** `process_log_status_code_splitter`. */
  function StatusCodeSplitter(texts: seq<string>, chunkSize: int, ex: Extractors): (docs: seq<Document>)
    ensures Partitions(docs, texts)
  {
    DocumentsPartition(texts, chunkSize, None, KeyNext(StatusKey(ex)), StatusClose(ex), StatusMeta());
    Render(StatusChunks(PrepareLines(texts), chunkSize, ex), StatusMeta())
  }

  /** `process_log_url_pattern_splitter`. */
  function UrlPatternSplitter(texts: seq<string>, chunkSize: int, ex: Extractors): (docs: seq<Document>)
    ensures Partitions(docs, texts)
  {
    DocumentsPartition(texts, chunkSize, None, KeyNext(ex.urlCategoryOf), KeyChangeClose(ex.urlCategoryOf), UrlMeta());
    Render(Chunks(PrepareLines(texts), chunkSize, None, KeyNext(ex.urlCategoryOf), KeyChangeClose(ex.urlCategoryOf)),
           UrlMeta())
  }

  /** `process_log_bot_human_splitter`. */
  function BotHumanSplitter(texts: seq<string>, chunkSize: int, ex: Extractors): (docs: seq<Document>)
    ensures Partitions(docs, texts)
  {
    DocumentsPartition(texts, chunkSize, None, KeyNext(ex.isBot), BotClose(ex), BotMeta());
    Render(Chunks(PrepareLines(texts), chunkSize, None, KeyNext(ex.isBot), BotClose(ex)), BotMeta())
  }

  /** `process_log_http_method_splitter`. */
  function HttpMethodSplitter(texts: seq<string>, chunkSize: int, ex: Extractors): (docs: seq<Document>)
    ensures Partitions(docs, texts)
  {
    DocumentsPartition(texts, chunkSize, None, KeyNext(HttpMethod(ex)), KeyChangeClose(HttpMethod(ex)), HttpMeta());
    Render(Chunks(PrepareLines(texts), chunkSize, None, KeyNext(HttpMethod(ex)), KeyChangeClose(HttpMethod(ex))),
           HttpMeta())
  }

  /** In the time-window splitter a window change never happens inside a
      chunk: the line that brings a new window is the last of its chunk, and
      a chunk closed in the loop is tagged with the window seen before it.
      The items are the lines with the window seen before each. */
  lemma TimeWindowCuts(lines: seq<string>, chunkSize: int, ex: Extractors)
    ensures var r := TimeWindowChunks(lines, chunkSize, ex);
      && Flatten(r) == Annotate(lines, None, WindowNext(ex))
      && forall i | 0 <= i < |r| :: forall k | 0 <= k < |r[i].items| - 1 ::
           !WindowChange(ex, r[i].items[k].1, r[i].items[k].0)
    ensures var r := TimeWindowChunks(lines, chunkSize, ex);
      forall i | 0 <= i < |r| - 1 ::
        && (WindowChange(ex, r[i].tag, r[i].items[|r[i].items| - 1].0) || Size(Firsts(r[i].items)) >= chunkSize)
        && r[i].tag == r[i].items[|r[i].items| - 1].1
  {
    var r := TimeWindowChunks(lines, chunkSize, ex);
    var items := Annotate(lines, None, WindowNext(ex));
    SplitCovers(items, chunkSize, WindowClose(ex), Final(lines, None, WindowNext(ex)), []);
    ChunksShape(lines, chunkSize, None, WindowNext(ex), WindowClose(ex));
    forall i, k | 0 <= i < |r| && 0 <= k < |r[i].items| - 1
      ensures !WindowChange(ex, r[i].items[k].1, r[i].items[k].0)
    {
      var c := r[i].items;
      assert !Fires(chunkSize, WindowClose(ex), c[..k + 1]);
      assert c[..k + 1][k] == c[k];
    }
  }

  /** In the status splitter a change of category between two lines always
      ends a chunk at the second line, even a chunk of that one line. */
  lemma StatusCuts(lines: seq<string>, chunkSize: int, ex: Extractors)
    ensures var r := StatusChunks(lines, chunkSize, ex);
      && Flatten(r) == Annotate(lines, None, KeyNext(StatusKey(ex)))
      && forall i | 0 <= i < |r| :: forall k | 0 <= k < |r[i].items| - 1 ::
           !(Truthy(r[i].items[k].1) && r[i].items[k].1.value != StatusKey(ex)(r[i].items[k].0))
  {
    var r := StatusChunks(lines, chunkSize, ex);
    var items := Annotate(lines, None, KeyNext(StatusKey(ex)));
    SplitCovers(items, chunkSize, StatusClose(ex), Final(lines, None, KeyNext(StatusKey(ex))), []);
    ChunksShape(lines, chunkSize, None, KeyNext(StatusKey(ex)), StatusClose(ex));
    forall i, k | 0 <= i < |r| && 0 <= k < |r[i].items| - 1
      ensures !(Truthy(r[i].items[k].1) && r[i].items[k].1.value != StatusKey(ex)(r[i].items[k].0))
    {
      var c := r[i].items;
      assert !Fires(chunkSize, StatusClose(ex), c[..k + 1]);
      assert c[..k + 1][k] == c[k];
    }
  }

  /** In the error-block splitter no chunk goes on past a non-error line
      that follows an error line in it: such a line is the chunk's last. */
  lemma ErrorBlockCuts(lines: seq<string>, chunkSize: int)
    ensures var r := ErrorBlockChunks(lines, chunkSize);
      forall i | 0 <= i < |r| :: forall k | 1 <= k < |r[i].items| - 1 ::
        CountErrors(Firsts(r[i].items[..k])) > 0 ==> IsErrorLine(r[i].items[k].0)
  {
    var r := ErrorBlockChunks(lines, chunkSize);
    ChunksShape(lines, chunkSize, (), NoState(), ErrorClose());
    forall i, k | 0 <= i < |r| && 1 <= k < |r[i].items| - 1 && CountErrors(Firsts(r[i].items[..k])) > 0
      ensures IsErrorLine(r[i].items[k].0)
    {
      var c := r[i].items;
      assert !Fires(chunkSize, ErrorClose(), c[..k + 1]);
      assert c[..k + 1][k] == c[k];
      assert c[..k + 1] == c[..k] + [c[k]];
      FirstsAppend(c[..k], [c[k]]);
      CountErrorsAppend(Firsts(c[..k]), c[k].0);
    }
  }

  lemma {:induction false} CountErrorsAppend(lines: seq<string>, line: string)
    ensures CountErrors(lines + [line]) == CountErrors(lines) + (if IsErrorLine(line) then 1 else 0)
    decreases |lines|
  {
    if |lines| > 0 {
      assert (lines + [line])[1..] == lines[1..] + [line];
      CountErrorsAppend(lines[1..], line);
    }
  }

  // ---------------------------------------------------------------------
  // The sliding window with overlap
  // ---------------------------------------------------------------------

  /** A sliding-window chunk with its `chunk_index` and `has_overlap`. */
  datatype Slide = Slide(lines: seq<string>, chunkIndex: nat, hasOverlap: bool)

  /** `max(1, n * overlap_size // 100)`; for a positive divisor Dafny's
      division is Python's floor division. */
  function OverlapCount(n: nat, overlap: int): (k: int)
    ensures k >= 1
  {
    if n * overlap / 100 > 1 then n * overlap / 100 else 1
  }

  /** `lines[-k:]` for `k >= 1`: the last `k` lines, or all of them. */
  function LastN(lines: seq<string>, k: int): (r: seq<string>)
    requires k >= 1
    ensures lines != [] ==> r != []
    ensures |r| <= |lines| && r == lines[|lines| - |r|..]
  {
    if k >= |lines| then lines else lines[|lines| - k..]
  }

  /** The lines the next chunk starts with. */
  function Carry(lines: seq<string>, overlap: int): seq<string> {
    LastN(lines, OverlapCount(|lines|, overlap))
  }

  /** The sliding loop from a current chunk on. Only the size closes a
      chunk; the next one starts with the carried lines. */
  function SlideFrom(lines: seq<string>, chunkSize: int, overlap: int, cur: seq<string>, hadOverlap: bool,
                     index: nat): seq<Slide>
    decreases |lines|
  {
    if |lines| == 0 then (if cur != [] then [Slide(cur, index, hadOverlap)] else [])
    else
      var cur' := cur + [lines[0]];
      if Size(cur') >= chunkSize then
        [Slide(cur', index, hadOverlap)] + SlideFrom(lines[1..], chunkSize, overlap, Carry(cur', overlap), true, index + 1)
      else SlideFrom(lines[1..], chunkSize, overlap, cur', hadOverlap, index)
  }

  /** The first sliding chunk continues the current one, and a non-empty
      current chunk is always emitted. */
  lemma {:induction false} SlideStart(lines: seq<string>, chunkSize: int, overlap: int, cur: seq<string>,
                                      hadOverlap: bool, index: nat)
    ensures var r := SlideFrom(lines, chunkSize, overlap, cur, hadOverlap, index);
      && (cur != [] ==> |r| > 0)
      && (|r| > 0 ==> cur <= r[0].lines)
    decreases |lines|
  {
    if |lines| > 0 {
      var cur' := cur + [lines[0]];
      if Size(cur') < chunkSize {
        SlideStart(lines[1..], chunkSize, overlap, cur', hadOverlap, index);
      }
    }
  }

  /** Every sliding chunk is non-empty, and each one after the first opens
      with the lines carried over from the one before. */
  predicate Linked(r: seq<Slide>, overlap: int) {
    && (forall i | 0 <= i < |r| :: r[i].lines != [])
    && (forall i | 0 <= i < |r| - 1 :: Carry(r[i].lines, overlap) <= r[i + 1].lines)
  }

  /** Chunk `i` has index `index + i` and has an overlap when the loop
      started with one or it is not the first. */
  predicate Numbered(r: seq<Slide>, index: nat, hadOverlap: bool) {
    forall i | 0 <= i < |r| :: r[i].chunkIndex == index + i && r[i].hasOverlap == (hadOverlap || i > 0)
  }

  /** Every chunk but the last reached `chunk_size`. */
  predicate Full(r: seq<Slide>, chunkSize: int) {
    forall i | 0 <= i < |r| - 1 :: Size(r[i].lines) >= chunkSize
  }

  lemma {:induction false} SlideLinks(lines: seq<string>, chunkSize: int, overlap: int, cur: seq<string>,
                                      hadOverlap: bool, index: nat)
    ensures Linked(SlideFrom(lines, chunkSize, overlap, cur, hadOverlap, index), overlap)
    decreases |lines|
  {
    if |lines| > 0 {
      var cur' := cur + [lines[0]];
      if Size(cur') >= chunkSize {
        var next := Carry(cur', overlap);
        var rest := SlideFrom(lines[1..], chunkSize, overlap, next, true, index + 1);
        SlideLinks(lines[1..], chunkSize, overlap, next, true, index + 1);
        SlideStart(lines[1..], chunkSize, overlap, next, true, index + 1);
        SlideLinksCons(Slide(cur', index, hadOverlap), rest, overlap);
      } else {
        SlideLinks(lines[1..], chunkSize, overlap, cur', hadOverlap, index);
      }
    }
  }

  lemma SlideLinksCons(c: Slide, rest: seq<Slide>, overlap: int)
    requires c.lines != [] && |rest| > 0 && Carry(c.lines, overlap) <= rest[0].lines
    requires Linked(rest, overlap)
    ensures Linked([c] + rest, overlap)
  {
    var r := [c] + rest;
    assert forall i | 1 <= i < |r| :: r[i] == rest[i - 1];
  }

  lemma {:induction false} SlideNumbering(lines: seq<string>, chunkSize: int, overlap: int, cur: seq<string>,
                                          hadOverlap: bool, index: nat)
    ensures Numbered(SlideFrom(lines, chunkSize, overlap, cur, hadOverlap, index), index, hadOverlap)
    decreases |lines|
  {
    if |lines| > 0 {
      var cur' := cur + [lines[0]];
      if Size(cur') >= chunkSize {
        var rest := SlideFrom(lines[1..], chunkSize, overlap, Carry(cur', overlap), true, index + 1);
        SlideNumbering(lines[1..], chunkSize, overlap, Carry(cur', overlap), true, index + 1);
        var r := [Slide(cur', index, hadOverlap)] + rest;
        assert forall i | 1 <= i < |r| :: r[i] == rest[i - 1];
      } else {
        SlideNumbering(lines[1..], chunkSize, overlap, cur', hadOverlap, index);
      }
    }
  }

  lemma {:induction false} SlideFull(lines: seq<string>, chunkSize: int, overlap: int, cur: seq<string>,
                                     hadOverlap: bool, index: nat)
    ensures Full(SlideFrom(lines, chunkSize, overlap, cur, hadOverlap, index), chunkSize)
    decreases |lines|
  {
    if |lines| > 0 {
      var cur' := cur + [lines[0]];
      if Size(cur') >= chunkSize {
        var rest := SlideFrom(lines[1..], chunkSize, overlap, Carry(cur', overlap), true, index + 1);
        SlideFull(lines[1..], chunkSize, overlap, Carry(cur', overlap), true, index + 1);
        FullCons(Slide(cur', index, hadOverlap), rest, chunkSize);
      } else {
        SlideFull(lines[1..], chunkSize, overlap, cur', hadOverlap, index);
      }
    }
  }

  lemma FullCons(c: Slide, rest: seq<Slide>, chunkSize: int)
    requires Size(c.lines) >= chunkSize && Full(rest, chunkSize)
    ensures Full([c] + rest, chunkSize)
  {
    var r := [c] + rest;
    assert forall i | 1 <= i < |r| :: r[i] == rest[i - 1];
  }

  function SlideDocument(c: Slide): Document {
    Document(Join(c.lines, "\n"),
             FromPairs([("method", JStr("log_semantic_sliding")), ("chunk_index", JInt(c.chunkIndex)),
                        ("entries", JInt(|c.lines|)), ("has_overlap", JBool(c.hasOverlap))]))
  }

  /** `process_log_semantic_sliding_splitter`. */
  function SlidingSplitter(texts: seq<string>, chunkSize: int, overlap: int): (docs: seq<Document>)
    ensures |docs| == |SlideFrom(PrepareLines(texts), chunkSize, overlap, [], false, 0)|
  {
    var r := SlideFrom(PrepareLines(texts), chunkSize, overlap, [], false, 0);
    seq(|r|, i requires 0 <= i < |r| => SlideDocument(r[i]))
  }

  /** Every chunk but the last reached `chunk_size`; chunk `i` has index
      `i`, has an overlap exactly when it is not the first, and the next
      chunk opens with the last `max(1, n * overlap // 100)` of its lines. */
  lemma SlidingShape(texts: seq<string>, chunkSize: int, overlap: int)
    ensures var r := SlideFrom(PrepareLines(texts), chunkSize, overlap, [], false, 0);
      Numbered(r, 0, false) && Full(r, chunkSize) && Linked(r, overlap)
  {
    var lines := PrepareLines(texts);
    SlideNumbering(lines, chunkSize, overlap, [], false, 0);
    SlideFull(lines, chunkSize, overlap, [], false, 0);
    SlideLinks(lines, chunkSize, overlap, [], false, 0);
  }

  // ---------------------------------------------------------------------
  // Routing
  // ---------------------------------------------------------------------

  datatype ChunkingMethod = ErrorBlock | TimeWindow | ComponentBased | StatusCode | SemanticSliding

  /** The dispatch of `process_file_content`: five names are routed, every
      other name (the request default `"simple"` and the methods whose
      branches are commented out included) falls back to the time window. */
  function Route(name: string): (m: ChunkingMethod)
    ensures m == ErrorBlock <==> name == "log_error_block"
    ensures m == ComponentBased <==> name == "log_component_based"
    ensures m == StatusCode <==> name == "log_status_code"
    ensures m == SemanticSliding <==> name == "log_semantic_sliding"
    ensures m == TimeWindow <==>
      name !in {"log_error_block", "log_component_based", "log_status_code", "log_semantic_sliding"}
  {
    if name == "log_error_block" then ErrorBlock
    else if name == "log_time_window" then TimeWindow
    else if name == "log_component_based" then ComponentBased
    else if name == "log_status_code" then StatusCode
    else if name == "log_semantic_sliding" then SemanticSliding
    else TimeWindow
  }

  /** `process_file_content` on the loaded pages' texts: every routed
      method but the sliding one partitions the prepared lines; the sliding
      one makes one document per sliding chunk. */
  function ProcessFileContent(texts: seq<string>, name: string, chunkSize: int, overlap: int, ex: Extractors)
    : (docs: seq<Document>)
    ensures Route(name) != SemanticSliding ==> Partitions(docs, texts)
    ensures Route(name) == SemanticSliding ==>
      |docs| == |SlideFrom(PrepareLines(texts), chunkSize, overlap, [], false, 0)|
  {
    match Route(name)
    case ErrorBlock => ErrorBlockSplitter(texts, chunkSize)
    case TimeWindow => TimeWindowSplitter(texts, chunkSize, ex)
    case ComponentBased => ComponentSplitter(texts, chunkSize, ex)
    case StatusCode => StatusCodeSplitter(texts, chunkSize, ex)
    case SemanticSliding => SlidingSplitter(texts, chunkSize, overlap)
  }

  // ---------------------------------------------------------------------
  // process_simpler_splitter
  // ---------------------------------------------------------------------

  /** The stripped pieces longer than one character. */
  function LongPieces(pieces: seq<string>): (r: seq<string>)
    ensures forall i | 0 <= i < |r| :: |r[i]| > 1 && Stripped(r[i])
    decreases |pieces|
  {
    if |pieces| == 0 then []
    else (if |Strip(pieces[0])| > 1 then [Strip(pieces[0])] else []) + LongPieces(pieces[1..])
  }

  /** The loop of `process_simpler_splitter` as written: the final chunk is
      appended under `len(current_chunk) >= 0`, which always holds, so the
      last chunk is always what is left after the loop, empty or not. */
  function SimplerFrom(lines: seq<string>, chunkSize: int, tag: char, cur: string): (r: seq<string>)
    ensures |r| >= 1 && r[|r| - 1] == SimplerLeftover(lines, chunkSize, tag, cur)
    decreases |lines|
  {
    if |lines| == 0 then [Strip(cur)]
    else
      var cur' := cur + lines[0] + [tag];
      if |cur'| >= chunkSize then [Strip(cur')] + SimplerFrom(lines[1..], chunkSize, tag, "")
      else SimplerFrom(lines[1..], chunkSize, tag, cur')
  }

  /** What is left in `current_chunk` after the loop, stripped. */
  function SimplerLeftover(lines: seq<string>, chunkSize: int, tag: char, cur: string): string
    decreases |lines|
  {
    if |lines| == 0 then Strip(cur)
    else
      var cur' := cur + lines[0] + [tag];
      if |cur'| >= chunkSize then SimplerLeftover(lines[1..], chunkSize, tag, "")
      else SimplerLeftover(lines[1..], chunkSize, tag, cur')
  }

  /** `process_simpler_splitter` as written (one-character `splitter_tag`):
      there is always a last chunk, the stripped leftover of `SimplerFrom`,
      even when there is no text at all. */
  function SimplerSplitter(texts: seq<string>, chunkSize: int, tag: char): (r: seq<string>)
    ensures |r| >= 1
  {
    SimplerFrom(SimplerPieces(texts, tag), chunkSize, tag, "")
  }

  /** The texts joined with spaces, cut at the tag, keeping the stripped
      pieces longer than one character. */
  function SimplerPieces(texts: seq<string>, tag: char): seq<string> {
    LongPieces(Split(Join(texts, " "), tag))
  }

  /** An empty text has no pieces. */
  lemma NoPiecesOfEmpty(tag: char)
    ensures LongPieces(Split(Join([], " "), tag)) == []
  {
    assert Split("", tag) == [""];
    assert LongPieces([""]) == [];
  }

  /** As written, an empty file still yields one chunk, and it is empty. */
  lemma SimplerEmptyChunk()
    ensures SimplerSplitter([], 100, '\n') == [""]
  {
    NoPiecesOfEmpty('\n');
    assert Strip("") == "";
  }

  /** The one piece of the text `"ab"`. */
  lemma PiecesOfAb()
    ensures LongPieces(Split(Join(["ab"], " "), '\n')) == ["ab"]
  {
    assert Join(["ab"], " ") == "ab";
    assert '\n' !in "ab";
    assert Split("ab", '\n') == ["ab"];
    StripOfStripped("ab");
    assert LongPieces(["ab"]) == ["ab"] + LongPieces([]);
  }

  /** As written, a single line that fills a chunk is followed by the
      stripped empty leftover. */
  lemma SimplerOneLine(line: string, chunkSize: int, tag: char)
    requires |line| + 1 >= chunkSize
    ensures SimplerFrom([line], chunkSize, tag, "") == [Strip(line + [tag]), Strip("")]
  {
    assert "" + [line][0] + [tag] == line + [tag];
    assert [line][1..] == [];
  }

  /** As written, a file whose last line fills a chunk is followed by an
      extra, empty chunk. */
  lemma SimplerTrailingEmptyChunk()
    ensures SimplerSplitter(["ab"], 1, '\n') == ["ab", ""]
  {
    PiecesOfAb();
    SimplerOneLine("ab", 1, '\n');
    StripAbLine();
    assert Strip("") == "";
  }

  lemma StripAbLine()
    ensures Strip("ab" + ['\n']) == "ab"
  {
    var r := Strip("ab\n");
    assert LeadingSpaces("ab\n") == 0;
    assert !AllSpace("ab\n");
    assert r == "ab\n"[0..|r|];
    assert |r| == 2 by {
      assert IsSpace("ab\n"[2]);
      assert !IsSpace("ab\n"[1]);
    }
  }

  lemma NotAllSpaceExtend(cur: string, line: string, tag: char)
    requires cur == [] || !AllSpace(cur)
    requires |line| > 1 && Stripped(line)
    ensures !AllSpace(cur + line + [tag])
  {
    assert (cur + line + [tag])[|cur|] == line[0];
  }

  /** The lines the simpler splitter works on. */
  predicate Pieces(lines: seq<string>) {
    forall i | 0 <= i < |lines| :: |lines[i]| > 1 && Stripped(lines[i])
  }

  /** No chunk is empty. */
  predicate NoneEmpty(r: seq<string>) {
    forall i | 0 <= i < |r| :: r[i] != ""
  }

  lemma NoneEmptyCons(c: string, r: seq<string>)
    requires c != "" && NoneEmpty(r)
    ensures NoneEmpty([c] + r)
  {
    assert forall i | 1 <= i < |[c] + r| :: ([c] + r)[i] == r[i - 1];
  }

  /** The same loop with the final chunk appended only when it is not
      empty, as in every other splitter. */
  function SimplerFromIntended(lines: seq<string>, chunkSize: int, tag: char, cur: string): (r: seq<string>)
    requires Pieces(lines)
    requires cur == [] || !AllSpace(cur)
    ensures NoneEmpty(r)
    decreases |lines|
  {
    if |lines| == 0 then (if |cur| > 0 then [Strip(cur)] else [])
    else
      var cur' := cur + lines[0] + [tag];
      NotAllSpaceExtend(cur, lines[0], tag);
      if |cur'| >= chunkSize then
        var rest := SimplerFromIntended(lines[1..], chunkSize, tag, "");
        NoneEmptyCons(Strip(cur'), rest);
        [Strip(cur')] + rest
      else SimplerFromIntended(lines[1..], chunkSize, tag, cur')
  }

  /** The corrected splitter: no chunk is empty, and the empty file gives none. */
  function SimplerSplitterIntended(texts: seq<string>, chunkSize: int, tag: char): (r: seq<string>)
    ensures forall i | 0 <= i < |r| :: r[i] != ""
    ensures texts == [] ==> r == []
  {
    if texts == [] then NoPiecesOfEmpty(tag); [] else
    SimplerFromIntended(SimplerPieces(texts, tag), chunkSize, tag, "")
  }

  /** With nothing left to read, the two loops differ exactly when what is
      left is empty. */
  lemma SimplerAgreeEnd(chunkSize: int, tag: char, cur: string)
    requires cur == [] || !AllSpace(cur)
    ensures SimplerFrom([], chunkSize, tag, cur) ==
      SimplerFromIntended([], chunkSize, tag, cur)
      + (if SimplerLeftover([], chunkSize, tag, cur) == "" then [""] else [])
  {
    assert Strip(cur) == "" <==> cur == [];
  }

  /** The two differ only in that trailing empty chunk. */
  lemma {:induction false} SimplerAgree(lines: seq<string>, chunkSize: int, tag: char, cur: string)
    requires Pieces(lines)
    requires cur == [] || !AllSpace(cur)
    ensures SimplerFrom(lines, chunkSize, tag, cur) ==
      SimplerFromIntended(lines, chunkSize, tag, cur)
      + (if SimplerLeftover(lines, chunkSize, tag, cur) == "" then [""] else [])
    decreases |lines|
  {
    if |lines| == 0 {
      SimplerAgreeEnd(chunkSize, tag, cur);
    } else {
      var cur' := cur + lines[0] + [tag];
      NotAllSpaceExtend(cur, lines[0], tag);
      if |cur'| >= chunkSize {
        SimplerAgree(lines[1..], chunkSize, tag, "");
        assert SimplerFrom(lines, chunkSize, tag, cur) == [Strip(cur')] + SimplerFrom(lines[1..], chunkSize, tag, "");
        assert SimplerFromIntended(lines, chunkSize, tag, cur)
          == [Strip(cur')] + SimplerFromIntended(lines[1..], chunkSize, tag, "");
      } else {
        SimplerAgree(lines[1..], chunkSize, tag, cur');
      }
    }
  }
}

=== FILE: log_statistics.dfy ===
/**
  The exploratory log statistics: one pass over the access log that counts
  requests, visitors, bytes, errors, statuses, URLs and hourly traffic
  under hard caps, followed by the top-ten and time-sorted views.

  Matching a line against the access-log pattern is a parameter
  `parse: string -> Option<Record>`; everything after the match is here.
*/
module LogStatistics {
  import opened Wrappers
  import opened Text

  /** Distinct IPs tracked. */
  const IpCap := 10000
  /** Distinct URLs counted. */
  const UrlCap := 10000
  /** Distinct hours counted. */
  const HourCap := 5000
  /** Entries of the top-IP and top-URL views. */
  const TopCount := 10

  // ---------------------------------------------------------------------
  // Counters: a Python dict from key to count, in insertion order
  // ---------------------------------------------------------------------

  type Counter<K> = seq<(K, nat)>

  predicate DistinctKeys<K(==)>(c: Counter<K>) {
    forall i, j | 0 <= i < j < |c| :: c[i].0 != c[j].0
  }

  function Keys<K(==)>(c: Counter<K>): set<K> {
    set i | 0 <= i < |c| :: c[i].0
  }

  lemma KeysCons<K>(c: Counter<K>)
    requires |c| > 0
    ensures Keys(c) == {c[0].0} + Keys(c[1..])
  {
    forall k | k in Keys(c) ensures k in {c[0].0} + Keys(c[1..]) {
      var i :| 0 <= i < |c| && c[i].0 == k;
      if i > 0 {
        assert c[1..][i - 1].0 == k;
      }
    }
    forall k | k in Keys(c[1..]) ensures k in Keys(c) {
      var i :| 0 <= i < |c[1..]| && c[1..][i].0 == k;
      assert c[i + 1].0 == k;
    }
  }

  /** `counts.get(k, 0)`. */
  function CountOf<K(==)>(c: Counter<K>, k: K): nat
    decreases |c|
  {
    if |c| == 0 then 0 else if c[0].0 == k then c[0].1 else CountOf(c[1..], k)
  }

  /** The sum of all counts. */
  function Total<K>(c: Counter<K>): nat
    decreases |c|
  {
    if |c| == 0 then 0 else c[0].1 + Total(c[1..])
  }

  /** An entry in front of a counter keeps the keys distinct exactly when
      its key is new. */
  lemma DistinctCons<K>(x: (K, nat), rest: Counter<K>)
    ensures DistinctKeys([x] + rest) <==> x.0 !in Keys(rest) && DistinctKeys(rest)
  {
    var r := [x] + rest;
    assert forall i | 1 <= i < |r| :: r[i] == rest[i - 1];
    if x.0 in Keys(rest) {
      var i :| 0 <= i < |rest| && rest[i].0 == x.0;
      assert r[i + 1].0 == r[0].0;
    }
    if DistinctKeys(r) {
      forall i, j | 0 <= i < j < |rest| ensures rest[i].0 != rest[j].0 {
        assert rest[i] == r[i + 1] && rest[j] == r[j + 1];
      }
    }
    if x.0 !in Keys(rest) && DistinctKeys(rest) {
      forall i, j | 0 <= i < j < |r| ensures r[i].0 != r[j].0 {
        if i == 0 {
          assert rest[j - 1].0 in Keys(rest);
        }
      }
    }
  }

  /** `counts[k] = counts.get(k, 0) + 1`: an existing key keeps its place,
      a new one is appended. */
  function Bump<K(==,!new)>(c: Counter<K>, k: K): (r: Counter<K>)
    ensures Keys(r) == Keys(c) + {k}
    ensures DistinctKeys(c) ==> DistinctKeys(r) && |r| == |c| + (if k in Keys(c) then 0 else 1)
    ensures CountOf(r, k) == CountOf(c, k) + 1
    ensures forall k' | k' != k :: CountOf(r, k') == CountOf(c, k')
    ensures Total(r) == Total(c) + 1
    decreases |c|
  {
    if |c| == 0 then
      KeysCons([(k, 1)]);
      [(k, 1)]
    else if c[0].0 == k then
      BumpHere(c, k);
      [(k, c[0].1 + 1)] + c[1..]
    else
      var t := Bump(c[1..], k);
      BumpFurther(c, k, t);
      [c[0]] + t
  }

  /** What `Bump` promises of its result `r`. */
  ghost predicate Bumped<K(!new)>(c: Counter<K>, k: K, r: Counter<K>) {
    && Keys(r) == Keys(c) + {k}
    && (DistinctKeys(c) ==> DistinctKeys(r) && |r| == |c| + (if k in Keys(c) then 0 else 1))
    && CountOf(r, k) == CountOf(c, k) + 1
    && (forall k' | k' != k :: CountOf(r, k') == CountOf(c, k'))
    && Total(r) == Total(c) + 1
  }

  /** Bumping the first key in place. */
  lemma BumpHere<K(!new)>(c: Counter<K>, k: K)
    requires |c| > 0 && c[0].0 == k
    ensures Bumped(c, k, [(k, c[0].1 + 1)] + c[1..])
  {
    var r := [(k, c[0].1 + 1)] + c[1..];
    assert c == [c[0]] + c[1..];
    assert r[1..] == c[1..];
    KeysCons(c);
    KeysCons(r);
    DistinctCons(c[0], c[1..]);
    DistinctCons(r[0], r[1..]);
  }

  /** Bumping past a first key that differs. */
  lemma BumpFurther<K(!new)>(c: Counter<K>, k: K, t: Counter<K>)
    requires |c| > 0 && c[0].0 != k && Bumped(c[1..], k, t)
    ensures Bumped(c, k, [c[0]] + t)
  {
    var r := [c[0]] + t;
    assert c == [c[0]] + c[1..];
    assert r[1..] == t;
    KeysCons(c);
    KeysCons(r);
    DistinctCons(c[0], c[1..]);
    DistinctCons(r[0], r[1..]);
    forall k' | k' != k ensures CountOf(r, k') == CountOf(c, k') {
      assert CountOf(t, k') == CountOf(c[1..], k');
    }
    assert Total(r) == c[0].1 + Total(t);
  }

  /** The counts of the keys at or above 400. */
  function ErrorTotal(c: Counter<int>): nat
    decreases |c|
  {
    if |c| == 0 then 0 else (if c[0].0 >= 400 then c[0].1 else 0) + ErrorTotal(c[1..])
  }

  lemma {:induction false} BumpErrorTotal(c: Counter<int>, k: int)
    ensures ErrorTotal(Bump(c, k)) == ErrorTotal(c) + (if k >= 400 then 1 else 0)
    decreases |c|
  {
    if |c| > 0 && c[0].0 != k {
      BumpErrorTotal(c[1..], k);
      assert Bump(c, k)[1..] == Bump(c[1..], k);
    } else if |c| > 0 {
      assert Bump(c, k)[1..] == c[1..];
    }
  }

  lemma {:induction false} ErrorTotalAtMostTotal(c: Counter<int>)
    ensures ErrorTotal(c) <= Total(c)
    decreases |c|
  {
    if |c| > 0 {
      ErrorTotalAtMostTotal(c[1..]);
    }
  }

  // ---------------------------------------------------------------------
  // Parsed lines and the accumulators
  // ---------------------------------------------------------------------

  /** The `size` group: digits or `-`. */
  datatype SizeField = Dash | Bytes(n: nat)

  /** The named groups of a matching line that the statistics use; the
      status is the three-digit group already converted. */
  datatype Record = Record(ip: string, timestamp: string, url: string, status: int, size: SizeField)

  function SizeValue(f: SizeField): nat {
    match f
    case Dash => 0
    case Bytes(n) => n
  }

  /** `s` holds exactly one `:`. */
  predicate OneColon(s: string) {
    exists i | 0 <= i < |s| :: s[i] == ':' && ':' !in s[..i] && ':' !in s[i + 1..]
  }

  /** The hour key `"10/Jan/2026:05"` of `"10/Jan/2026:05:14:22 +0000"`:
      the first two `:`-separated parts, when there are two. So it is the
      timestamp up to its second `:` or its end, and holds one `:`. */
  function HourOf(timestamp: string): (h: Option<string>)
    ensures h.Some? <==> ':' in timestamp
    ensures h.Some? ==> h.value <= timestamp && ':' in h.value
    ensures h.Some? ==> OneColon(h.value) && (|h.value| == |timestamp| || timestamp[|h.value|] == ':')
  {
    var parts := Split(timestamp, ':');
    if |parts| >= 2 then
      HourKeyShape(parts);
      Some(parts[0] + ":" + parts[1])
    else
      assert timestamp == parts[0];
      None
  }

  /** The first two of colon-free parts, joined back with their colon,
      start the joined text and end at its second colon or its end. */
  lemma HourKeyShape(parts: seq<string>)
    requires |parts| >= 2 && forall i | 0 <= i < |parts| :: ':' !in parts[i]
    ensures var h := parts[0] + ":" + parts[1]; var s := Join(parts, ":");
      && h <= s && OneColon(h) && (|h| == |s| || s[|h|] == ':')
  {
    var h := parts[0] + ":" + parts[1];
    JoinHead(parts, ":");
    JoinHead(parts[1..], ":");
    var i := |parts[0]|;
    assert h[..i] == parts[0] && h[i] == ':' && h[i + 1..] == parts[1];
    assert ':' !in parts[1] by { assert parts[1..][0] == parts[1]; }
    if |parts| == 2 {
      assert parts[1..] == [parts[1]];
    } else {
      assert parts[1..][1..] == parts[2..];
      assert Join(parts, ":") == h + ":" + Join(parts[2..], ":");
    }
  }

  lemma JoinHead(parts: seq<string>, sep: string)
    requires |parts| >= 1
    ensures parts[0] <= Join(parts, sep)
    ensures |parts| >= 2 ==> Join(parts, sep) == parts[0] + sep + Join(parts[1..], sep)
  {
  }

  datatype Stats = Stats(totalRequests: nat, uniqueIps: set<string>, totalSize: nat, errorCount: nat,
                         statusCounts: Counter<int>, ipCounts: Counter<string>, urlCounts: Counter<string>,
                         hourlyTraffic: Counter<string>)

  const Zero := Stats(0, {}, 0, 0, [], [], [], [])

  /** What stays true of the accumulators after every line. */
  ghost predicate Valid(s: Stats) {
    && DistinctKeys(s.statusCounts) && DistinctKeys(s.ipCounts)
    && DistinctKeys(s.urlCounts) && DistinctKeys(s.hourlyTraffic)
    && s.uniqueIps == Keys(s.ipCounts)
    && |s.uniqueIps| <= IpCap && |s.urlCounts| <= UrlCap && |s.hourlyTraffic| <= HourCap
    && Total(s.statusCounts) == s.totalRequests
    && s.errorCount == ErrorTotal(s.statusCounts)
    && Total(s.ipCounts) <= s.totalRequests
    && Total(s.urlCounts) <= s.totalRequests
    && Total(s.hourlyTraffic) <= s.totalRequests
  }

  lemma ZeroValid()
    ensures Valid(Zero)
  {
    assert Keys<string>([]) == {};
  }

  /** The body of the loop for a matching line: every line counts towards
      the requests, the size and its status; its IP, URL and hour count
      only when admitted under their caps; no other key's count moves. */
  function Step(s: Stats, rec: Record): (t: Stats)
    ensures t.totalRequests == s.totalRequests + 1
    ensures t.totalSize == s.totalSize + SizeValue(rec.size)
    ensures t.errorCount == s.errorCount + (if rec.status >= 400 then 1 else 0)
    ensures Tallied(s.statusCounts, t.statusCounts, rec.status, true)
    ensures t.uniqueIps == s.uniqueIps + (if rec.ip in s.uniqueIps || |s.uniqueIps| < IpCap then {rec.ip} else {})
    ensures Tallied(s.ipCounts, t.ipCounts, rec.ip, rec.ip in s.uniqueIps || |s.uniqueIps| < IpCap)
    ensures rec.ip !in s.uniqueIps && |s.uniqueIps| >= IpCap ==> t.ipCounts == s.ipCounts
    ensures Tallied(s.urlCounts, t.urlCounts, rec.url, rec.url in Keys(s.urlCounts) || |s.urlCounts| < UrlCap)
    ensures rec.url !in Keys(s.urlCounts) && |s.urlCounts| >= UrlCap ==> t.urlCounts == s.urlCounts
    ensures HourOf(rec.timestamp).Some? ==>
      Tallied(s.hourlyTraffic, t.hourlyTraffic, HourOf(rec.timestamp).value, |s.hourlyTraffic| < HourCap)
    ensures HourOf(rec.timestamp).None? || |s.hourlyTraffic| >= HourCap ==> t.hourlyTraffic == s.hourlyTraffic
  {
    var admitIp := |s.uniqueIps| < IpCap || rec.ip in s.uniqueIps;
    var admitUrl := |s.urlCounts| < UrlCap || rec.url in Keys(s.urlCounts);
    var hour := HourOf(rec.timestamp);
    Stats(s.totalRequests + 1,
          if admitIp then s.uniqueIps + {rec.ip} else s.uniqueIps,
          s.totalSize + SizeValue(rec.size),
          s.errorCount + (if rec.status >= 400 then 1 else 0),
          BumpWhen(true, s.statusCounts, rec.status),
          BumpWhen(admitIp, s.ipCounts, rec.ip),
          BumpWhen(admitUrl, s.urlCounts, rec.url),
          if hour.Some? then BumpWhen(|s.hourlyTraffic| < HourCap, s.hourlyTraffic, hour.value) else s.hourlyTraffic)
  }

  /** `r` is the counter `c` with one more `k` when `admit` holds, and with
      every other key's count as it was. */
  ghost predicate Tallied<K(!new)>(c: Counter<K>, r: Counter<K>, k: K, admit: bool) {
    && CountOf(r, k) == CountOf(c, k) + (if admit then 1 else 0)
    && forall k' | k' != k :: CountOf(r, k') == CountOf(c, k')
  }

  /** A capped counter: bumped at `k` when the key is admitted, otherwise
      left as it is. */
  function BumpWhen<K(==,!new)>(admit: bool, c: Counter<K>, k: K): (r: Counter<K>)
    ensures Tallied(c, r, k, admit)
    ensures !admit ==> r == c
  {
    if admit then Bump(c, k) else c
  }

  lemma StepValid(s: Stats, rec: Record)
    requires Valid(s)
    ensures Valid(Step(s, rec))
  {
    var t := Step(s, rec);
    BumpErrorTotal(s.statusCounts, rec.status);
    StepIps(s, rec);
    CappedBump(s.urlCounts, rec.url, UrlCap, s.totalRequests);
    var hour := HourOf(rec.timestamp);
    if hour.Some? {
      CappedBump(s.hourlyTraffic, hour.value, HourCap, s.totalRequests);
    }
  }

  /** A counter bumped only while under its cap, or for a key it already
      holds, keeps distinct keys and its cap. */
  lemma CappedBump<K(!new)>(c: Counter<K>, k: K, cap: nat, total: nat)
    requires DistinctKeys(c) && |c| <= cap && Total(c) <= total
    ensures |c| < cap || k in Keys(c) ==>
      var r := Bump(c, k);
      DistinctKeys(r) && |r| <= cap && Total(r) <= total + 1
  {
  }

  /** The visitor set and the IP counter move together under the cap. */
  lemma StepIps(s: Stats, rec: Record)
    requires Valid(s)
    ensures var t := Step(s, rec);
      && DistinctKeys(t.ipCounts) && t.uniqueIps == Keys(t.ipCounts)
      && |t.uniqueIps| <= IpCap && Total(t.ipCounts) <= t.totalRequests
  {
    if rec.ip !in s.uniqueIps && |s.uniqueIps| < IpCap {
      assert |s.uniqueIps + {rec.ip}| == |s.uniqueIps| + 1;
    }
  }

  /** The parsed records of the matching lines, in order. */
  function Matched(lines: seq<string>, parse: string -> Option<Record>): (recs: seq<Record>)
    ensures |recs| <= |lines|
    decreases |lines|
  {
    if |lines| == 0 then []
    else match parse(lines[0])
      case None => Matched(lines[1..], parse)
      case Some(rec) => [rec] + Matched(lines[1..], parse)
  }

  /** The loop over the lines of the file. */
  function Fold(s: Stats, lines: seq<string>, parse: string -> Option<Record>): Stats
    decreases |lines|
  {
    if |lines| == 0 then s
    else match parse(lines[0])
      case None => Fold(s, lines[1..], parse)
      case Some(rec) => Fold(Step(s, rec), lines[1..], parse)
  }

  /** The same loop over records alone. */
  function FoldRecords(s: Stats, recs: seq<Record>): Stats
    decreases |recs|
  {
    if |recs| == 0 then s else FoldRecords(Step(s, recs[0]), recs[1..])
  }

  /** A line that does not match contributes to no aggregate: folding the
      lines is folding their matched records. */
  lemma {:induction false} FoldSkipsUnmatched(s: Stats, lines: seq<string>, parse: string -> Option<Record>)
    ensures Fold(s, lines, parse) == FoldRecords(s, Matched(lines, parse))
    decreases |lines|
  {
    if |lines| > 0 {
      match parse(lines[0])
      case None =>
        FoldSkipsUnmatched(s, lines[1..], parse);
      case Some(rec) =>
        FoldSkipsUnmatched(Step(s, rec), lines[1..], parse);
        assert ([rec] + Matched(lines[1..], parse))[1..] == Matched(lines[1..], parse);
    }
  }

  /** The invariant holds throughout, and the request count is the number
      of records. */
  lemma {:induction false} FoldRecordsValid(s: Stats, recs: seq<Record>)
    requires Valid(s)
    ensures var t := FoldRecords(s, recs);
      Valid(t) && t.totalRequests == s.totalRequests + |recs|
    decreases |recs|
  {
    if |recs| > 0 {
      StepValid(s, recs[0]);
      FoldRecordsValid(Step(s, recs[0]), recs[1..]);
    }
  }

  // ---------------------------------------------------------------------
  // Top ten
  // ---------------------------------------------------------------------

  /** The first entry with the largest count. */
  function ArgMax<K>(c: Counter<K>): (i: nat)
    requires |c| > 0
    ensures i < |c|
    ensures forall j | 0 <= j < |c| :: c[j].1 <= c[i].1
    ensures forall j | 0 <= j < i :: c[j].1 < c[i].1
    decreases |c|
  {
    if |c| == 1 then 0
    else
      var j := ArgMax(c[1..]);
      if c[0].1 >= c[j + 1].1 then 0 else j + 1
  }

  function Remove<K>(c: Counter<K>, i: nat): (r: Counter<K>)
    requires i < |c|
    ensures |r| == |c| - 1
    ensures multiset(r) + multiset{c[i]} == multiset(c)
  {
    assert c == c[..i] + [c[i]] + c[i + 1..];
    c[..i] + c[i + 1..]
  }

  /** `sorted(items, key=count, reverse=True)[:k]`; the sort is stable, so
      among equal counts the earlier entry comes first, which is the entry
      `ArgMax` picks. */
  function Top<K>(c: Counter<K>, k: nat): (r: Counter<K>)
    ensures |r| == if k < |c| then k else |c|
    ensures multiset(r) <= multiset(c)
    decreases k
  {
    if k == 0 || |c| == 0 then []
    else
      var i := ArgMax(c);
      var rest := Top(Remove(c, i), k - 1);
      [c[i]] + rest
  }

  /** No entry counts more than an entry before it. */
  predicate Descending<K>(c: Counter<K>) {
    forall a, b | 0 <= a < b < |c| :: c[a].1 >= c[b].1
  }

  /** The view is in descending count order. */
  lemma {:induction false} TopDescending<K>(c: Counter<K>, k: nat)
    ensures Descending(Top(c, k))
    decreases k
  {
    if k > 0 && |c| > 0 {
      var i := ArgMax(c);
      var rest := Top(Remove(c, i), k - 1);
      TopDescending(Remove(c, i), k - 1);
      assert Top(c, k) == [c[i]] + rest;
      NoneLarger(c, i, rest);
      DescendingCons(c[i], rest);
    }
  }

  /** Entries drawn from the others count no more than entry `ArgMax`. */
  lemma NoneLarger<K>(c: Counter<K>, i: nat, rest: Counter<K>)
    requires |c| > 0 && i == ArgMax(c) && multiset(rest) <= multiset(Remove(c, i))
    ensures forall j | 0 <= j < |rest| :: rest[j].1 <= c[i].1
  {
    forall j | 0 <= j < |rest| ensures rest[j].1 <= c[i].1 {
      assert rest[j] in multiset(c);
      var m :| 0 <= m < |c| && c[m] == rest[j];
    }
  }

  lemma DescendingCons<K>(x: (K, nat), rest: Counter<K>)
    requires Descending(rest) && forall j | 0 <= j < |rest| :: rest[j].1 <= x.1
    ensures Descending([x] + rest)
  {
    var r := [x] + rest;
    assert forall j | 1 <= j < |r| :: r[j] == rest[j - 1];
  }

  ghost predicate LeavesSmaller<K>(c: Counter<K>, r: Counter<K>) {
    forall m, j | 0 <= m < |c| && c[m] !in r && 0 <= j < |r| :: c[m].1 <= r[j].1
  }

  /** No entry left out of the view counts more than an entry in it. */
  lemma {:induction false} TopLeavesSmaller<K>(c: Counter<K>, k: nat)
    ensures LeavesSmaller(c, Top(c, k))
    decreases k
  {
    if k > 0 && |c| > 0 {
      var i := ArgMax(c);
      var rest := Top(Remove(c, i), k - 1);
      TopLeavesSmaller(Remove(c, i), k - 1);
      assert Top(c, k) == [c[i]] + rest;
      LeavesSmallerCons(c, i, rest);
    }
  }

  /** Putting a largest entry in front of a view of the others keeps every
      entry left out no larger than those in the view. */
  lemma LeavesSmallerCons<K>(c: Counter<K>, i: nat, rest: Counter<K>)
    requires |c| > 0 && i == ArgMax(c)
    requires LeavesSmaller(Remove(c, i), rest)
    ensures LeavesSmaller(c, [c[i]] + rest)
  {
    var r := [c[i]] + rest;
    forall m, j | 0 <= m < |c| && c[m] !in r && 0 <= j < |r| ensures c[m].1 <= r[j].1 {
      if j > 0 {
        LeftOutStaysOut(c, i, rest, m);
        assert r[j] == rest[j - 1];
      }
    }
  }

  /** An entry other than the largest one lies among the others, and an
      entry outside `[c[i]] + rest` lies outside `rest`. */
  lemma LeftOutStaysOut<K>(c: Counter<K>, i: nat, rest: Counter<K>, m: nat)
    requires i < |c| && m < |c| && c[m] !in [c[i]] + rest
    requires LeavesSmaller(Remove(c, i), rest)
    ensures forall j | 0 <= j < |rest| :: c[m].1 <= rest[j].1
  {
    var c' := Remove(c, i);
    assert c[m] != c[i];
    assert c[m] in multiset(c');
    var m' :| 0 <= m' < |c'| && c'[m'] == c[m];
    assert c'[m'] !in rest;
  }

  // ---------------------------------------------------------------------
  // Traffic over time
  // ---------------------------------------------------------------------

  /** Python's `<` on strings: by code point, a proper prefix first. */
  predicate StrLt(a: string, b: string)
    decreases |a|
  {
    if |a| == 0 then |b| > 0
    else if |b| == 0 then false
    else if a[0] != b[0] then a[0] < b[0]
    else StrLt(a[1..], b[1..])
  }

  lemma {:induction false} StrLtIrreflexive(a: string)
    ensures !StrLt(a, a)
    decreases |a|
  {
    if |a| > 0 {
      StrLtIrreflexive(a[1..]);
    }
  }

  lemma {:induction false} StrLtTransitive(a: string, b: string, c: string)
    requires StrLt(a, b) && StrLt(b, c)
    ensures StrLt(a, c)
    decreases |a|
  {
    if |a| > 0 && a[0] == b[0] && b[0] == c[0] {
      StrLtTransitive(a[1..], b[1..], c[1..]);
    }
  }

  lemma {:induction false} StrLtTotal(a: string, b: string)
    requires a != b
    ensures StrLt(a, b) || StrLt(b, a)
    decreases |a|
  {
    if |a| > 0 && |b| > 0 && a[0] == b[0] {
      assert a == [a[0]] + a[1..] && b == [b[0]] + b[1..];
      StrLtTotal(a[1..], b[1..]);
    }
  }

  /** The position of a smallest string. */
  function ArgMin(ks: seq<string>): (i: nat)
    requires |ks| > 0
    ensures i < |ks|
    ensures forall j | 0 <= j < |ks| :: !StrLt(ks[j], ks[i])
    decreases |ks|
  {
    if |ks| == 1 then StrLtIrreflexive(ks[0]); 0
    else
      var j := ArgMin(ks[1..]);
      if StrLt(ks[j + 1], ks[0]) then
        assert forall m | 0 <= m < |ks| :: !StrLt(ks[m], ks[j + 1]) by {
          forall m | 0 <= m < |ks| ensures !StrLt(ks[m], ks[j + 1]) {
            if m == 0 {
              if StrLt(ks[0], ks[j + 1]) {
                StrLtTransitive(ks[0], ks[j + 1], ks[0]);
                StrLtIrreflexive(ks[0]);
              }
            } else {
              assert ks[m] == ks[1..][m - 1];
            }
          }
        }
        j + 1
      else
        assert forall m | 0 <= m < |ks| :: !StrLt(ks[m], ks[0]) by {
          forall m | 0 <= m < |ks| ensures !StrLt(ks[m], ks[0]) {
            if m == 0 {
              StrLtIrreflexive(ks[0]);
            } else if StrLt(ks[m], ks[0]) {
              assert ks[m] == ks[1..][m - 1];
              assert !StrLt(ks[m], ks[j + 1]);
              if ks[m] != ks[j + 1] {
                StrLtTotal(ks[m], ks[j + 1]);
                StrLtTransitive(ks[j + 1], ks[m], ks[0]);
              }
            }
          }
        }
        0
  }

  predicate StrictlyAscending(ks: seq<string>) {
    forall i, j | 0 <= i < j < |ks| :: StrLt(ks[i], ks[j])
  }

  /** `sorted(keys)`, by selection of the smallest. */
  function SortStrings(ks: seq<string>): (r: seq<string>)
    ensures |r| == |ks| && multiset(r) == multiset(ks)
    decreases |ks|
  {
    if |ks| == 0 then []
    else
      var i := ArgMin(ks);
      assert ks == ks[..i] + [ks[i]] + ks[i + 1..];
      [ks[i]] + SortStrings(ks[..i] + ks[i + 1..])
  }

  /** The list without its entry `i`, read at position `m`. */
  lemma SkipIndex<T>(ks: seq<T>, i: nat, m: nat)
    requires i < |ks| && m < |ks| - 1
    ensures (ks[..i] + ks[i + 1..])[m] == ks[if m < i then m else m + 1]
  {
  }

  /** Dropping an entry keeps distinct strings distinct. */
  lemma DistinctSkip(ks: seq<string>, i: nat)
    requires i < |ks| && forall a, b | 0 <= a < b < |ks| :: ks[a] != ks[b]
    ensures var rest := ks[..i] + ks[i + 1..];
      forall a, b | 0 <= a < b < |rest| :: rest[a] != rest[b]
  {
    var rest := ks[..i] + ks[i + 1..];
    forall a, b | 0 <= a < b < |rest| ensures rest[a] != rest[b] {
      SkipIndex(ks, i, a);
      SkipIndex(ks, i, b);
    }
  }

  /** Among distinct strings, the smallest comes before every other one. */
  lemma MinBeforeRest(ks: seq<string>, sr: seq<string>)
    requires |ks| > 0 && forall a, b | 0 <= a < b < |ks| :: ks[a] != ks[b]
    requires multiset(sr) == multiset(ks[..ArgMin(ks)] + ks[ArgMin(ks) + 1..])
    ensures forall b | 0 <= b < |sr| :: StrLt(ks[ArgMin(ks)], sr[b])
  {
    forall b | 0 <= b < |sr| ensures StrLt(ks[ArgMin(ks)], sr[b]) {
      assert sr[b] in multiset(sr);
      MinBeforeOne(ks, sr[b]);
    }
  }

  lemma MinBeforeOne(ks: seq<string>, x: string)
    requires |ks| > 0 && forall a, b | 0 <= a < b < |ks| :: ks[a] != ks[b]
    requires x in multiset(ks[..ArgMin(ks)] + ks[ArgMin(ks) + 1..])
    ensures StrLt(ks[ArgMin(ks)], x)
  {
    var i := ArgMin(ks);
    var m := SkipWitness(ks, i, x);
    assert x != ks[i] by {
      if m < i { assert ks[m] != ks[i]; } else { assert ks[i] != ks[m]; }
    }
    assert !StrLt(ks[m], ks[i]);
    StrLtTotal(ks[i], x);
  }

  /** An entry of the list without entry `i` sits at another position. */
  lemma SkipWitness<T>(ks: seq<T>, i: nat, x: T) returns (m: nat)
    requires i < |ks| && x in multiset(ks[..i] + ks[i + 1..])
    ensures m < |ks| && m != i && ks[m] == x
  {
    var rest := ks[..i] + ks[i + 1..];
    var k :| 0 <= k < |rest| && rest[k] == x;
    SkipIndex(ks, i, k);
    m := if k < i then k else k + 1;
  }

  lemma AscendingCons(x: string, sr: seq<string>)
    requires StrictlyAscending(sr) && forall b | 0 <= b < |sr| :: StrLt(x, sr[b])
    ensures StrictlyAscending([x] + sr)
  {
    var r := [x] + sr;
    assert forall b | 1 <= b < |r| :: r[b] == sr[b - 1];
  }

  /** Sorting distinct strings gives them in strictly ascending order. */
  lemma {:induction false} SortStringsAscending(ks: seq<string>)
    requires forall i, j | 0 <= i < j < |ks| :: ks[i] != ks[j]
    ensures StrictlyAscending(SortStrings(ks))
    decreases |ks|
  {
    if |ks| > 0 {
      var i := ArgMin(ks);
      var rest := ks[..i] + ks[i + 1..];
      DistinctSkip(ks, i);
      SortStringsAscending(rest);
      var sr := SortStrings(rest);
      assert SortStrings(ks) == [ks[i]] + sr;
      MinBeforeRest(ks, sr);
      AscendingCons(ks[i], sr);
    }
  }

  /** `traffic_over_time`: the sorted hours and their counts. */
  function Traffic(hourly: Counter<string>): (r: (seq<string>, seq<nat>))
    ensures |r.0| == |r.1| == |hourly|
  {
    var labels := SortStrings(Firsts(hourly));
    (labels, seq(|labels|, i requires 0 <= i < |labels| => CountOf(hourly, labels[i])))
  }

  /** The labels are exactly the counted hours, strictly ascending, and each
      value is its label's count. */
  lemma TrafficAligned(hourly: Counter<string>)
    requires DistinctKeys(hourly)
    ensures var (labels, values) := Traffic(hourly);
      && StrictlyAscending(labels)
      && (forall h :: h in labels <==> h in Keys(hourly))
      && (forall i | 0 <= i < |labels| :: values[i] == CountOf(hourly, labels[i]))
  {
    var ks := Firsts(hourly);
    SortStringsAscending(ks);
    var labels := SortStrings(ks);
    forall h ensures h in labels <==> h in Keys(hourly) {
      calc {
        h in labels;
        h in multiset(labels);
        h in multiset(ks);
        h in ks;
      }
      if h in ks {
        var i :| 0 <= i < |ks| && ks[i] == h;
        assert hourly[i].0 == h;
      }
      if h in Keys(hourly) {
        var i :| 0 <= i < |hourly| && hourly[i].0 == h;
        assert ks[i] == h;
      }
    }
  }

  // ---------------------------------------------------------------------
  // analyze_log
  // ---------------------------------------------------------------------

  /** What the file system gives: no file, an error while reading, or the
      file's lines. */
  datatype LogFile = Missing | Unreadable(reason: string) | Contents(lines: seq<string>)

  /** The result: metrics (unrounded) and the chart data. */
  datatype Analysis = Analysis(totalRequests: nat, uniqueVisitors: nat, totalBandwidthMb: real,
                               errorRate: real, avgResponseSize: real, statusCounts: Counter<int>,
                               topIps: Counter<string>, topUrls: Counter<string>,
                               labels: seq<string>, values: seq<nat>)

  /** The metrics and charts of `analyze_log` from the accumulators: the
      counts carried over, the error rate as a percentage of the requests,
      the bandwidth in megabytes, the average response size as the mean of
      the counted sizes, the ten busiest IPs and URLs, and the hourly chart. */
  function Report(s: Stats): (a: Analysis)
    requires s.totalRequests > 0
    ensures a.totalRequests == s.totalRequests && a.uniqueVisitors == |s.uniqueIps|
    ensures a.statusCounts == s.statusCounts
    ensures a.errorRate == Percent(s.errorCount, s.totalRequests)
    ensures s.errorCount <= s.totalRequests ==> 0.0 <= a.errorRate <= 100.0
    ensures a.totalBandwidthMb == Megabytes(s.totalSize)
    ensures a.avgResponseSize == Average(s.totalSize, s.totalRequests)
    ensures a.topIps == Top(s.ipCounts, TopCount) && a.topUrls == Top(s.urlCounts, TopCount)
    ensures (a.labels, a.values) == Traffic(s.hourlyTraffic)
    ensures |a.labels| == |a.values| == |s.hourlyTraffic|
    ensures |a.topIps| <= TopCount && |a.topUrls| <= TopCount
  {
    var chart := Traffic(s.hourlyTraffic);
    Analysis(s.totalRequests, |s.uniqueIps|, Megabytes(s.totalSize), Percent(s.errorCount, s.totalRequests),
             Average(s.totalSize, s.totalRequests), s.statusCounts,
             Top(s.ipCounts, TopCount), Top(s.urlCounts, TopCount), chart.0, chart.1)
  }

  /** `error_count / total_requests * 100`: `part` as a percentage of
      `whole`, at most 100 when the part is at most the whole. */
  function Percent(part: nat, whole: nat): (r: real)
    requires whole > 0
    ensures r * (whole as real) == 100.0 * (part as real)
    ensures part <= whole ==> 0.0 <= r <= 100.0
  {
    var r := part as real / whole as real * 100.0;
    if part <= whole then RatioAtMostOne(part as real, whole as real); r else r
  }

  /** `total_size / (1024 * 1024)`: a byte count in megabytes. */
  function Megabytes(size: nat): (mb: real)
    ensures mb * 1048576.0 == size as real
  {
    size as real / (1024 * 1024) as real
  }

  /** `total_size / total_requests`, the mean of the counted sizes. */
  function Average(total: nat, n: nat): (avg: real)
    requires n > 0
    ensures avg * (n as real) == total as real
  {
    total as real / n as real
  }

  function AnalyzeLog(path: string, file: LogFile, parse: string -> Option<Record>): (r: Result<Analysis>)
    ensures file.Missing? ==> r == Err("File not found: " + path)
    ensures file.Unreadable? ==> r == Err("Error reading file: " + file.reason)
    ensures file.Contents? && |Matched(file.lines, parse)| == 0 ==> r == Err("No valid log lines found")
    ensures file.Contents? && |Matched(file.lines, parse)| > 0 ==> r.Ok?
  {
    match file
    case Missing => Err("File not found: " + path)
    case Unreadable(reason) => Err("Error reading file: " + reason)
    case Contents(lines) =>
      var s := Fold(Zero, lines, parse);
      FoldValid(lines, parse);
      if s.totalRequests == 0 then Err("No valid log lines found") else Ok(Report(s))
  }

  /** The report of valid accumulators keeps the caps, has an error rate
      between 0 and 100 and views of at most ten entries. */
  lemma ReportBounds(s: Stats)
    requires Valid(s) && s.totalRequests > 0
    ensures var a := Report(s);
      && a.uniqueVisitors <= IpCap
      && |a.labels| <= HourCap
      && 0.0 <= a.errorRate <= 100.0
      && Total(a.statusCounts) == a.totalRequests
      && |a.topIps| <= TopCount && |a.topUrls| <= TopCount
  {
    ErrorTotalAtMostTotal(s.statusCounts);
    RatioAtMostOne(s.errorCount as real, s.totalRequests as real);
  }

  /** The views of the report of valid accumulators: both top lists run
      from the most to the least counted and no entry left out outnumbers
      one kept; the hour labels are the counted hours, in ascending order,
      each with its own count. */
  lemma ReportCharts(s: Stats)
    requires Valid(s) && s.totalRequests > 0
    ensures var a := Report(s);
      && Descending(a.topIps) && LeavesSmaller(s.ipCounts, a.topIps)
      && Descending(a.topUrls) && LeavesSmaller(s.urlCounts, a.topUrls)
      && StrictlyAscending(a.labels)
      && (forall h :: h in a.labels <==> h in Keys(s.hourlyTraffic))
      && (forall i | 0 <= i < |a.labels| :: a.values[i] == CountOf(s.hourlyTraffic, a.labels[i]))
  {
    TopDescending(s.ipCounts, TopCount);
    TopLeavesSmaller(s.ipCounts, TopCount);
    TopDescending(s.urlCounts, TopCount);
    TopLeavesSmaller(s.urlCounts, TopCount);
    TrafficAligned(s.hourlyTraffic);
  }

  lemma RatioAtMostOne(a: real, b: real)
    requires 0.0 <= a <= b && b > 0.0
    ensures 0.0 <= a / b * 100.0 <= 100.0
  {
    assert a / b <= 1.0 by {
      assert a / b * b == a;
    }
  }

  /** The folded accumulators are valid and count the matching lines. */
  lemma FoldValid(lines: seq<string>, parse: string -> Option<Record>)
    ensures var s := Fold(Zero, lines, parse);
      Valid(s) && s.totalRequests == |Matched(lines, parse)|
  {
    FoldSkipsUnmatched(Zero, lines, parse);
    ZeroValid();
    FoldRecordsValid(Zero, Matched(lines, parse));
  }

  /** With matching lines, the analysis is the report of the folded
      accumulators. */
  lemma AnalyzeLogIsReport(path: string, lines: seq<string>, parse: string -> Option<Record>)
    requires |Matched(lines, parse)| > 0
    ensures Fold(Zero, lines, parse).totalRequests > 0
    ensures AnalyzeLog(path, Contents(lines), parse) == Ok(Report(Fold(Zero, lines, parse)))
  {
    FoldValid(lines, parse);
  }

  /** A successful analysis counts exactly the matching lines; its error
      rate is the share of 4xx and 5xx statuses among them, and its top lists
      and hourly chart are ordered. */
  lemma AnalyzeLogCounts(path: string, lines: seq<string>, parse: string -> Option<Record>)
    requires |Matched(lines, parse)| > 0
    ensures var r := AnalyzeLog(path, Contents(lines), parse);
      && r.Ok?
      && r.value.totalRequests == |Matched(lines, parse)|
      && r.value.uniqueVisitors <= IpCap
      && r.value.errorRate == Percent(ErrorTotal(r.value.statusCounts), r.value.totalRequests)
      && 0.0 <= r.value.errorRate <= 100.0
      && Total(r.value.statusCounts) == r.value.totalRequests
      && |r.value.topIps| <= TopCount && |r.value.topUrls| <= TopCount
      && Descending(r.value.topIps) && Descending(r.value.topUrls)
      && StrictlyAscending(r.value.labels) && |r.value.labels| == |r.value.values|
  {
    AnalyzeLogIsReport(path, lines, parse);
    FoldValid(lines, parse);
    ReportBounds(Fold(Zero, lines, parse));
    ReportCharts(Fold(Zero, lines, parse));
  }
}

=== FILE: process_workflow.dfy ===
/** The two-stage Celery workflow (src/tasks/process_workflow.py): the
    outer task initialises the progress row and the idempotency record and
    dispatches the chain "file processing, then embedding"; the second stage
    runs the embedding phase between progress writes. Each collaborator is
    an outcome given as input, and every call the code makes is recorded in
    a trace, in order. The progress table is the one of `ProgressStore`. */
module ProcessWorkflow {
  import opened Wrappers
  import opened Json
  import opened ProgressStore

  const OuterTaskName: string := "tasks.process_workflow.process_and_push_workflow"
  const FileStageName: string := "tasks.file_processing.process_project_files"
  const IndexStageName: string := "tasks.data_indexing.index_data_content"
  const StartedSignal: string := "WORKFLOW_STARTED"

  /** The arguments of `process_and_push_workflow`, passed on to the first stage. */
  datatype WorkflowArgs = WorkflowArgs(
    projectId: int, fileId: int, chunkSize: int, overlapSize: int, doReset: int, chunkingMethod: string)

  /** The calls the tasks make, in the order they make them. */
  datatype Call =
    | CreateProgress(workflowId: string, projectId: int, totalSteps: int)
    | CreateTaskRecord(taskName: string, taskArgs: Dict, celeryTaskId: string)
    | DispatchChain(workflowId: string, args: WorkflowArgs)
    | MarkEmbeddingStartCall(workflowId: string, totalChunks: int)
    | IndexCall(projectId: int, doReset: int, forWorkflow: Option<string>)
    | MarkSuccessCall(workflowId: string, result: Json)
    | MarkFailureCall(workflowId: string, error: string)

  /** How initialisation's collaborators behave. */
  datatype InitEnv = InitEnv(setupOk: bool, progressWriteOk: bool, taskRecordOk: bool)

  /** The table after a progress write: unchanged when the write raised. */
  function After(store: Store, w: Result<(Store, Option<WorkflowProgress>)>): Store {
    if w.Ok? then w.value.0 else store
  }

  function TaskArgs(a: WorkflowArgs): Dict {
    FromPairs([("project_id", JInt(a.projectId)), ("file_id", JInt(a.fileId)),
               ("chunk_size", JInt(a.chunkSize)), ("overlap_size", JInt(a.overlapSize)),
               ("do_reset", JInt(a.doReset)), ("chunking_method", JStr(a.chunkingMethod))])
  }

  /** `_initialize_all`: the progress row (two steps) first, then the task
      record; the first failure is raised, so a failed row creation means no
      task record is attempted. A created row stays when the task record
      then fails. */
  function InitializeAll(store: Store, workflowId: string, a: WorkflowArgs, now: int, env: InitEnv)
    : (res: (Store, seq<Call>, Option<string>))
    ensures var (store', calls, err) := res;
      && (calls == [] <==> !env.setupOk)
      && (|calls| > 0 ==> calls[0] == CreateProgress(workflowId, a.projectId, 2))
      && (|calls| == 2 <==> env.setupOk && env.progressWriteOk && workflowId !in store)
      && (|calls| == 2 ==> calls[1] == CreateTaskRecord(OuterTaskName, TaskArgs(a), workflowId))
      && |calls| <= 2
      && (err.None? <==> |calls| == 2 && env.taskRecordOk)
      && (store' != store ==> |calls| == 2 && workflowId in store' && Initial(store'[workflowId], 2))
  {
    if !env.setupOk then (store, [], Some("setup failed"))
    else
      var created := Create(store, workflowId, a.projectId, 2, now, env.progressWriteOk);
      var c1 := [CreateProgress(workflowId, a.projectId, 2)];
      if created.Err? then (store, c1, Some(created.error))
      else
        var c2 := c1 + [CreateTaskRecord(OuterTaskName, TaskArgs(a), workflowId)];
        (created.value.0, c2, if env.taskRecordOk then None else Some("failed to create task record"))
  }

  /** The value `process_and_push_workflow` returns. */
  function StartedResponse(workflowId: string): Dict {
    FromPairs([("signal", JStr(StartedSignal)),
               ("workflow_id", JStr(workflowId)),
               ("tasks", JArr([JStr(FileStageName), JStr(IndexStageName)]))])
  }

  /** `process_and_push_workflow`: the workflow id is the task's own request
      id; initialisation failures are logged and the chain is dispatched
      regardless. */
  function ProcessAndPushWorkflow(store: Store, requestId: string, a: WorkflowArgs, now: int, env: InitEnv)
    : (res: (Store, seq<Call>, Dict))
    ensures var (store', calls, response) := res;
      && |calls| >= 1
      && calls[|calls| - 1] == DispatchChain(requestId, a)
      && calls[..|calls| - 1] == InitializeAll(store, requestId, a, now, env).1
      && store' == InitializeAll(store, requestId, a, now, env).0
      && response == StartedResponse(requestId)
  {
    var (store', calls, _) := InitializeAll(store, requestId, a, now, env);
    assert (calls + [DispatchChain(requestId, a)])[..|calls|] == calls;
    (store', calls + [DispatchChain(requestId, a)], StartedResponse(requestId))
  }

  /** Fail-open: whatever initialisation does, the chain is dispatched with
      the same arguments and the caller gets the same answer, which names
      the request id as the workflow id. */
  lemma FailOpen(store: Store, requestId: string, a: WorkflowArgs, now: int, env1: InitEnv, env2: InitEnv)
    ensures var (_, calls1, r1) := ProcessAndPushWorkflow(store, requestId, a, now, env1);
            var (_, calls2, r2) := ProcessAndPushWorkflow(store, requestId, a, now, env2);
      && r1 == r2
      && calls1[|calls1| - 1] == calls2[|calls2| - 1]
      && Get(r1, "signal") == Some(JStr(StartedSignal))
      && Get(r1, "workflow_id") == Some(JStr(requestId))
  {
    var pairs := [("signal", JStr(StartedSignal)), ("workflow_id", JStr(requestId)),
                  ("tasks", JArr([JStr(FileStageName), JStr(IndexStageName)]))];
    GetFromPairs(pairs, "signal");
    GetAt(pairs, "signal", 0);
    GetFromPairs(pairs, "workflow_id");
    GetAt(pairs, "workflow_id", 1);
  }

  /** The dictionary the first stage hands on; `insertedChunks` is `None`
      when the key is absent. */
  datatype StageResult = StageResult(
    projectId: int, doReset: int, workflowId: Option<string>, insertedChunks: Option<int>)

  /** How the embedding phase's collaborators behave. `setup` is the first
      `get_setup_utils`, `failureSetupOk` the second one in the error path. */
  datatype EmbedEnv = EmbedEnv(
    setup: Result<bool>,
    startWriteOk: bool,
    indexing: Result<Json>,
    successWriteOk: bool,
    failureSetupOk: bool,
    failureWriteOk: bool)

  /** The error path of `_run_embedding_phase`: with a truthy workflow id a
      FAILURE write carrying the error text is attempted (its own failure is
      only logged), then the original error is raised again. */
  function RecordFailure(store: Store, calls: seq<Call>, workflowId: Option<string>, error: string, now: int,
                         env: EmbedEnv): (res: (Store, seq<Call>, Result<Json>))
    ensures res.2 == Err(error)
    ensures |res.1| >= |calls| && res.1[..|calls|] == calls
    ensures Truthy(workflowId) && env.failureSetupOk ==>
      && res.1 == calls + [MarkFailureCall(workflowId.value, error)]
      && res.0 == After(store, MarkWorkflowFailure(store, workflowId.value, error, now, env.failureWriteOk))
    ensures !(Truthy(workflowId) && env.failureSetupOk) ==> res.0 == store && res.1 == calls
  {
    if Truthy(workflowId) && env.failureSetupOk then
      var w := workflowId.value;
      assert (calls + [MarkFailureCall(w, error)])[..|calls|] == calls;
      (After(store, MarkWorkflowFailure(store, w, error, now, env.failureWriteOk)),
       calls + [MarkFailureCall(w, error)], Err(error))
    else (store, calls, Err(error))
  }

  /** `_run_embedding_phase`. */
  function RunEmbeddingPhase(store: Store, projectId: int, doReset: int, workflowId: Option<string>,
                             totalChunks: int, now: int, env: EmbedEnv): (res: (Store, seq<Call>, Result<Json>))
    ensures env.setup.Ok? && env.indexing.Ok? ==> res.2 == env.indexing
    ensures env.setup.Err? ==> res.2 == Err(env.setup.error)
    ensures env.setup.Ok? && env.indexing.Err? ==> res.2 == Err(env.indexing.error)
  {
    if env.setup.Err? then RecordFailure(store, [], workflowId, env.setup.error, now, env)
    else
      var (store1, calls1) :=
        if Truthy(workflowId) then
          (After(store, MarkEmbeddingStart(store, workflowId.value, totalChunks, now, env.startWriteOk)),
           [MarkEmbeddingStartCall(workflowId.value, totalChunks)])
        else (store, []);
      var calls2 := calls1 + [IndexCall(projectId, doReset, workflowId)];
      match env.indexing
      case Err(e) => RecordFailure(store1, calls2, workflowId, e, now, env)
      case Ok(results) =>
        if Truthy(workflowId) then
          (After(store1, MarkWorkflowSuccess(store1, workflowId.value, results, now, env.successWriteOk)),
           calls2 + [MarkSuccessCall(workflowId.value, results)], Ok(results))
        else (store1, calls2, Ok(results))
  }

  function Writes(calls: seq<Call>): nat {
    if |calls| == 0 then 0
    else (if calls[0].MarkEmbeddingStartCall? || calls[0].MarkSuccessCall? || calls[0].MarkFailureCall? then 1 else 0)
         + Writes(calls[1..])
  }

  /** Without a workflow id no progress write is attempted and the table is
      untouched; the indexing runs (after a successful setup) all the same. */
  lemma NoWritesWithoutWorkflow(store: Store, projectId: int, doReset: int, workflowId: Option<string>,
                                totalChunks: int, now: int, env: EmbedEnv)
    requires !Truthy(workflowId)
    ensures var (store', calls, _) := RunEmbeddingPhase(store, projectId, doReset, workflowId, totalChunks, now, env);
      && store' == store
      && Writes(calls) == 0
      && calls == (if env.setup.Ok? then [IndexCall(projectId, doReset, workflowId)] else [])
  {
  }

  /** With a workflow id and a working setup the trace is embedding start,
      indexing, then success carrying the indexing result or failure
      carrying its error; failing progress writes do not change the trace. */
  lemma EmbeddingTrace(store: Store, projectId: int, doReset: int, w: string, totalChunks: int, now: int,
                       env: EmbedEnv)
    requires w != "" && env.setup.Ok?
    ensures var (_, calls, r) := RunEmbeddingPhase(store, projectId, doReset, Some(w), totalChunks, now, env);
      && |calls| >= 2
      && calls[0] == MarkEmbeddingStartCall(w, totalChunks)
      && calls[1] == IndexCall(projectId, doReset, Some(w))
      && (env.indexing.Ok? ==> calls == calls[..2] + [MarkSuccessCall(w, env.indexing.value)] && r == env.indexing)
      && (env.indexing.Err? && env.failureSetupOk ==>
            calls == calls[..2] + [MarkFailureCall(w, env.indexing.error)] && r == Err(env.indexing.error))
      && (env.indexing.Err? && !env.failureSetupOk ==> |calls| == 2)
  {
  }

  /** When every write goes through, a successful run leaves the row in
      SUCCESS at 100% holding the indexing result, and a failed indexing
      leaves it in FAILURE holding the error text. */
  lemma EmbeddingOutcomeRecorded(store: Store, projectId: int, doReset: int, w: string, totalChunks: int,
                                 now: int, env: EmbedEnv)
    requires w != "" && w in store && env.setup.Ok?
    requires env.startWriteOk && env.successWriteOk && env.failureSetupOk && env.failureWriteOk
    ensures var (store', _, r) := RunEmbeddingPhase(store, projectId, doReset, Some(w), totalChunks, now, env);
      && w in store'
      && (r.Ok? ==>
            store'[w].status == StatusSuccess && store'[w].overallProgress == 100.0 && store'[w].result == Some(r.value))
      && (r.Err? ==> store'[w].status == StatusFailure && store'[w].errorMessage == Some(r.error))
  {
    var store1 := After(store, MarkEmbeddingStart(store, w, totalChunks, now, true));
    assert w in store1;
  }

  /** A setup that fails is recorded too: with a workflow id and a working
      failure path the only call is the FAILURE write, which leaves the row
      failed with the setup error, and that error is raised again. */
  lemma SetupFailureRecorded(store: Store, projectId: int, doReset: int, w: string, totalChunks: int,
                             now: int, env: EmbedEnv)
    requires w != "" && w in store && env.setup.Err?
    requires env.failureSetupOk && env.failureWriteOk
    ensures var (store', calls, r) := RunEmbeddingPhase(store, projectId, doReset, Some(w), totalChunks, now, env);
      && calls == [MarkFailureCall(w, env.setup.error)]
      && r == Err(env.setup.error)
      && w in store' && store'[w].status == StatusFailure && store'[w].errorMessage == Some(env.setup.error)
  {
    assert [] + [MarkFailureCall(w, env.setup.error)] == [MarkFailureCall(w, env.setup.error)];
  }

  /** `push_after_process_task`: the second stage reads its arguments from
      the first stage's result, with `inserted_chunks` defaulting to 0, and
      wraps the indexing result or passes its error on. */
  function PushAfterProcess(store: Store, prev: StageResult, now: int, env: EmbedEnv)
    : (res: (Store, seq<Call>, Result<Dict>))
    ensures var (_, calls, r) := res;
      && (Truthy(prev.workflowId) && env.setup.Ok? ==>
            |calls| > 0 && calls[0] == MarkEmbeddingStartCall(prev.workflowId.value, prev.insertedChunks.GetOr(0)))
      && (env.setup.Ok? ==> IndexCall(prev.projectId, prev.doReset, prev.workflowId) in calls)
      && (r.Ok? <==> env.setup.Ok? && env.indexing.Ok?)
      && (r.Ok? ==> Get(r.value, "task_results") == Some(env.indexing.value))
      && (r.Ok? ==> Get(r.value, "workflow_id") == Some(OptStr(prev.workflowId)))
  {
    var total := prev.insertedChunks.GetOr(0);
    var (store', calls, out) := RunEmbeddingPhase(store, prev.projectId, prev.doReset, prev.workflowId, total, now, env);
    if out.Err? then (store', calls, Err(out.error))
    else
      var pairs := [("project_id", JInt(prev.projectId)), ("do_reset", JInt(prev.doReset)),
                    ("workflow_id", OptStr(prev.workflowId)), ("task_results", out.value)];
      GetFromPairs(pairs, "task_results");
      GetAt(pairs, "task_results", 3);
      GetFromPairs(pairs, "workflow_id");
      GetAt(pairs, "workflow_id", 2);
      (store', calls, Ok(FromPairs(pairs)))
  }
}

=== FILE: progress_broadcaster.dfy ===
/** `ProgressBroadcaster` (src/utils/progress_broadcaster.py): each phase
    method writes the progress row first and then, best effort, publishes
    a JSON notification on the project's Redis channel. The Redis client's
    presence, the outcome of the database write and the outcome of the
    publish are explicit inputs; the ISO timestamp is an opaque string. */
module ProgressBroadcaster {
  import opened Wrappers
  import opened Text
  import opened Json
  import opened ProgressStore

  const ChannelPrefix: string := "workflow_progress:"

  /** What the environment does on one call. */
  datatype Env = Env(writeOk: bool, hasRedis: bool, publishOk: bool)

  /** The keyword arguments of `_publish_to_redis`. */
  datatype PublishArgs = PublishArgs(
    workflowId: string,
    projectId: int,
    status: string,
    message: string,
    currentStep: Option<string>,
    currentStepNumber: Option<int>,
    stepProgress: Option<real>,
    overallProgress: Option<real>,
    result: Option<Json>,
    errorMessage: Option<string>)

  datatype Publication = Publication(channel: string, payload: Dict)

  /** The effect of one phase method: the table afterwards and what went out on Redis. */
  datatype Outcome = Outcome(store: Store, published: seq<Publication>)

  /** `f"workflow_progress:{project_id}"`: the prefix, then the decimal
      text of the project id. */
  function Channel(projectId: int): (c: string)
    ensures StartsWith(c, ChannelPrefix) && |c| > |ChannelPrefix|
    ensures IsDecimal(c[|ChannelPrefix|..], projectId)
  {
    var c := ChannelPrefix + IntToString(projectId);
    IntToStringDigits(projectId);
    assert c[|ChannelPrefix|..] == IntToString(projectId);
    c
  }

  /** The ordered pairs of the published dictionary. */
  function PayloadPairs(a: PublishArgs, stamp: string): Dict {
    [ ("type", JStr("progress_update")),
      ("workflow_id", JStr(a.workflowId)),
      ("project_id", JInt(a.projectId)),
      ("status", JStr(a.status)),
      ("current_step", OptStr(a.currentStep)),
      ("current_step_number", OptInt(a.currentStepNumber)),
      ("step_progress", OptNum(a.stepProgress)),
      ("overall_progress", OptNum(a.overallProgress)),
      ("message", JStr(a.message)),
      ("result", OptJson(a.result)),
      ("error_message", OptStr(a.errorMessage)),
      ("timestamp", JStr(stamp)) ]
  }

  function Payload(a: PublishArgs, stamp: string): Dict {
    FromPairs(PayloadPairs(a, stamp))
  }

  /** The published dictionary carries every argument under its own key,
      tagged `progress_update` and stamped. */
  lemma PayloadFields(a: PublishArgs, stamp: string)
    ensures var p := Payload(a, stamp);
      && Get(p, "type") == Some(JStr("progress_update"))
      && Get(p, "workflow_id") == Some(JStr(a.workflowId))
      && Get(p, "project_id") == Some(JInt(a.projectId))
      && Get(p, "status") == Some(JStr(a.status))
      && Get(p, "current_step") == Some(OptStr(a.currentStep))
      && Get(p, "current_step_number") == Some(OptInt(a.currentStepNumber))
      && Get(p, "step_progress") == Some(OptNum(a.stepProgress))
      && Get(p, "overall_progress") == Some(OptNum(a.overallProgress))
      && Get(p, "message") == Some(JStr(a.message))
      && Get(p, "result") == Some(OptJson(a.result))
      && Get(p, "error_message") == Some(OptStr(a.errorMessage))
      && Get(p, "timestamp") == Some(JStr(stamp))
  {
    var pairs := PayloadPairs(a, stamp);
    assert UniqueKeys(pairs);
    ReadsPair(pairs, 0);
    ReadsPair(pairs, 1);
    ReadsPair(pairs, 2);
    ReadsPair(pairs, 3);
    ReadsPair(pairs, 4);
    ReadsPair(pairs, 5);
    ReadsPair(pairs, 6);
    ReadsPair(pairs, 7);
    ReadsPair(pairs, 8);
    ReadsPair(pairs, 9);
    ReadsPair(pairs, 10);
    ReadsPair(pairs, 11);
  }

  /** The percentages of a publication are read back under their keys. */
  lemma PayloadProgress(a: PublishArgs, stamp: string)
    ensures Get(Payload(a, stamp), "overall_progress") == Some(OptNum(a.overallProgress))
    ensures Get(Payload(a, stamp), "step_progress") == Some(OptNum(a.stepProgress))
  {
    PayloadFields(a, stamp);
  }

  /** A literal with distinct keys yields each listed value under its key. */
  lemma ReadsPair(pairs: Dict, i: nat)
    requires UniqueKeys(pairs) && i < |pairs|
    ensures Get(FromPairs(pairs), pairs[i].0) == Some(pairs[i].1)
  {
    GetFromPairs(pairs, pairs[i].0);
    GetAt(pairs, pairs[i].0, i);
  }

  /** `_publish_to_redis`: nothing without a client; a failing publish is
      swallowed, so the caller never sees it. */
  function PublishToRedis(hasRedis: bool, publishOk: bool, a: PublishArgs, stamp: string)
    : (sent: seq<Publication>)
    ensures |sent| <= 1
    ensures !hasRedis ==> sent == []
    ensures |sent| == 1 <==> hasRedis && publishOk
    ensures |sent| == 1 ==> sent[0].channel == Channel(a.projectId) && sent[0].payload == Payload(a, stamp)
  {
    if !hasRedis then []
    else if !publishOk then []
    else [Publication(Channel(a.projectId), Payload(a, stamp))]
  }

  /** Write first, publish after: a failed write propagates its error and
      nothing is published; a successful write is never undone by the publish. */
  function WriteThenPublish(write: Result<Store>, env: Env, a: PublishArgs, stamp: string): (r: Result<Outcome>)
    ensures write.Err? ==> r == Err(write.error)
    ensures write.Ok? ==> r.Ok? && r.value.store == write.value
    ensures write.Ok? ==> r.value.published == PublishToRedis(env.hasRedis, env.publishOk, a, stamp)
  {
    match write
    case Err(e) => Err(e)
    case Ok(s) => Ok(Outcome(s, PublishToRedis(env.hasRedis, env.publishOk, a, stamp)))
  }

  function StoreOf<T>(r: Result<(Store, T)>): (s: Result<Store>)
    ensures s.Ok? <==> r.Ok?
    ensures s.Ok? ==> s.value == r.value.0
    ensures s.Err? ==> s.error == r.error
  {
    match r
    case Err(e) => Err(e)
    case Ok(v) => Ok(v.0)
  }

  function Args(workflowId: string, projectId: int, status: string, message: string): PublishArgs {
    PublishArgs(workflowId, projectId, status, message, None, None, None, None, None, None)
  }

  /** `initialize_workflow`: create the PENDING row, then announce it. */
  function InitializeWorkflow(store: Store, workflowId: string, projectId: int, totalSteps: int,
                              env: Env, now: int, stamp: string): (r: Result<Outcome>)
    ensures r.Ok? <==> env.writeOk && workflowId !in store
    ensures r.Ok? ==> workflowId in r.value.store && Initial(r.value.store[workflowId], totalSteps)
    ensures r.Ok? && |r.value.published| == 1 ==> r.value.published[0].channel == Channel(projectId)
  {
    WriteThenPublish(StoreOf(Create(store, workflowId, projectId, totalSteps, now, env.writeOk)), env,
      Args(workflowId, projectId, StatusPending, "Workflow initialized...").(overallProgress := Some(0.0)), stamp)
  }

  /** `start_chunking`. */
  function StartChunking(store: Store, workflowId: string, projectId: int, totalFiles: int,
                         env: Env, now: int, stamp: string): (r: Result<Outcome>)
    ensures r.Ok? <==> env.writeOk
    ensures r.Ok? && workflowId in store ==> workflowId in r.value.store
    ensures r.Ok? && workflowId in store ==> r.value.store[workflowId].status == StatusChunking
  {
    WriteThenPublish(StoreOf(MarkChunkingStart(store, workflowId, totalFiles, now, env.writeOk)), env,
      Args(workflowId, projectId, StatusChunking, "Starting chunking phase for " + IntToString(totalFiles) + " file(s)...")
        .(currentStep := Some(StepChunking), currentStepNumber := Some(1), overallProgress := Some(5.0)), stamp)
  }

  function UpdateChunkingArgs(workflowId: string, projectId: int, filesProcessed: int, totalFiles: int,
                              chunksCreated: int): PublishArgs
  {
    var step := StepPercent(filesProcessed, totalFiles);
    Args(workflowId, projectId, StatusChunking,
         "Chunking: Processed " + IntToString(filesProcessed) + "/" + IntToString(totalFiles)
         + " files (" + IntToString(chunksCreated) + " chunks)")
      .(currentStep := Some(StepChunking), stepProgress := Some(step), overallProgress := Some(ChunkingOverall(step)))
  }

  /** `update_chunking`: the published percentages are the ones stored. */
  function UpdateChunking(store: Store, workflowId: string, projectId: int, filesProcessed: int, totalFiles: int,
                          chunksCreated: int, env: Env, now: int, stamp: string): (r: Result<Outcome>)
    ensures r.Ok? <==> env.writeOk
    ensures r.Ok? && workflowId in store ==> workflowId in r.value.store
    ensures r.Ok? && workflowId in store && |r.value.published| == 1 ==>
      && Get(r.value.published[0].payload, "overall_progress") == Some(JNum(r.value.store[workflowId].overallProgress))
      && Get(r.value.published[0].payload, "step_progress") == Some(JNum(r.value.store[workflowId].stepProgress))
  {
    var a := UpdateChunkingArgs(workflowId, projectId, filesProcessed, totalFiles, chunksCreated);
    PayloadProgress(a, stamp);
    WriteThenPublish(StoreOf(UpdateChunkingProgress(store, workflowId, filesProcessed, totalFiles, chunksCreated,
                                                    now, env.writeOk)), env, a, stamp)
  }

  /** `complete_chunking`. */
  function CompleteChunking(store: Store, workflowId: string, projectId: int, totalChunks: int,
                            env: Env, now: int, stamp: string): (r: Result<Outcome>)
    ensures r.Ok? <==> env.writeOk
    ensures r.Ok? && workflowId in store ==> workflowId in r.value.store
    ensures r.Ok? && workflowId in store ==> r.value.store[workflowId].overallProgress == 50.0
  {
    WriteThenPublish(StoreOf(MarkChunkingComplete(store, workflowId, totalChunks, now, env.writeOk)), env,
      Args(workflowId, projectId, StatusChunking,
           "Chunking complete! Created " + IntToString(totalChunks) + " chunks. Starting embedding...")
        .(currentStep := Some(StepChunking), stepProgress := Some(100.0), overallProgress := Some(50.0)), stamp)
  }

  /** `start_embedding`. */
  function StartEmbedding(store: Store, workflowId: string, projectId: int, totalChunks: int,
                          env: Env, now: int, stamp: string): (r: Result<Outcome>)
    ensures r.Ok? <==> env.writeOk
    ensures r.Ok? && workflowId in store ==> workflowId in r.value.store
    ensures r.Ok? && workflowId in store ==> r.value.store[workflowId].status == StatusEmbedding
  {
    WriteThenPublish(StoreOf(MarkEmbeddingStart(store, workflowId, totalChunks, now, env.writeOk)), env,
      Args(workflowId, projectId, StatusEmbedding, "Starting embedding phase for " + IntToString(totalChunks) + " chunks...")
        .(currentStep := Some(StepEmbedding), currentStepNumber := Some(2), stepProgress := Some(0.0),
          overallProgress := Some(50.0)), stamp)
  }

  function UpdateEmbeddingArgs(workflowId: string, projectId: int, chunksEmbedded: int, totalChunks: int): PublishArgs {
    var step := StepPercent(chunksEmbedded, totalChunks);
    Args(workflowId, projectId, StatusEmbedding,
         "Embedding: Indexed " + IntToString(chunksEmbedded) + "/" + IntToString(totalChunks) + " chunks")
      .(currentStep := Some(StepEmbedding), stepProgress := Some(step), overallProgress := Some(EmbeddingOverall(step)))
  }

  /** `update_embedding`: the published percentages are the ones stored. */
  function UpdateEmbedding(store: Store, workflowId: string, projectId: int, chunksEmbedded: int, totalChunks: int,
                           env: Env, now: int, stamp: string): (r: Result<Outcome>)
    ensures r.Ok? <==> env.writeOk
    ensures r.Ok? && workflowId in store ==> workflowId in r.value.store
    ensures r.Ok? && workflowId in store && |r.value.published| == 1 ==>
      && Get(r.value.published[0].payload, "overall_progress") == Some(JNum(r.value.store[workflowId].overallProgress))
      && Get(r.value.published[0].payload, "step_progress") == Some(JNum(r.value.store[workflowId].stepProgress))
  {
    var a := UpdateEmbeddingArgs(workflowId, projectId, chunksEmbedded, totalChunks);
    PayloadProgress(a, stamp);
    WriteThenPublish(StoreOf(UpdateEmbeddingProgress(store, workflowId, chunksEmbedded, totalChunks, now, env.writeOk)),
                     env, a, stamp)
  }

  /** `complete_workflow`. */
  function CompleteWorkflow(store: Store, workflowId: string, projectId: int, result: Json,
                            env: Env, now: int, stamp: string): (r: Result<Outcome>)
    ensures r.Ok? <==> env.writeOk
    ensures r.Ok? && workflowId in store ==> workflowId in r.value.store
    ensures r.Ok? && workflowId in store ==>
      r.value.store[workflowId].status == StatusSuccess && r.value.store[workflowId].result == Some(result)
  {
    WriteThenPublish(StoreOf(MarkWorkflowSuccess(store, workflowId, result, now, env.writeOk)), env,
      Args(workflowId, projectId, StatusSuccess, SuccessMessage)
        .(stepProgress := Some(100.0), overallProgress := Some(100.0), result := Some(result)), stamp)
  }

  /** `fail_workflow`. */
  function FailWorkflow(store: Store, workflowId: string, projectId: int, error: string,
                        env: Env, now: int, stamp: string): (r: Result<Outcome>)
    ensures r.Ok? <==> env.writeOk
    ensures r.Ok? && workflowId in store ==> workflowId in r.value.store
    ensures r.Ok? && workflowId in store ==>
      r.value.store[workflowId].status == StatusFailure && r.value.store[workflowId].errorMessage == Some(error)
  {
    WriteThenPublish(StoreOf(MarkWorkflowFailure(store, workflowId, error, now, env.writeOk)), env,
      Args(workflowId, projectId, StatusFailure, "Workflow failed: " + error).(errorMessage := Some(error)), stamp)
  }

  /** Distinct projects publish on distinct channels. */
  lemma ChannelInjective(p: int, q: int)
    requires Channel(p) == Channel(q)
    ensures p == q
  {
    var n := |ChannelPrefix|;
    assert Channel(p)[n..] == IntToString(p);
    assert Channel(q)[n..] == IntToString(q);
    IntToStringInjective(p, q);
  }

  /** `get_parent_workflow_id`: a set `parent_id` wins, then a set `root_id`;
      an unset or empty attribute counts as absent, and nothing raises. */
  function GetParentWorkflowId(parentId: Option<string>, rootId: Option<string>): (r: Option<string>)
    ensures r.Some? <==> Truthy(parentId) || Truthy(rootId)
    ensures Truthy(parentId) ==> r == parentId
    ensures !Truthy(parentId) && Truthy(rootId) ==> r == rootId
  {
    if Truthy(parentId) then parentId
    else if Truthy(rootId) then rootId
    else None
  }
}

=== FILE: progress_store.dfy ===
/** The workflow-progress table and the `ProgressManager` operations on it
    (src/utils/progress_manager.py). The table is a map from `workflow_id`
    (a unique column) to the row; the clock is an opaque `now` parameter
    and a failing database session is an explicit `writeOk` outcome. */
module ProgressStore {
  import opened Wrappers
  import opened Text
  import opened Json

  // Step names and status names (src/models/enums/ProgressStatusEnum.py)
  const StepChunking: string := "chunking"
  const StepEmbedding: string := "embedding"
  const StatusPending: string := "PENDING"
  const StatusStarted: string := "STARTED"
  const StatusChunking: string := "CHUNKING"
  const StatusEmbedding: string := "EMBEDDING"
  const StatusSuccess: string := "SUCCESS"
  const StatusFailure: string := "FAILURE"

  const InitialMessage: string := "Workflow initialized, waiting to start..."
  const SuccessMessage: string := "Workflow completed successfully! Your data is ready for querying."

  /** One row of `workflow_progress`. Percentages are exact reals. */
  datatype WorkflowProgress = WorkflowProgress(
    workflowId: string,
    projectId: int,
    status: string,
    currentStep: Option<string>,
    currentStepNumber: int,
    totalSteps: int,
    stepProgress: real,
    overallProgress: real,
    message: Option<string>,
    result: Option<Json>,
    errorMessage: Option<string>,
    startedAt: Option<int>,
    completedAt: Option<int>,
    createdAt: int,
    updatedAt: int)

  type Store = map<string, WorkflowProgress>

  /** Every row is filed under its own `workflow_id`. */
  predicate Keyed(store: Store) {
    forall w | w in store :: store[w].workflowId == w
  }

  /** The state `create_workflow_progress` leaves a fresh row in. */
  predicate Initial(rec: WorkflowProgress, totalSteps: int) {
    && rec.status == StatusPending
    && rec.currentStep == None
    && rec.currentStepNumber == 0
    && rec.totalSteps == totalSteps
    && rec.stepProgress == 0.0
    && rec.overallProgress == 0.0
    && rec.message == Some(InitialMessage)
    && rec.result == None
    && rec.errorMessage == None
    && rec.completedAt == None
  }

  /** `create_workflow_progress`: insert a PENDING row. A failing session, or
      a second row with the same `workflow_id` (the unique constraint),
      raises and leaves the table as it was. */
  function Create(store: Store, workflowId: string, projectId: int, totalSteps: int, now: int, writeOk: bool)
    : (r: Result<(Store, WorkflowProgress)>)
    ensures r.Ok? <==> writeOk && workflowId !in store
    ensures r.Ok? ==> Initial(r.value.1, totalSteps)
    ensures r.Ok? ==> r.value.1.workflowId == workflowId && r.value.1.projectId == projectId
    ensures r.Ok? ==> r.value.1.startedAt == Some(now)
    ensures r.Ok? ==> r.value.0 == store[workflowId := r.value.1]
    ensures r.Ok? && Keyed(store) ==> Keyed(r.value.0)
  {
    if !writeOk then Err("failed to create workflow progress")
    else if workflowId in store then Err("duplicate workflow_id")
    else
      var rec := WorkflowProgress(workflowId, projectId, StatusPending, None, 0, totalSteps,
                                  0.0, 0.0, Some(InitialMessage), None, None, Some(now), None, now, now);
      Ok((store[workflowId := rec], rec))
  }

  /** `get_progress`. */
  function GetProgress(store: Store, workflowId: string): (r: Option<WorkflowProgress>)
    ensures r.Some? <==> workflowId in store
    ensures r.Some? && Keyed(store) ==> r.value.workflowId == workflowId
  {
    if workflowId in store then Some(store[workflowId]) else None
  }

  /** The optional arguments of `update_progress`: `None` leaves a column
      alone, `completed` stamps `completed_at`. */
  datatype Patch = Patch(
    status: Option<string>,
    currentStep: Option<string>,
    currentStepNumber: Option<int>,
    stepProgress: Option<real>,
    overallProgress: Option<real>,
    message: Option<string>,
    result: Option<Json>,
    errorMessage: Option<string>,
    completed: bool)

  const NoChange: Patch := Patch(None, None, None, None, None, None, None, None, false)

  /** The row after the `UPDATE` of `update_progress`: exactly the supplied
      columns are overwritten, `updated_at` is always refreshed and
      `completed_at` only when `completed` is set. */
  function Apply(rec: WorkflowProgress, p: Patch, now: int): (r: WorkflowProgress)
    ensures r.workflowId == rec.workflowId && r.projectId == rec.projectId
    ensures r.totalSteps == rec.totalSteps && r.startedAt == rec.startedAt && r.createdAt == rec.createdAt
    ensures r.updatedAt == now
    ensures r.status == (if p.status.Some? then p.status.value else rec.status)
    ensures r.currentStep == (if p.currentStep.Some? then p.currentStep else rec.currentStep)
    ensures r.currentStepNumber == (if p.currentStepNumber.Some? then p.currentStepNumber.value else rec.currentStepNumber)
    ensures r.stepProgress == (if p.stepProgress.Some? then p.stepProgress.value else rec.stepProgress)
    ensures r.overallProgress == (if p.overallProgress.Some? then p.overallProgress.value else rec.overallProgress)
    ensures r.message == (if p.message.Some? then p.message else rec.message)
    ensures r.result == (if p.result.Some? then p.result else rec.result)
    ensures r.errorMessage == (if p.errorMessage.Some? then p.errorMessage else rec.errorMessage)
    ensures r.completedAt == (if p.completed then Some(now) else rec.completedAt)
  {
    rec.(
      status := p.status.GetOr(rec.status),
      currentStep := if p.currentStep.Some? then p.currentStep else rec.currentStep,
      currentStepNumber := p.currentStepNumber.GetOr(rec.currentStepNumber),
      stepProgress := p.stepProgress.GetOr(rec.stepProgress),
      overallProgress := p.overallProgress.GetOr(rec.overallProgress),
      message := if p.message.Some? then p.message else rec.message,
      result := if p.result.Some? then p.result else rec.result,
      errorMessage := if p.errorMessage.Some? then p.errorMessage else rec.errorMessage,
      completedAt := if p.completed then Some(now) else rec.completedAt,
      updatedAt := now)
  }

  /** Repeating an update at the same instant changes nothing more. */
  lemma ApplyIdempotent(rec: WorkflowProgress, p: Patch, now: int)
    ensures Apply(Apply(rec, p, now), p, now) == Apply(rec, p, now)
  {
  }

  /** An update with no arguments only touches `updated_at`. */
  lemma ApplyNoChange(rec: WorkflowProgress, now: int)
    ensures Apply(rec, NoChange, now) == rec.(updatedAt := now)
  {
  }

  /** `update_progress`: a failing session raises; an unknown id updates no
      row and returns `None`; otherwise the one row is patched and returned. */
  function UpdateProgress(store: Store, workflowId: string, p: Patch, now: int, writeOk: bool)
    : (r: Result<(Store, Option<WorkflowProgress>)>)
    ensures r.Ok? <==> writeOk
    ensures r.Ok? && workflowId !in store ==> r.value == (store, None)
    ensures r.Ok? && workflowId in store ==>
      && r.value.0.Keys == store.Keys
      && r.value.1 == Some(r.value.0[workflowId])
      && r.value.0[workflowId] == Apply(store[workflowId], p, now)
      && forall w | w in store && w != workflowId :: r.value.0[w] == store[w]
    ensures r.Ok? && Keyed(store) ==> Keyed(r.value.0)
  {
    if !writeOk then Err("failed to update workflow progress")
    else if workflowId !in store then Ok((store, None))
    else
      var rec := Apply(store[workflowId], p, now);
      Ok((store[workflowId := rec], Some(rec)))
  }

  // ---------------------------------------------------------------------
  // Phase helpers
  // ---------------------------------------------------------------------

  function Max(a: int, b: int): int {
    if a >= b then a else b
  }

  /** `(done / max(total, 1)) * 100`. */
  function StepPercent(done: int, total: int): (r: real)
    ensures 0 <= done <= Max(total, 1) ==> 0.0 <= r <= 100.0
  {
    (done as real / Max(total, 1) as real) * 100.0
  }

  /** The overall percentage of a chunking update: 5% to 50%. */
  function ChunkingOverall(step: real): (r: real)
    ensures 0.0 <= step <= 100.0 ==> 5.0 <= r <= 50.0
  {
    5.0 + step * 0.45
  }

  /** The overall percentage of an embedding update: 50% to 98%. */
  function EmbeddingOverall(step: real): (r: real)
    ensures 0.0 <= step <= 100.0 ==> 50.0 <= r <= 98.0
  {
    50.0 + step * 0.48
  }

  function ChunkingStartPatch(totalFiles: int): Patch {
    Patch(Some(StatusChunking), Some(StepChunking), Some(1), Some(0.0), Some(5.0),
          Some("Starting chunking phase for " + IntToString(totalFiles) + " file(s)..."),
          None, None, false)
  }

  function ChunkingUpdatePatch(filesProcessed: int, totalFiles: int, chunksCreated: int): Patch {
    var step := StepPercent(filesProcessed, totalFiles);
    Patch(None, None, None, Some(step), Some(ChunkingOverall(step)),
          Some("Chunking: Processed " + IntToString(filesProcessed) + "/" + IntToString(totalFiles)
               + " files (" + IntToString(chunksCreated) + " chunks created)"),
          None, None, false)
  }

  function ChunkingCompletePatch(totalChunks: int): Patch {
    Patch(None, None, None, Some(100.0), Some(50.0),
          Some("Chunking complete! Created " + IntToString(totalChunks) + " chunks. Starting embedding..."),
          None, None, false)
  }

  function EmbeddingStartPatch(totalChunks: int): Patch {
    Patch(Some(StatusEmbedding), Some(StepEmbedding), Some(2), Some(0.0), Some(50.0),
          Some("Starting embedding phase for " + IntToString(totalChunks) + " chunks..."),
          None, None, false)
  }

  function EmbeddingUpdatePatch(chunksEmbedded: int, totalChunks: int): Patch {
    var step := StepPercent(chunksEmbedded, totalChunks);
    Patch(None, None, None, Some(step), Some(EmbeddingOverall(step)),
          Some("Embedding: Indexed " + IntToString(chunksEmbedded) + "/" + IntToString(totalChunks)
               + " chunks into vector database"),
          None, None, false)
  }

  function SuccessPatch(result: Json): Patch {
    Patch(Some(StatusSuccess), None, None, Some(100.0), Some(100.0), Some(SuccessMessage),
          Some(result), None, true)
  }

  function FailurePatch(error: string): Patch {
    Patch(Some(StatusFailure), None, None, None, None, Some("Workflow failed: " + error),
          None, Some(error), true)
  }

  /** `mark_chunking_start`. */
  function MarkChunkingStart(store: Store, workflowId: string, totalFiles: int, now: int, writeOk: bool)
    : (r: Result<(Store, Option<WorkflowProgress>)>)
    ensures r.Ok? && workflowId in store ==> workflowId in r.value.0
    ensures r.Ok? && workflowId in store ==>
      var rec := r.value.0[workflowId];
      rec.status == StatusChunking && rec.currentStep == Some(StepChunking) && rec.currentStepNumber == 1
      && rec.stepProgress == 0.0 && rec.overallProgress == 5.0
  {
    UpdateProgress(store, workflowId, ChunkingStartPatch(totalFiles), now, writeOk)
  }

  /** `update_chunking_progress`: the status is left alone and, with
      `0 <= filesProcessed <= totalFiles`, the overall percentage lies in [5, 50]. */
  function UpdateChunkingProgress(store: Store, workflowId: string, filesProcessed: int, totalFiles: int,
                                  chunksCreated: int, now: int, writeOk: bool)
    : (r: Result<(Store, Option<WorkflowProgress>)>)
    ensures r.Ok? && workflowId in store ==> workflowId in r.value.0
    ensures r.Ok? && workflowId in store ==>
      var rec := r.value.0[workflowId];
      && rec.status == store[workflowId].status
      && rec.currentStepNumber == store[workflowId].currentStepNumber
      && rec.stepProgress == StepPercent(filesProcessed, totalFiles)
      && rec.overallProgress == ChunkingOverall(rec.stepProgress)
      && (0 <= filesProcessed <= totalFiles ==> 0.0 <= rec.stepProgress <= 100.0 && 5.0 <= rec.overallProgress <= 50.0)
  {
    UpdateProgress(store, workflowId, ChunkingUpdatePatch(filesProcessed, totalFiles, chunksCreated), now, writeOk)
  }

  /** `mark_chunking_complete`: status unchanged, 100% of the step, 50% overall. */
  function MarkChunkingComplete(store: Store, workflowId: string, totalChunks: int, now: int, writeOk: bool)
    : (r: Result<(Store, Option<WorkflowProgress>)>)
    ensures r.Ok? && workflowId in store ==> workflowId in r.value.0
    ensures r.Ok? && workflowId in store ==>
      var rec := r.value.0[workflowId];
      rec.status == store[workflowId].status && rec.stepProgress == 100.0 && rec.overallProgress == 50.0
  {
    UpdateProgress(store, workflowId, ChunkingCompletePatch(totalChunks), now, writeOk)
  }

  /** `mark_embedding_start`. */
  function MarkEmbeddingStart(store: Store, workflowId: string, totalChunks: int, now: int, writeOk: bool)
    : (r: Result<(Store, Option<WorkflowProgress>)>)
    ensures r.Ok? && workflowId in store ==> workflowId in r.value.0
    ensures r.Ok? && workflowId in store ==>
      var rec := r.value.0[workflowId];
      rec.status == StatusEmbedding && rec.currentStep == Some(StepEmbedding) && rec.currentStepNumber == 2
      && rec.stepProgress == 0.0 && rec.overallProgress == 50.0
  {
    UpdateProgress(store, workflowId, EmbeddingStartPatch(totalChunks), now, writeOk)
  }

  /** `update_embedding_progress`: status unchanged, overall in [50, 98]. */
  function UpdateEmbeddingProgress(store: Store, workflowId: string, chunksEmbedded: int, totalChunks: int,
                                   now: int, writeOk: bool)
    : (r: Result<(Store, Option<WorkflowProgress>)>)
    ensures r.Ok? && workflowId in store ==> workflowId in r.value.0
    ensures r.Ok? && workflowId in store ==>
      var rec := r.value.0[workflowId];
      && rec.status == store[workflowId].status
      && rec.stepProgress == StepPercent(chunksEmbedded, totalChunks)
      && rec.overallProgress == EmbeddingOverall(rec.stepProgress)
      && (0 <= chunksEmbedded <= totalChunks ==> 0.0 <= rec.stepProgress <= 100.0 && 50.0 <= rec.overallProgress <= 98.0)
  {
    UpdateProgress(store, workflowId, EmbeddingUpdatePatch(chunksEmbedded, totalChunks), now, writeOk)
  }

  /** `mark_workflow_success`: SUCCESS, both percentages 100, the result
      recorded and `completed_at` stamped. */
  function MarkWorkflowSuccess(store: Store, workflowId: string, result: Json, now: int, writeOk: bool)
    : (r: Result<(Store, Option<WorkflowProgress>)>)
    ensures r.Ok? && workflowId in store ==> workflowId in r.value.0
    ensures r.Ok? && workflowId in store ==>
      var rec := r.value.0[workflowId];
      rec.status == StatusSuccess && rec.stepProgress == 100.0 && rec.overallProgress == 100.0
      && rec.result == Some(result) && rec.completedAt == Some(now)
      && rec.errorMessage == store[workflowId].errorMessage
  {
    UpdateProgress(store, workflowId, SuccessPatch(result), now, writeOk)
  }

  /** `mark_workflow_failure`: FAILURE with the error recorded and
      `completed_at` stamped; neither percentage moves. */
  function MarkWorkflowFailure(store: Store, workflowId: string, error: string, now: int, writeOk: bool)
    : (r: Result<(Store, Option<WorkflowProgress>)>)
    ensures r.Ok? && workflowId in store ==> workflowId in r.value.0
    ensures r.Ok? && workflowId in store ==>
      var rec := r.value.0[workflowId];
      rec.status == StatusFailure && rec.errorMessage == Some(error) && rec.completedAt == Some(now)
      && rec.message == Some("Workflow failed: " + error)
      && rec.stepProgress == store[workflowId].stepProgress
      && rec.overallProgress == store[workflowId].overallProgress
  {
    UpdateProgress(store, workflowId, FailurePatch(error), now, writeOk)
  }

  // ---------------------------------------------------------------------
  // The phase helpers in pipeline order
  // ---------------------------------------------------------------------

  /** The rows after each patch of a sequence, applied one after another. */
  function Replay(rec: WorkflowProgress, patches: seq<Patch>, now: int): (rs: seq<WorkflowProgress>)
    ensures |rs| == |patches|
    ensures forall i | 0 <= i < |patches| && patches[i].overallProgress.Some? ::
      rs[i].overallProgress == patches[i].overallProgress.value
    ensures forall i | 0 <= i < |patches| && patches[i].status.Some? :: rs[i].status == patches[i].status.value
    ensures forall i | 0 <= i < |patches| && patches[i].completed :: rs[i].completedAt == Some(now)
    decreases |patches|
  {
    if |patches| == 0 then []
    else
      var first := Apply(rec, patches[0], now);
      var rest := Replay(first, patches[1..], now);
      assert forall i | 1 <= i < |patches| :: patches[i] == patches[1..][i - 1];
      [first] + rest
  }

  function ChunkingUpdates(totalFiles: int, chunking: seq<(int, int)>): (ps: seq<Patch>)
    ensures |ps| == |chunking|
    ensures forall i | 0 <= i < |chunking| :: ps[i] == ChunkingUpdatePatch(chunking[i].0, totalFiles, chunking[i].1)
  {
    seq(|chunking|, i requires 0 <= i < |chunking| => ChunkingUpdatePatch(chunking[i].0, totalFiles, chunking[i].1))
  }

  function EmbeddingUpdates(totalChunks: int, embedding: seq<int>): (ps: seq<Patch>)
    ensures |ps| == |embedding|
    ensures forall i | 0 <= i < |embedding| :: ps[i] == EmbeddingUpdatePatch(embedding[i], totalChunks)
  {
    seq(|embedding|, i requires 0 <= i < |embedding| => EmbeddingUpdatePatch(embedding[i], totalChunks))
  }

  /** The patches a successful run issues: chunking start, chunking updates,
      chunking complete, embedding start, embedding updates, success. */
  function PipelinePatches(totalFiles: int, chunking: seq<(int, int)>, totalChunks: int,
                           embedding: seq<int>, result: Json): seq<Patch>
  {
    [ChunkingStartPatch(totalFiles)]
    + ChunkingUpdates(totalFiles, chunking)
    + [ChunkingCompletePatch(totalChunks), EmbeddingStartPatch(totalChunks)]
    + EmbeddingUpdates(totalChunks, embedding)
    + [SuccessPatch(result)]
  }

  /** Counts of the successive updates of one phase: within the total and
      never falling. */
  predicate CountsRise(counts: seq<int>, total: int) {
    && (forall i | 0 <= i < |counts| :: 0 <= counts[i] <= total)
    && (forall i, j | 0 <= i < j < |counts| :: counts[i] <= counts[j])
  }

  /** The same for the `files_processed` of chunking updates. */
  predicate FilesRise(chunking: seq<(int, int)>, total: int) {
    && (forall i | 0 <= i < |chunking| :: 0 <= chunking[i].0 <= total)
    && (forall i, j | 0 <= i < j < |chunking| :: chunking[i].0 <= chunking[j].0)
  }

  predicate SetsOverall(ps: seq<Patch>) {
    forall i | 0 <= i < |ps| :: ps[i].overallProgress.Some?
  }

  /** The overall percentages a sequence of patches sets, in order. */
  function Overalls(ps: seq<Patch>): (vs: seq<real>)
    requires SetsOverall(ps)
    ensures |vs| == |ps| && forall i | 0 <= i < |ps| :: vs[i] == ps[i].overallProgress.value
  {
    seq(|ps|, i requires 0 <= i < |ps| => ps[i].overallProgress.value)
  }

  predicate Rising(vs: seq<real>) {
    forall i, j | 0 <= i < j < |vs| :: vs[i] <= vs[j]
  }

  predicate Within(vs: seq<real>, lo: real, hi: real) {
    forall i | 0 <= i < |vs| :: lo <= vs[i] <= hi
  }

  /** Two rising runs separated by a bound form one rising run. */
  lemma RisingConcat(a: seq<real>, b: seq<real>, m: real)
    requires Rising(a) && Rising(b)
    requires forall i | 0 <= i < |a| :: a[i] <= m
    requires forall i | 0 <= i < |b| :: m <= b[i]
    ensures Rising(a + b)
  {
    var c := a + b;
    forall i, j | 0 <= i < j < |c| ensures c[i] <= c[j] {
      if j < |a| {
        assert c[i] == a[i] && c[j] == a[j];
      } else if i >= |a| {
        assert c[i] == b[i - |a|] && c[j] == b[j - |a|];
      } else {
        assert c[i] == a[i] && c[j] == b[j - |a|];
      }
    }
  }

  lemma StepPercentMonotone(a: int, b: int, total: int)
    requires a <= b
    ensures StepPercent(a, total) <= StepPercent(b, total)
  {
    var m := Max(total, 1) as real;
    assert a as real / m <= b as real / m;
  }

  /** Chunking updates with rising file counts report rising values in [5, 50]. */
  lemma ChunkingOverallsRise(totalFiles: int, chunking: seq<(int, int)>)
    requires FilesRise(chunking, totalFiles)
    ensures SetsOverall(ChunkingUpdates(totalFiles, chunking))
    ensures var vs := Overalls(ChunkingUpdates(totalFiles, chunking)); Rising(vs) && Within(vs, 5.0, 50.0)
  {
    var ps := ChunkingUpdates(totalFiles, chunking);
    assert SetsOverall(ps);
    var vs := Overalls(ps);
    forall i | 0 <= i < |vs| ensures vs[i] == ChunkingOverall(StepPercent(chunking[i].0, totalFiles)) {
    }
    forall i, j | 0 <= i < j < |vs| ensures vs[i] <= vs[j] {
      StepPercentMonotone(chunking[i].0, chunking[j].0, totalFiles);
    }
  }

  /** Embedding updates with rising chunk counts report rising values in [50, 98]. */
  lemma EmbeddingOverallsRise(totalChunks: int, embedding: seq<int>)
    requires CountsRise(embedding, totalChunks)
    ensures SetsOverall(EmbeddingUpdates(totalChunks, embedding))
    ensures var vs := Overalls(EmbeddingUpdates(totalChunks, embedding)); Rising(vs) && Within(vs, 50.0, 98.0)
  {
    var ps := EmbeddingUpdates(totalChunks, embedding);
    assert SetsOverall(ps);
    var vs := Overalls(ps);
    forall i | 0 <= i < |vs| ensures vs[i] == EmbeddingOverall(StepPercent(embedding[i], totalChunks)) {
    }
    forall i, j | 0 <= i < j < |vs| ensures vs[i] <= vs[j] {
      StepPercentMonotone(embedding[i], embedding[j], totalChunks);
    }
  }

  lemma OverallsConcat(a: seq<Patch>, b: seq<Patch>)
    requires SetsOverall(a) && SetsOverall(b)
    ensures SetsOverall(a + b) && Overalls(a + b) == Overalls(a) + Overalls(b)
  {
    assert SetsOverall(a + b) by {
      forall i | 0 <= i < |a + b| ensures (a + b)[i].overallProgress.Some? {
        if i < |a| { assert (a + b)[i] == a[i]; } else { assert (a + b)[i] == b[i - |a|]; }
      }
    }
  }

  /** The overall values the pipeline sets rise from 5 to 100. */
  lemma PipelineOverallsRise(totalFiles: int, chunking: seq<(int, int)>, totalChunks: int,
                             embedding: seq<int>, result: Json)
    requires FilesRise(chunking, totalFiles)
    requires CountsRise(embedding, totalChunks)
    ensures SetsOverall(PipelinePatches(totalFiles, chunking, totalChunks, embedding, result))
    ensures Rising(Overalls(PipelinePatches(totalFiles, chunking, totalChunks, embedding, result)))
  {
    var A := [ChunkingStartPatch(totalFiles)];
    var B := ChunkingUpdates(totalFiles, chunking);
    var C := [ChunkingCompletePatch(totalChunks), EmbeddingStartPatch(totalChunks)];
    var D := EmbeddingUpdates(totalChunks, embedding);
    var E := [SuccessPatch(result)];
    ChunkingOverallsRise(totalFiles, chunking);
    EmbeddingOverallsRise(totalChunks, embedding);
    assert SetsOverall(A) && SetsOverall(C) && SetsOverall(E);
    assert Overalls(A) == [5.0];
    assert Overalls(C) == [50.0, 50.0];
    assert Overalls(E) == [100.0];
    OverallsConcat(A, B);
    RisingConcat(Overalls(A), Overalls(B), 5.0);
    OverallsConcat(A + B, C);
    RisingConcat(Overalls(A + B), Overalls(C), 50.0);
    OverallsConcat(A + B + C, D);
    RisingConcat(Overalls(A + B + C), Overalls(D), 50.0);
    OverallsConcat(A + B + C + D, E);
    RisingConcat(Overalls(A + B + C + D), Overalls(E), 100.0);
  }

  /** Stored overall values never fall, and the last row is a success at
      100% stamped `completed_at`. */
  predicate RisesToSuccess(rs: seq<WorkflowProgress>, now: int) {
    && |rs| > 0
    && (forall i, j | 0 <= i < j < |rs| :: rs[i].overallProgress <= rs[j].overallProgress)
    && rs[|rs| - 1].overallProgress == 100.0
    && rs[|rs| - 1].status == StatusSuccess
    && rs[|rs| - 1].completedAt == Some(now)
  }

  /** Replaying patches whose overall values rise, ending with the success
      patch, stores rising values up to a success. */
  lemma ReplayRisesToSuccess(rec: WorkflowProgress, ps: seq<Patch>, now: int, result: Json)
    requires SetsOverall(ps) && Rising(Overalls(ps))
    requires |ps| > 0 && ps[|ps| - 1] == SuccessPatch(result)
    ensures RisesToSuccess(Replay(rec, ps, now), now)
  {
    var rs := Replay(rec, ps, now);
    var vs := Overalls(ps);
    forall i, j | 0 <= i < j < |rs| ensures rs[i].overallProgress <= rs[j].overallProgress {
      assert rs[i].overallProgress == vs[i] && rs[j].overallProgress == vs[j];
    }
  }

  /** The pipeline ends with the success patch. */
  lemma PipelineEndsWithSuccess(totalFiles: int, chunking: seq<(int, int)>, totalChunks: int,
                                embedding: seq<int>, result: Json)
    ensures var ps := PipelinePatches(totalFiles, chunking, totalChunks, embedding, result);
      |ps| > 0 && ps[|ps| - 1] == SuccessPatch(result)
  {
  }

  /** Phase helpers called in pipeline order with rising counts within
      their totals make the stored overall percentage rise, and the run
      ends at 100% with status SUCCESS and `completed_at` stamped. */
  lemma PipelineProgressRises(rec: WorkflowProgress, totalFiles: int, chunking: seq<(int, int)>,
                              totalChunks: int, embedding: seq<int>, result: Json, now: int)
    requires FilesRise(chunking, totalFiles)
    requires CountsRise(embedding, totalChunks)
    ensures RisesToSuccess(Replay(rec, PipelinePatches(totalFiles, chunking, totalChunks, embedding, result), now), now)
  {
    var ps := PipelinePatches(totalFiles, chunking, totalChunks, embedding, result);
    PipelineOverallsRise(totalFiles, chunking, totalChunks, embedding, result);
    PipelineEndsWithSuccess(totalFiles, chunking, totalChunks, embedding, result);
    ReplayRisesToSuccess(rec, ps, now, result);
  }


  /** The store does not keep status forward-only: a chunking start after
      success puts the row back to CHUNKING. */
  lemma StatusCanGoBack(rec: WorkflowProgress, result: Json, files: int, t1: int, t2: int)
    ensures Apply(Apply(rec, SuccessPatch(result), t1), ChunkingStartPatch(files), t2).status == StatusChunking
  {
  }

  /** Nor is `completed_at` written once: a failure after success re-stamps it. */
  lemma CompletedAtCanMove(rec: WorkflowProgress, result: Json, error: string, t1: int, t2: int)
    ensures Apply(Apply(rec, SuccessPatch(result), t1), FailurePatch(error), t2).completedAt == Some(t2)
  {
  }

  // ---------------------------------------------------------------------
  // Active workflows of a project
  // ---------------------------------------------------------------------

  predicate Active(rec: WorkflowProgress, projectId: int) {
    rec.projectId == projectId && rec.status != StatusSuccess && rec.status != StatusFailure
  }

  predicate NewestFirst(rs: seq<WorkflowProgress>) {
    forall i, j | 0 <= i < j < |rs| :: rs[i].createdAt >= rs[j].createdAt
  }

  /** Insert into a newest-first list, keeping it newest first. */
  function InsertByCreated(rec: WorkflowProgress, rs: seq<WorkflowProgress>): (r: seq<WorkflowProgress>)
    requires NewestFirst(rs)
    ensures NewestFirst(r)
    ensures |r| == |rs| + 1 && (r[0] == rec || (|rs| > 0 && r[0] == rs[0]))
    decreases |rs|
  {
    if |rs| == 0 then [rec]
    else if rec.createdAt >= rs[0].createdAt then [rec] + rs
    else
      var rest := InsertByCreated(rec, rs[1..]);
      assert rest[0].createdAt <= rs[0].createdAt;
      [rs[0]] + rest
  }

  /** The insertion adds exactly the new row. */
  lemma {:induction false} InsertByCreatedContents(rec: WorkflowProgress, rs: seq<WorkflowProgress>)
    requires NewestFirst(rs)
    ensures multiset(InsertByCreated(rec, rs)) == multiset(rs) + multiset{rec}
    decreases |rs|
  {
    if |rs| > 0 && rec.createdAt < rs[0].createdAt {
      InsertByCreatedContents(rec, rs[1..]);
      assert rs == [rs[0]] + rs[1..];
    }
  }


  /** Every row collected is the store's row for its key, was visited and
      is active. */
  predicate CollectedSound(store: Store, projectId: int, todo: set<string>, rs: seq<WorkflowProgress>) {
    forall x | x in multiset(rs) ::
      x.workflowId in store && store[x.workflowId] == x && x.workflowId !in todo && Active(x, projectId)
  }

  /** Every active row visited was collected. */
  predicate CollectedComplete(store: Store, projectId: int, todo: set<string>, rs: seq<WorkflowProgress>) {
    forall w | w in store && w !in todo && Active(store[w], projectId) :: store[w] in multiset(rs)
  }

  /** No row is collected twice. */
  predicate Once(rs: seq<WorkflowProgress>) {
    forall x | x in multiset(rs) :: multiset(rs)[x] == 1
  }

  /** The scan so far. */
  predicate Collected(store: Store, projectId: int, todo: set<string>, rs: seq<WorkflowProgress>) {
    CollectedSound(store, projectId, todo, rs) && CollectedComplete(store, projectId, todo, rs) && Once(rs)
  }

  lemma CollectSoundStep(store: Store, projectId: int, todo: set<string>, rs: seq<WorkflowProgress>,
                         rec: WorkflowProgress, next: seq<WorkflowProgress>)
    requires CollectedSound(store, projectId, todo, rs)
    requires rec.workflowId in todo && rec.workflowId in store && store[rec.workflowId] == rec && Active(rec, projectId)
    requires multiset(next) == multiset(rs) + multiset{rec}
    ensures CollectedSound(store, projectId, todo - {rec.workflowId}, next)
  {
  }

  lemma CollectCompleteStep(store: Store, projectId: int, todo: set<string>, rs: seq<WorkflowProgress>,
                            rec: WorkflowProgress, next: seq<WorkflowProgress>)
    requires CollectedComplete(store, projectId, todo, rs)
    requires rec.workflowId in store && store[rec.workflowId] == rec
    requires multiset(next) == multiset(rs) + multiset{rec}
    ensures CollectedComplete(store, projectId, todo - {rec.workflowId}, next)
  {
  }

  lemma OnceStep(rs: seq<WorkflowProgress>, rec: WorkflowProgress, next: seq<WorkflowProgress>)
    requires Once(rs) && rec !in multiset(rs)
    requires multiset(next) == multiset(rs) + multiset{rec}
    ensures Once(next)
  {
    forall x | x in multiset(next) ensures multiset(next)[x] == 1 {
      if x != rec {
        assert multiset(next)[x] == multiset(rs)[x];
      }
    }
  }

  /** Visiting one more key keeps the scan's invariant. */
  lemma CollectStep(store: Store, projectId: int, todo: set<string>, rs: seq<WorkflowProgress>, w: string)
    requires Keyed(store) && w in todo && todo <= store.Keys
    requires NewestFirst(rs) && Collected(store, projectId, todo, rs)
    ensures var next := if Active(store[w], projectId) then InsertByCreated(store[w], rs) else rs;
      NewestFirst(next) && Collected(store, projectId, todo - {w}, next)
  {
    var rec := store[w];
    assert rec.workflowId == w;
    if Active(rec, projectId) {
      assert rec !in multiset(rs);
      var next := InsertByCreated(rec, rs);
      InsertByCreatedContents(rec, rs);
      CollectSoundStep(store, projectId, todo, rs, rec, next);
      CollectCompleteStep(store, projectId, todo, rs, rec, next);
      OnceStep(rs, rec, next);
    }
  }

  /** A finished scan collected exactly the active rows of the project. */
  lemma CollectedAll(store: Store, projectId: int, rs: seq<WorkflowProgress>)
    requires Collected(store, projectId, {}, rs)
    ensures forall i | 0 <= i < |rs| :: rs[i].workflowId in store && store[rs[i].workflowId] == rs[i]
    ensures forall i | 0 <= i < |rs| :: Active(rs[i], projectId)
    ensures forall w | w in store && Active(store[w], projectId) :: store[w] in rs
  {
    forall i | 0 <= i < |rs|
      ensures rs[i].workflowId in store && store[rs[i].workflowId] == rs[i] && Active(rs[i], projectId)
    {
      assert rs[i] in multiset(rs);
    }
  }

  /** `get_project_active_workflows`: the project's rows whose status is
      neither SUCCESS nor FAILURE, each exactly once, newest `created_at` first. */
  method GetProjectActiveWorkflows(store: Store, projectId: int) returns (rs: seq<WorkflowProgress>)
    requires Keyed(store)
    ensures NewestFirst(rs)
    ensures forall i | 0 <= i < |rs| :: rs[i].workflowId in store && store[rs[i].workflowId] == rs[i]
    ensures forall i | 0 <= i < |rs| :: Active(rs[i], projectId)
    ensures forall w | w in store && Active(store[w], projectId) :: store[w] in rs
    ensures forall x | x in multiset(rs) :: multiset(rs)[x] == 1
  {
    var todo := store.Keys;
    rs := [];
    while todo != {}
      invariant todo <= store.Keys
      invariant NewestFirst(rs) && Collected(store, projectId, todo, rs)
      decreases |todo|
    {
      var w :| w in todo;
      CollectStep(store, projectId, todo, rs, w);
      if Active(store[w], projectId) {
        rs := InsertByCreated(store[w], rs);
      }
      todo := todo - {w};
    }
    CollectedAll(store, projectId, rs);
  }

  // ---------------------------------------------------------------------
  // calculate_overall_progress
  // ---------------------------------------------------------------------

  /** `calculate_overall_progress`: steps before the current one count in
      full, the current one by its percentage, capped at 100. */
  function CalculateOverallProgress(stepNumber: int, totalSteps: int, stepProgress: real): (r: real)
    ensures totalSteps == 0 ==> r == 0.0
    ensures r <= 100.0
    ensures totalSteps > 0 && 1 <= stepNumber && 0.0 <= stepProgress ==> 0.0 <= r
  {
    if totalSteps == 0 then 0.0
    else
      var weight := 100.0 / totalSteps as real;
      var done := (stepNumber - 1) as real * weight;
      var current := (stepProgress / 100.0) * weight;
      assert totalSteps > 0 && 1 <= stepNumber && 0.0 <= stepProgress ==> 0.0 <= done && 0.0 <= current;
      if done + current <= 100.0 then done + current else 100.0
  }

  /** Finishing one step and starting the next report the same overall value. */
  lemma OverallProgressContinuous(k: int, totalSteps: int)
    requires totalSteps > 0
    ensures CalculateOverallProgress(k, totalSteps, 100.0) == CalculateOverallProgress(k + 1, totalSteps, 0.0)
  {
  }

  /** More progress within a step never lowers the overall value. */
  lemma OverallProgressMonotone(k: int, totalSteps: int, a: real, b: real)
    requires totalSteps > 0 && a <= b
    ensures CalculateOverallProgress(k, totalSteps, a) <= CalculateOverallProgress(k, totalSteps, b)
  {
    var w := 100.0 / totalSteps as real;
    assert (a / 100.0) * w <= (b / 100.0) * w;
  }

  /** The last step at 100% reports exactly 100. */
  lemma OverallProgressComplete(totalSteps: int)
    requires totalSteps > 0
    ensures CalculateOverallProgress(totalSteps, totalSteps, 100.0) == 100.0
  {
    var w := 100.0 / totalSteps as real;
    assert (totalSteps - 1) as real * w + w == totalSteps as real * w == 100.0;
  }
}

=== FILE: rag_answer.dfy ===
/** The fixed texts of the question-answering controller. */
module RagWords {
  /** The request for a standalone search query; the latest message follows it. */
  const RefinementHead: string :=
    "Given the following conversation history and the latest user message, rephrase the user message to be a standalone search query that can be used to retrieve relevant documents. Only return the search query and nothing else.\n\nLatest message: "

  /** The no-data reply: the query goes between these two texts. */
  const NoDataHead: string :=
    "I cannot find relevant information in the provided documents to answer your query.\n\n**Query:** "
  const NoDataTail: string :=
    "\n\n**Recommendation:** \nPlease try:\n- Rephrasing your question\n- Using different keywords\n- Ensuring the relevant log files have been uploaded and processed\n- Uploading additional log files\n\nI can only answer based on the log data that has been uploaded and indexed."

  /** The document-count line: the count goes after the head and after the middle. */
  const CountHead: string := "[You have access to "
  const CountMiddle: string := " document(s). Reference them as Document No: 1 through "
  const CountTail: string := ".]"

  const CollectionPrefix: string := "collection_"

  lemma CollectionPrefixShape()
    ensures |CollectionPrefix| == 11 && CollectionPrefix[0] == 'c'
  {
  }
}

/**
  The question-answering controller: the name of a project's vector
  collection, the semantic search behind a question, and the control flow
  of answering a question from retrieved log chunks (query refinement from
  the chat history, the prompt built from the documents, the history the
  answer is recorded in, and the fall-backs when nothing is found or the
  generation fails). The embedding model, the vector store and the chat
  completion are parameters: what each would return, or that it would
  raise.
*/
module RagAnswer {
  import opened Wrappers
  import opened Text
  import opened Json
  import opened GroqProvider
  import opened RagWords

  // ---------------------------------------------------------------------
  // Collection names
  // ---------------------------------------------------------------------

  /** `create_collection_name`: the prefix, the store's vector size, an
      underscore and the project id, stripped. */
  function CollectionName(vectorSize: int, projectId: string): (r: string)
    ensures Stripped(r)
    ensures Stripped(projectId) ==> r == CollectionPrefix + IntToString(vectorSize) + "_" + projectId
  {
    var s := CollectionPrefix + IntToString(vectorSize) + "_" + projectId;
    assert Stripped(projectId) ==> Strip(s) == s by {
      if Stripped(projectId) {
        CollectionPrefixShape();
        assert s[0] == 'c';
        assert projectId == [] ==> s[|s| - 1] == '_';
        assert projectId != [] ==> s[|s| - 1] == projectId[|projectId| - 1];
        StripOfStripped(s);
      }
    }
    Strip(s)
  }

  lemma IntToStringHasNoUnderscore(n: int)
    ensures '_' !in IntToString(n)
  {
    var s := IntToString(n);
    if n < 0 {
      assert s == "-" + NatToString(-n);
      assert forall i | 1 <= i < |s| :: s[i] == NatToString(-n)[i - 1];
    }
  }

  /** Two texts that agree after a common head agree. */
  lemma DropCommonHead(x: string, u: string, v: string)
    requires x + u == x + v
    ensures u == v
  {
    assert u == (x + u)[|x|..];
    assert v == (x + v)[|x|..];
  }

  lemma AppendAssoc4(w: string, x: string, y: string, z: string)
    ensures w + x + y + z == w + (x + y + z)
  {
  }

  /** Splitting at the first underscore recovers both sides. */
  lemma SplitAtUnderscore(s1: string, p: string, s2: string, q: string)
    requires '_' !in s1 && '_' !in s2
    requires s1 + "_" + p == s2 + "_" + q
    ensures s1 == s2 && p == q
  {
    var t := s1 + "_" + p;
    assert t[|s1|] == '_';
    assert (s2 + "_" + q)[|s2|] == '_';
    assert forall k | 0 <= k < |s1| :: t[k] == s1[k];
    assert forall k | 0 <= k < |s2| :: t[k] == s2[k];
    assert |s1| == |s2|;
    assert s1 == t[..|s1|];
    assert s2 == t[..|s2|];
    assert p == t[|s1| + 1..];
    assert q == (s2 + "_" + q)[|s2| + 1..];
  }

  /** Distinct projects, or distinct vector sizes, never share a
      collection (for project ids without surrounding whitespace). */
  lemma CollectionNameInjective(a: int, p: string, b: int, q: string)
    requires Stripped(p) && Stripped(q)
    requires CollectionName(a, p) == CollectionName(b, q)
    ensures a == b && p == q
  {
    var sa, sb := IntToString(a), IntToString(b);
    AppendAssoc4(CollectionPrefix, sa, "_", p);
    AppendAssoc4(CollectionPrefix, sb, "_", q);
    DropCommonHead(CollectionPrefix, sa + "_" + p, sb + "_" + q);
    IntToStringHasNoUnderscore(a);
    IntToStringHasNoUnderscore(b);
    SplitAtUnderscore(sa, p, sb, q);
    IntToStringInjective(a, b);
  }

  // ---------------------------------------------------------------------
  // Collaborators
  // ---------------------------------------------------------------------

  /** A hit of the vector store. */
  datatype Retrieved = Retrieved(text: string, score: real)

  /** The controller's collaborators, each by what it answers: the
      generation provider with the replies of its two chat completions
      (query refinement, then the answer), the embedding of a text (a
      list of vectors, `None`, or an error), the store's search, and the
      store's default vector size. */
  datatype Clients = Clients(
    provider: Provider,
    refineReply: Result<Option<string>>,
    answerReply: Result<Option<string>>,
    embed: string -> Result<Option<seq<seq<real>>>>,
    search: (string, seq<real>, int) -> Result<seq<Retrieved>>,
    vectorSize: int)

  /** The three rag templates, by what they render. */
  datatype Templates = Templates(
    systemPrompt: string,
    documentPrompt: (nat, string) -> string,
    footerPrompt: string -> string)

  // ---------------------------------------------------------------------
  // Search
  // ---------------------------------------------------------------------

  /** An embedding the search can use: a non-empty list whose first vector
      is non-empty. */
  predicate UsableEmbedding(e: Option<seq<seq<real>>>) {
    e.Some? && |e.value| > 0 && |e.value[0]| > 0
  }

  /** `search_vector_db_collection`: `Ok(None)` stands for its `False`,
      `Err` for an exception of the embedding or of the store. */
  function SearchVectorDbCollection(c: Clients, projectId: string, text: string, limit: int)
    : (r: Result<Option<seq<Retrieved>>>)
    ensures r.Ok? && r.value.Some? ==>
      && c.embed(text).Ok? && UsableEmbedding(c.embed(text).value)
      && |r.value.value| > 0
      && c.search(CollectionName(c.vectorSize, projectId), c.embed(text).value.value[0], limit) == Ok(r.value.value)
    ensures c.embed(text).Ok? && !UsableEmbedding(c.embed(text).value) ==> r == Ok(None)
    ensures r.Err? <==>
      || c.embed(text).Err?
      || (UsableEmbedding(c.embed(text).value)
          && c.search(CollectionName(c.vectorSize, projectId), c.embed(text).value.value[0], limit).Err?)
  {
    match c.embed(text)
    case Err(e) => Err(e)
    case Ok(vector) =>
      if !UsableEmbedding(vector) then Ok(None)
      else
        match c.search(CollectionName(c.vectorSize, projectId), vector.value[0], limit)
        case Err(e) => Err(e)
        case Ok(results) => if |results| == 0 then Ok(None) else Ok(Some(results))
  }

  // ---------------------------------------------------------------------
  // Answering
  // ---------------------------------------------------------------------

  /** `_construct_no_data_response`. */
  function NoDataResponse(query: string): (r: string)
    ensures StartsWith(r, NoDataHead) && SubstringAt(r, query, |NoDataHead|)
    ensures EndsWith(r, NoDataTail) && |r| == |NoDataHead| + |query| + |NoDataTail|
  {
    var r := NoDataHead + query + NoDataTail;
    assert r[..|NoDataHead|] == NoDataHead;
    assert r[|NoDataHead|..|NoDataHead| + |query|] == query;
    assert r[|r| - |NoDataTail|..] == NoDataTail;
    r
  }

  /** The query can be read back from a no-data reply. */
  lemma NoDataResponseInjective(a: string, b: string)
    requires NoDataResponse(a) == NoDataResponse(b)
    ensures a == b
  {
    var r := NoDataResponse(a);
    assert a == r[|NoDataHead|..|NoDataHead| + |a|];
    assert b == r[|NoDataHead|..|NoDataHead| + |b|];
  }

  /** A Python list is truthy when it is present and non-empty. */
  predicate HasHistory(history: Option<seq<Dict>>) {
    history.Some? && |history.value| > 0
  }

  /** `.strip().strip('"').strip("'")` of the refined query. */
  function Unquote(s: string): (r: string)
    ensures |r| <= |s|
    ensures r == [] || (r[0] != '\'' && r[|r| - 1] != '\'')
  {
    StripChar(StripChar(Strip(s), '"'), '\'')
  }

  /** Whether the refinement step yields a new query: the history has more
      than one message, a model is set and the completion answered
      something truthy. */
  predicate Refines(p: Provider, history: Option<seq<Dict>>, reply: Result<Option<string>>) {
    history.Some? && |history.value| > 1 && Truthy(p.generationModel) && reply.Ok? && Truthy(reply.value)
  }

  /** Step 0 of `answer_rag_question`: the search query. The refinement
      request runs on a copy of the history, so the caller's history is
      not touched; any failure keeps the query as asked. */
  function RefineQuery(p: Provider, query: string, history: Option<seq<Dict>>, reply: Result<Option<string>>)
    : (q: string)
    ensures Refines(p, history, reply) ==> q == Unquote(reply.value.value)
    ensures !Refines(p, history, reply) ==> q == query
  {
    if history.Some? && |history.value| > 1 then
      var g := GenerateText(p, RefinementHead + query, Some(history.value), reply);
      if g.outcome.Ok? && Truthy(g.outcome.value) then Unquote(g.outcome.value.value) else query
    else query
  }

  /** The document-count line for `n` documents. */
  function CountInfo(n: nat): string {
    CountHead + IntToString(n) + CountMiddle + IntToString(n) + CountTail
  }

  /** One rendered document prompt per hit, numbered from 1, each holding
      the hit's text as the provider clips it. */
  function DocumentPrompts(t: Templates, p: Provider, docs: seq<Retrieved>): (r: seq<string>)
    ensures |r| == |docs|
    ensures forall i | 0 <= i < |docs| :: r[i] == t.documentPrompt(i + 1, ProcessText(p, docs[i].text))
  {
    seq(|docs|, i requires 0 <= i < |docs| => t.documentPrompt(i + 1, ProcessText(p, docs[i].text)))
  }

  /** The prompt of step 3: the count line, the document prompts one per
      line, and the footer for the question as asked, separated by blank
      lines. */
  function FullPrompt(t: Templates, p: Provider, docs: seq<Retrieved>, query: string): (r: string)
    ensures StartsWith(r, CountInfo(|docs|) + "\n\n")
    ensures EndsWith(r, "\n\n" + t.footerPrompt(query))
    ensures forall i | 0 <= i < |docs| :: Contains(r, t.documentPrompt(i + 1, ProcessText(p, docs[i].text)))
  {
    var parts := DocumentPrompts(t, p, docs);
    var body := Join(parts, "\n");
    PartsInJoin(parts, "\n");
    JoinThreeParts(CountInfo(|docs|), body, t.footerPrompt(query), "\n\n");
    Join([CountInfo(|docs|), body, t.footerPrompt(query)], "\n\n")
  }

  /** Each piece of a join occurs in it. */
  lemma PartsInJoin(parts: seq<string>, sep: string)
    ensures forall i | 0 <= i < |parts| :: Contains(Join(parts, sep), parts[i])
  {
    forall i | 0 <= i < |parts| ensures Contains(Join(parts, sep), parts[i]) {
      assert SubstringAt(parts[i], parts[i], 0);
      ContainsWitness(parts[i], parts[i], 0);
      ContainsInJoin(parts, sep, i, parts[i]);
    }
  }

  /** A three-piece join starts with its first piece and the separator,
      ends with the separator and its last piece, and contains whatever
      its middle piece contains. */
  lemma JoinThreeParts(a: string, b: string, c: string, sep: string)
    ensures StartsWith(Join([a, b, c], sep), a + sep)
    ensures EndsWith(Join([a, b, c], sep), sep + c)
    ensures forall sub | Contains(b, sub) :: Contains(Join([a, b, c], sep), sub)
  {
    var r := Join([a, b, c], sep);
    assert [a, b, c][1..] == [b, c];
    assert [b, c][1..] == [c];
    assert Join([c], sep) == c;
    assert Join([b, c], sep) == b + sep + c;
    assert r == a + sep + b + sep + c;
    assert r[..|a + sep|] == a + sep;
    assert r[|r| - |sep + c|..] == sep + c;
    forall sub | Contains(b, sub) ensures Contains(r, sub) {
      assert [a, b, c][1] == b;
      ContainsInJoin([a, b, c], sep, 1, sub);
    }
  }

  /** The history handed to the generation: the caller's when it is
      truthy, otherwise a fresh one holding the system prompt only. */
  function SeedHistory(history: Option<seq<Dict>>, systemPrompt: string): (h: seq<Dict>)
    ensures HasHistory(history) ==> h == history.value
    ensures !HasHistory(history) ==> h == [ConstructPrompt(systemPrompt, SystemRole)]
  {
    if HasHistory(history) then history.value else [ConstructPrompt(systemPrompt, SystemRole)]
  }

  /** The result triple of `answer_rag_question`. */
  datatype RagAnswer = RagAnswer(answer: Option<string>, fullPrompt: Option<string>, history: Option<seq<Dict>>)

  /** Steps 3 and 4: the generation on the seeded history and the answer
      it yields. An empty completion becomes the no-data reply; a
      successful one is recorded as the question as asked and the answer. */
  function Generate(p: Provider, answerReply: Result<Option<string>>, full: string, query: string,
                    seeded: seq<Dict>): (a: RagAnswer)
    ensures a.fullPrompt == Some(full)
    ensures a.history.Some? && seeded <= a.history.value
    ensures a.answer.None? <==> !Truthy(p.generationModel) || answerReply.Err?
    ensures a.answer.Some? && Truthy(answerReply.value) ==>
      && a.answer == answerReply.value
      && a.history.value == seeded + [UserMessage(p, full),
                                      ConstructPrompt(query, UserRole),
                                      ConstructPrompt(a.answer.value, AssistantRole)]
    ensures a.answer.Some? && !Truthy(answerReply.value) ==>
      && a.answer == Some(NoDataResponse(query))
      && a.history.value == seeded + [UserMessage(p, full)]
  {
    var g := GenerateText(p, full, Some(seeded), answerReply);
    if g.outcome.Err? then RagAnswer(None, Some(full), g.history)
    else if !Truthy(g.outcome.value) then RagAnswer(Some(NoDataResponse(query)), Some(full), g.history)
    else
      var answer := g.outcome.value.value;
      var turn := [ConstructPrompt(query, UserRole), ConstructPrompt(answer, AssistantRole)];
      assert g.history.value + turn == seeded + [UserMessage(p, full)] + turn;
      RagAnswer(Some(answer), Some(full), Some(g.history.value + turn))
  }

  /** Steps 2 to 4, once documents were found: the prompt from the
      documents, then the generation on the seeded history. */
  function AnswerFromDocuments(c: Clients, t: Templates, docs: seq<Retrieved>, query: string,
                               history: Option<seq<Dict>>): (a: RagAnswer)
  {
    Generate(c.provider, c.answerReply, FullPrompt(t, c.provider, docs, query), query,
             SeedHistory(history, t.systemPrompt))
  }

  /** `answer_rag_question`: refine the query, search with it, then answer
      from the documents found. An exception of the search or of the
      generation yields no answer and whatever prompt and history exist at
      that point. */
  function AnswerRagQuestion(c: Clients, t: Templates, projectId: string, query: string, limit: int,
                             history: Option<seq<Dict>>): (a: RagAnswer)
    ensures var found := SearchVectorDbCollection(c, projectId, RefineQuery(c.provider, query, history, c.refineReply), limit);
      && (a.fullPrompt.Some? <==> found.Ok? && found.value.Some?)
      && (a.fullPrompt.None? ==> a.history == history)
      && (a.answer.None? <==>
            found.Err? || (found.value.Some? && (!Truthy(c.provider.generationModel) || c.answerReply.Err?)))
  {
    var q := RefineQuery(c.provider, query, history, c.refineReply);
    AnswerFromSearch(c, t, SearchVectorDbCollection(c, projectId, q, limit), query, history)
  }

  /** Steps 2 to 4 once the search has run: nothing to answer from after a
      failed search, the no-data reply when nothing was found. */
  function AnswerFromSearch(c: Clients, t: Templates, found: Result<Option<seq<Retrieved>>>, query: string,
                            history: Option<seq<Dict>>): (a: RagAnswer)
    ensures a.fullPrompt.Some? <==> found.Ok? && found.value.Some?
    ensures a.fullPrompt.None? ==> a.history == history
    ensures a.answer.None? <==>
      found.Err? || (found.value.Some? && (!Truthy(c.provider.generationModel) || c.answerReply.Err?))
    ensures a.fullPrompt.None? && a.answer.Some? ==> a.answer == Some(NoDataResponse(query))
  {
    if found.Err? then RagAnswer(None, None, history)
    else if found.value.None? then RagAnswer(Some(NoDataResponse(query)), None, history)
    else AnswerFromDocuments(c, t, found.value.value, query, history)
  }

  /** A real answer closes the history with the question and the answer. */
  lemma GenerateCloses(p: Provider, answerReply: Result<Option<string>>, full: string, query: string,
                       seeded: seq<Dict>)
    ensures var a := Generate(p, answerReply, full, query, seeded);
      a.answer.Some? && a.answer != Some(NoDataResponse(query)) ==>
        && |a.history.value| >= 2
        && a.history.value[|a.history.value| - 2] == ConstructPrompt(query, UserRole)
        && a.history.value[|a.history.value| - 1] == ConstructPrompt(a.answer.value, AssistantRole)
  {
    var a := Generate(p, answerReply, full, query, seeded);
    if a.answer.Some? && Truthy(answerReply.value) {
      var tail := [UserMessage(p, full), ConstructPrompt(query, UserRole),
                   ConstructPrompt(a.answer.value, AssistantRole)];
      assert a.history.value == seeded + tail;
      assert a.history.value[|a.history.value| - 2] == tail[1];
      assert a.history.value[|a.history.value| - 1] == tail[2];
    }
  }

  /** The seeded history starts with the system message when the caller's
      was falsy. */
  lemma GenerateSeeded(p: Provider, answerReply: Result<Option<string>>, full: string, query: string,
                       history: Option<seq<Dict>>, systemPrompt: string)
    ensures var a := Generate(p, answerReply, full, query, SeedHistory(history, systemPrompt));
      && (HasHistory(history) ==> history.value <= a.history.value)
      && (!HasHistory(history) ==>
            |a.history.value| > 0 && a.history.value[0] == ConstructPrompt(systemPrompt, SystemRole))
  {
    var seeded := SeedHistory(history, systemPrompt);
    var a := Generate(p, answerReply, full, query, seeded);
    assert seeded <= a.history.value;
    assert !HasHistory(history) ==> a.history.value[0] == seeded[0];
  }

  /** The history after answering from documents: the caller's truthy
      history or the fresh system message comes first, and a real answer
      closes it with the question as asked and the answer. */
  lemma DocumentsHistory(c: Clients, t: Templates, docs: seq<Retrieved>, query: string, history: Option<seq<Dict>>)
    ensures var a := AnswerFromDocuments(c, t, docs, query, history);
      && a.fullPrompt.Some? && a.history.Some?
      && (HasHistory(history) ==> history.value <= a.history.value)
      && (!HasHistory(history) ==>
            |a.history.value| > 0 && a.history.value[0] == ConstructPrompt(t.systemPrompt, SystemRole))
      && (a.answer.Some? && a.answer != Some(NoDataResponse(query)) ==>
            && |a.history.value| >= 2
            && a.history.value[|a.history.value| - 2] == ConstructPrompt(query, UserRole)
            && a.history.value[|a.history.value| - 1] == ConstructPrompt(a.answer.value, AssistantRole))
  {
    var full := FullPrompt(t, c.provider, docs, query);
    GenerateCloses(c.provider, c.answerReply, full, query, SeedHistory(history, t.systemPrompt));
    GenerateSeeded(c.provider, c.answerReply, full, query, history, t.systemPrompt);
  }

  /** What a caller sees of the history: untouched when no prompt was
      built, extended and never rewritten otherwise, seeded with the system
      message when it was falsy, and closed by the question and the answer
      whenever a real answer came back. */
  lemma AnswerHistory(c: Clients, t: Templates, projectId: string, query: string, limit: int,
                      history: Option<seq<Dict>>)
    ensures var a := AnswerRagQuestion(c, t, projectId, query, limit, history);
      && (HasHistory(history) ==> a.history.Some? && history.value <= a.history.value)
      && (a.fullPrompt.Some? && !HasHistory(history) ==>
            a.history.Some? && |a.history.value| > 0
            && a.history.value[0] == ConstructPrompt(t.systemPrompt, SystemRole))
      && (a.answer.Some? && a.answer != Some(NoDataResponse(query)) ==>
            && a.fullPrompt.Some? && a.history.Some? && |a.history.value| >= 2
            && a.history.value[|a.history.value| - 2] == ConstructPrompt(query, UserRole)
            && a.history.value[|a.history.value| - 1] == ConstructPrompt(a.answer.value, AssistantRole))
  {
    var q := RefineQuery(c.provider, query, history, c.refineReply);
    FromSearchHistory(c, t, SearchVectorDbCollection(c, projectId, q, limit), query, history);
  }

  lemma FromSearchHistory(c: Clients, t: Templates, found: Result<Option<seq<Retrieved>>>, query: string,
                          history: Option<seq<Dict>>)
    ensures var a := AnswerFromSearch(c, t, found, query, history);
      && (HasHistory(history) ==> a.history.Some? && history.value <= a.history.value)
      && (a.fullPrompt.Some? && !HasHistory(history) ==>
            a.history.Some? && |a.history.value| > 0
            && a.history.value[0] == ConstructPrompt(t.systemPrompt, SystemRole))
      && (a.answer.Some? && a.answer != Some(NoDataResponse(query)) ==>
            && a.fullPrompt.Some? && a.history.Some? && |a.history.value| >= 2
            && a.history.value[|a.history.value| - 2] == ConstructPrompt(query, UserRole)
            && a.history.value[|a.history.value| - 1] == ConstructPrompt(a.answer.value, AssistantRole))
  {
    if found.Ok? && found.value.Some? {
      assert AnswerFromSearch(c, t, found, query, history) == AnswerFromDocuments(c, t, found.value.value, query, history);
      DocumentsHistory(c, t, found.value.value, query, history);
    }
  }

  /** With nothing retrieved, the reply is the no-data text for the query
      as asked, no prompt is built and the history comes back as given. */
  lemma NothingFoundAnswer(c: Clients, t: Templates, projectId: string, query: string, limit: int,
                           history: Option<seq<Dict>>)
    requires SearchVectorDbCollection(c, projectId, RefineQuery(c.provider, query, history, c.refineReply), limit)
               == Ok(None)
    ensures AnswerRagQuestion(c, t, projectId, query, limit, history)
              == RagAnswer(Some(NoDataResponse(query)), None, history)
  {
  }

  /** With an embedding client that never returns vectors (the Groq
      provider's `embed_text`), every question gets the no-data reply. */
  lemma NoEmbeddingsNoData(c: Clients, t: Templates, projectId: string, query: string, limit: int,
                           history: Option<seq<Dict>>)
    requires forall s :: c.embed(s) == Ok(EmbedText(c.provider, [s]))
    ensures AnswerRagQuestion(c, t, projectId, query, limit, history)
              == RagAnswer(Some(NoDataResponse(query)), None, history)
  {
    var q := RefineQuery(c.provider, query, history, c.refineReply);
    assert c.embed(q) == Ok(None);
    NothingFoundAnswer(c, t, projectId, query, limit, history);
  }

  /** A successful answer is recorded after the generated user message as
      the question as asked followed by the answer. */
  lemma AnswerTurnRecorded(c: Clients, t: Templates, projectId: string, query: string, limit: int,
                           history: Option<seq<Dict>>, docs: seq<Retrieved>)
    requires SearchVectorDbCollection(c, projectId, RefineQuery(c.provider, query, history, c.refineReply), limit)
               == Ok(Some(docs))
    requires Truthy(c.provider.generationModel) && c.answerReply.Ok? && Truthy(c.answerReply.value)
    ensures var a := AnswerRagQuestion(c, t, projectId, query, limit, history);
      var full := FullPrompt(t, c.provider, docs, query);
      && a.answer == c.answerReply.value
      && a.fullPrompt == Some(full)
      && a.history == Some(SeedHistory(history, t.systemPrompt)
                           + [UserMessage(c.provider, full),
                              ConstructPrompt(query, UserRole),
                              ConstructPrompt(c.answerReply.value.value, AssistantRole)])
  {
    var a := AnswerFromDocuments(c, t, docs, query, history);
    assert a.answer.Some?;
  }

  /** A failed generation (no model, or the completion raised) leaves no
      answer but reports the prompt that was built. */
  lemma GenerationFailureKeepsPrompt(c: Clients, t: Templates, projectId: string, query: string, limit: int,
                                     history: Option<seq<Dict>>, docs: seq<Retrieved>)
    requires SearchVectorDbCollection(c, projectId, RefineQuery(c.provider, query, history, c.refineReply), limit)
               == Ok(Some(docs))
    requires !Truthy(c.provider.generationModel) || c.answerReply.Err?
    ensures var a := AnswerRagQuestion(c, t, projectId, query, limit, history);
      a.answer.None? && a.fullPrompt == Some(FullPrompt(t, c.provider, docs, query))
  {
    var a := AnswerFromDocuments(c, t, docs, query, history);
    assert a.answer.None?;
  }

  /** An empty completion turns into the no-data reply, with the prompt
      and the history that holds the sent message. */
  lemma EmptyAnswerNoData(c: Clients, t: Templates, projectId: string, query: string, limit: int,
                          history: Option<seq<Dict>>, docs: seq<Retrieved>)
    requires SearchVectorDbCollection(c, projectId, RefineQuery(c.provider, query, history, c.refineReply), limit)
               == Ok(Some(docs))
    requires Truthy(c.provider.generationModel) && c.answerReply.Ok? && !Truthy(c.answerReply.value)
    ensures var a := AnswerRagQuestion(c, t, projectId, query, limit, history);
      var full := FullPrompt(t, c.provider, docs, query);
      && a.answer == Some(NoDataResponse(query))
      && a.fullPrompt == Some(full)
      && a.history == Some(SeedHistory(history, t.systemPrompt) + [UserMessage(c.provider, full)])
  {
    var a := AnswerFromDocuments(c, t, docs, query, history);
    assert a.answer.Some?;
  }
}

=== FILE: text.dfy ===
/** The Python `str` operations the source relies on, over `string` (a
    sequence of Unicode scalar values, so `|s|` agrees with Python's `len`):
    `strip`, `split` on one character, `join`, `in`, `find`, `replace`,
    `startswith`/`endswith` and the decimal rendering of an `int`. */
module Text {
  import opened Wrappers

  // ---------------------------------------------------------------------
  // Whitespace and strip()
  // ---------------------------------------------------------------------

  /** Python's `str.isspace()` for one character. */
  predicate IsSpace(c: char) {
    || c == ' '
    || ('\t' <= c <= '\r')
    || ('\U{1C}' <= c <= '\U{1F}')
    || c == '\U{85}' || c == '\U{A0}' || c == '\U{1680}'
    || ('\U{2000}' <= c <= '\U{200A}')
    || c == '\U{2028}' || c == '\U{2029}' || c == '\U{202F}'
    || c == '\U{205F}' || c == '\U{3000}'
  }

  predicate AllSpace(s: string) {
    forall i | 0 <= i < |s| :: IsSpace(s[i])
  }

  /** A string that `strip()` leaves alone. */
  predicate Stripped(s: string) {
    s == [] || (!IsSpace(s[0]) && !IsSpace(s[|s| - 1]))
  }

  function LeadingSpaces(s: string): (n: nat)
    ensures n <= |s|
    ensures forall i | 0 <= i < n :: IsSpace(s[i])
    ensures n < |s| ==> !IsSpace(s[n])
    decreases |s|
  {
    if |s| == 0 || !IsSpace(s[0]) then 0 else 1 + LeadingSpaces(s[1..])
  }

  function TrailingSpaces(s: string): (n: nat)
    ensures n <= |s|
    ensures forall i | |s| - n <= i < |s| :: IsSpace(s[i])
    ensures n < |s| ==> !IsSpace(s[|s| - n - 1])
    decreases |s|
  {
    if |s| == 0 || !IsSpace(s[|s| - 1]) then 0 else 1 + TrailingSpaces(s[..|s| - 1])
  }

  /** Python's `s.lstrip()`. */
  function StripLeft(s: string): (r: string)
    ensures r == s[LeadingSpaces(s)..]
    ensures r == [] || !IsSpace(r[0])
  {
    s[LeadingSpaces(s)..]
  }

  /** Python's `s.rstrip()`. */
  function StripRight(s: string): (r: string)
    ensures |r| <= |s| && r == s[..|r|]
    ensures forall i | |r| <= i < |s| :: IsSpace(s[i])
    ensures r == [] || !IsSpace(r[|r| - 1])
  {
    s[..|s| - TrailingSpaces(s)]
  }

  /** Python's `s.strip()`: the slice of `s` between its leading and
      trailing whitespace runs. */
  function Strip(s: string): (r: string)
    ensures Stripped(r)
    ensures LeadingSpaces(s) + |r| <= |s|
    ensures r == s[LeadingSpaces(s)..LeadingSpaces(s) + |r|]
    ensures forall i | LeadingSpaces(s) + |r| <= i < |s| :: IsSpace(s[i])
    ensures r == [] <==> AllSpace(s)
  {
    var t := StripLeft(s);
    var r := StripRight(t);
    assert Stripped(r) by {
      if r != [] {
        assert r[0] == t[0];
      }
    }
    assert forall i | LeadingSpaces(s) + |r| <= i < |s| :: IsSpace(s[i]) by {
      forall i | LeadingSpaces(s) + |r| <= i < |s| ensures IsSpace(s[i]) {
        assert s[i] == t[i - LeadingSpaces(s)];
      }
    }
    r
  }

  lemma {:induction false} LeadingSpacesOfStripped(s: string)
    requires Stripped(s)
    ensures LeadingSpaces(s) == 0
  {
  }

  lemma {:induction false} StripOfStripped(s: string)
    requires Stripped(s)
    ensures Strip(s) == s
  {
    LeadingSpacesOfStripped(s);
  }

  /** `strip()` is idempotent. */
  lemma StripIdempotent(s: string)
    ensures Strip(Strip(s)) == Strip(s)
  {
    StripOfStripped(Strip(s));
  }

  /** Python's `s.strip(c)` for a single character `c`. */
  function StripChar(s: string, c: char): (r: string)
    ensures |r| <= |s|
    ensures r == [] || (r[0] != c && r[|r| - 1] != c)
    decreases |s|
  {
    if |s| > 0 && s[0] == c then StripChar(s[1..], c)
    else if |s| > 0 && s[|s| - 1] == c then StripChar(s[..|s| - 1], c)
    else s
  }

  // ---------------------------------------------------------------------
  // Prefixes, suffixes and substrings
  // ---------------------------------------------------------------------

  predicate StartsWith(s: string, p: string) {
    |p| <= |s| && s[..|p|] == p
  }

  predicate EndsWith(s: string, p: string) {
    |p| <= |s| && s[|s| - |p|..] == p
  }

  /** `sub` occurs in `s` at position `i`. */
  predicate SubstringAt(s: string, sub: string, i: int) {
    0 <= i && i + |sub| <= |s| && s[i..i + |sub|] == sub
  }

  /** Python's `sub in s`. */
  predicate Contains(s: string, sub: string) {
    exists i | 0 <= i <= |s| - |sub| :: SubstringAt(s, sub, i)
  }

  lemma ContainsWitness(s: string, sub: string, i: int)
    requires SubstringAt(s, sub, i)
    ensures Contains(s, sub)
  {
  }

  /** An occurrence in a slice is an occurrence in the whole string. */
  lemma ContainsInSlice(s: string, sub: string, lo: int, hi: int)
    requires 0 <= lo <= hi <= |s|
    requires Contains(s[lo..hi], sub)
    ensures Contains(s, sub)
  {
    var t := s[lo..hi];
    var i :| 0 <= i <= |t| - |sub| && SubstringAt(t, sub, i);
    forall k | 0 <= k < |sub| ensures s[lo + i + k] == sub[k] {
      assert t[i..i + |sub|][k] == sub[k];
    }
    assert s[lo + i..lo + i + |sub|] == sub;
    ContainsWitness(s, sub, lo + i);
  }

  /** The stripped form of a tail of `s` is a piece of `s`. */
  lemma StripOfTailInside(s: string, lo: int)
    requires 0 <= lo <= |s|
    ensures Contains(s, Strip(s[lo..]))
  {
    var t := s[lo..];
    ContainsWitness(t, Strip(t), LeadingSpaces(t));
    assert s[lo..|s|] == t;
    ContainsInSlice(s, Strip(t), lo, |s|);
  }

  /** A slice of a string free of `sub` is free of `sub`. */
  lemma NotContainsSlice(s: string, sub: string, lo: int, hi: int)
    requires 0 <= lo <= hi <= |s|
    requires !Contains(s, sub)
    ensures !Contains(s[lo..hi], sub)
  {
    if Contains(s[lo..hi], sub) {
      ContainsInSlice(s, sub, lo, hi);
    }
  }
  /** Stripping cannot create an occurrence. */
  lemma StripAvoids(s: string, sub: string)
    requires !Contains(s, sub)
    ensures !Contains(Strip(s), sub)
  {
    NotContainsSlice(s, sub, LeadingSpaces(s), LeadingSpaces(s) + |Strip(s)|);
  }


  /** An occurrence of a `c`-free, non-empty `sub` in `a + [c] + b` lies
      wholly inside `a` or wholly inside `b`. */
  lemma {:induction false} NotContainsAcrossSeparator(a: string, c: char, b: string, sub: string)
    requires |sub| > 0 && c !in sub
    requires !Contains(a, sub) && !Contains(b, sub)
    ensures !Contains(a + [c] + b, sub)
  {
    var s := a + [c] + b;
    if Contains(s, sub) {
      var i :| 0 <= i <= |s| - |sub| && SubstringAt(s, sub, i);
      assert s[|a|] == c;
      OccurrenceAvoids(s, sub, i, |a|);
      if i + |sub| <= |a| {
        assert s[i..i + |sub|] == a[i..i + |sub|];
        ContainsWitness(a, sub, i);
      } else {
        assert s[i..i + |sub|] == b[i - |a| - 1..i - |a| - 1 + |sub|];
        ContainsWitness(b, sub, i - |a| - 1);
      }
    }
  }

  /** Every character of an occurrence comes from the word found. */
  lemma OccurrenceChars(s: string, sub: string, i: nat)
    requires i + |sub| <= |s| && SubstringAt(s, sub, i)
    ensures forall j | i <= j < i + |sub| :: s[j] == sub[j - i]
  {
    forall j | i <= j < i + |sub| ensures s[j] == sub[j - i] {
      assert s[i..i + |sub|][j - i] == s[j];
    }
  }

  /** A position holding a character foreign to `sub` lies outside every
      occurrence of `sub`. */
  lemma OccurrenceAvoids(s: string, sub: string, i: nat, j: nat)
    requires i + |sub| <= |s| && SubstringAt(s, sub, i)
    requires j < |s| && s[j] !in sub
    ensures j < i || i + |sub| <= j
  {
    OccurrenceChars(s, sub, i);
  }

  /** Python's `s.find(sub, k)` returned as an option. */
  function IndexOfFrom(s: string, sub: string, k: nat): (r: Option<nat>)
    ensures r.Some? ==> k <= r.value && SubstringAt(s, sub, r.value)
    ensures r.Some? ==> forall j | k <= j < r.value :: !SubstringAt(s, sub, j)
    ensures r.None? ==> forall j | k <= j :: !SubstringAt(s, sub, j)
    decreases |s| - k
  {
    if k + |sub| > |s| then None
    else if s[k..k + |sub|] == sub then Some(k)
    else IndexOfFrom(s, sub, k + 1)
  }

  /** Python's `s.find(sub)`: the first occurrence, if any. */
  function IndexOf(s: string, sub: string): (r: Option<nat>)
    ensures r.Some? <==> Contains(s, sub)
    ensures r.Some? ==> SubstringAt(s, sub, r.value)
    ensures r.Some? ==> forall j | 0 <= j < r.value :: !SubstringAt(s, sub, j)
  {
    IndexOfFrom(s, sub, 0)
  }

  /** First position of character `c` in `s`. */
  function IndexOfChar(s: string, c: char): (i: nat)
    requires c in s
    ensures i < |s| && s[i] == c && c !in s[..i]
    decreases |s|
  {
    if s[0] == c then 0
    else
      assert c in s[1..] by { var j :| 0 <= j < |s| && s[j] == c; assert s[1..][j - 1] == c; }
      var j := IndexOfChar(s[1..], c);
      assert s[..j + 1] == [s[0]] + s[1..][..j];
      j + 1
  }

  // ---------------------------------------------------------------------
  // split / join
  // ---------------------------------------------------------------------

  /** Python's `sep.join(parts)`. */
  function Join(parts: seq<string>, sep: string): string
    decreases |parts|
  {
    if |parts| == 0 then ""
    else if |parts| == 1 then parts[0]
    else parts[0] + sep + Join(parts[1..], sep)
  }

  /** An occurrence inside one piece of a join is an occurrence in the join. */
  lemma {:induction false} ContainsInJoin(parts: seq<string>, sep: string, k: nat, sub: string)
    requires k < |parts| && Contains(parts[k], sub)
    ensures Contains(Join(parts, sep), sub)
    decreases |parts|
  {
    var j := Join(parts, sep);
    if |parts| > 1 {
      var tail := Join(parts[1..], sep);
      assert j == parts[0] + sep + tail;
      if k == 0 {
        assert j[..|parts[0]|] == parts[0];
        ContainsInSlice(j, sub, 0, |parts[0]|);
      } else {
        assert parts[1..][k - 1] == parts[k];
        ContainsInJoin(parts[1..], sep, k - 1, sub);
        assert j[|parts[0]| + |sep|..|j|] == tail;
        ContainsInSlice(j, sub, |parts[0]| + |sep|, |j|);
      }
    }
  }

  /** Python's `s.split(sep)` for a one-character separator: the pieces
      between separators, never an empty list, and joined back with the
      separator they give `s` again. */
  function Split(s: string, sep: char): (r: seq<string>)
    ensures |r| >= 1
    ensures forall i | 0 <= i < |r| :: sep !in r[i]
    ensures Join(r, [sep]) == s
    decreases |s|
  {
    if sep !in s then [s]
    else
      var i := IndexOfChar(s, sep);
      var rest := Split(s[i + 1..], sep);
      assert ([s[..i]] + rest)[1..] == rest;
      assert s == s[..i] + [sep] + s[i + 1..];
      [s[..i]] + rest
  }

  /** `split` undoes `join` when no part contains the separator. */
  lemma {:induction false} SplitJoin(parts: seq<string>, sep: char)
    requires |parts| >= 1
    requires forall i | 0 <= i < |parts| :: sep !in parts[i]
    ensures Split(Join(parts, [sep]), sep) == parts
    decreases |parts|
  {
    if |parts| == 1 {
    } else {
      var s := Join(parts, [sep]);
      var tail := Join(parts[1..], [sep]);
      assert s == parts[0] + [sep] + tail;
      assert s[|parts[0]|] == sep;
      assert s[..|parts[0]|] == parts[0];
      var i := IndexOfChar(s, sep);
      assert i == |parts[0]|;
      assert s[i + 1..] == tail;
      SplitJoin(parts[1..], sep);
      assert Split(s, sep) == [parts[0]] + Split(tail, sep);
    }
  }

  /** Joining `c`-free pieces with `[c]` never creates an occurrence of a
      `c`-free word that no piece contains. */
  lemma {:induction false} JoinAvoids(parts: seq<string>, c: char, sub: string)
    requires |sub| > 0 && c !in sub
    requires forall i | 0 <= i < |parts| :: !Contains(parts[i], sub)
    ensures !Contains(Join(parts, [c]), sub)
    decreases |parts|
  {
    if |parts| == 0 {
    } else if |parts| == 1 {
    } else {
      JoinAvoids(parts[1..], c, sub);
      NotContainsAcrossSeparator(parts[0], c, Join(parts[1..], [c]), sub);
    }
  }

  // ---------------------------------------------------------------------
  // replace
  // ---------------------------------------------------------------------

  lemma ContainsShift(s: string, sub: string)
    requires |s| > 0 && Contains(s, sub) && !StartsWith(s, sub)
    ensures Contains(s[1..], sub)
  {
    var i :| 0 <= i <= |s| - |sub| && SubstringAt(s, sub, i);
    if i == 0 {
      assert false;
    }
    assert s[1..][i - 1..i - 1 + |sub|] == s[i..i + |sub|];
    ContainsWitness(s[1..], sub, i - 1);
  }

  /** Python's `s.replace(pat, repl)`: every non-overlapping occurrence,
      scanning left to right. */
  function Replace(s: string, pat: string, repl: string): (r: string)
    requires |pat| > 0
    ensures |repl| <= |pat| ==> |r| <= |s|
    ensures |repl| < |pat| && Contains(s, pat) ==> |r| < |s|
    decreases |s|
  {
    if |s| < |pat| then s
    else if s[..|pat|] == pat then repl + Replace(s[|pat|..], pat, repl)
    else
      assert Contains(s, pat) ==> Contains(s[1..], pat) by {
        if Contains(s, pat) { ContainsShift(s, pat); }
      }
      [s[0]] + Replace(s[1..], pat, repl)
  }

  /** `replace` changes nothing when there is nothing to replace. */
  lemma {:induction false} ReplaceAbsent(s: string, pat: string, repl: string)
    requires |pat| > 0 && !Contains(s, pat)
    ensures Replace(s, pat, repl) == s
    decreases |s|
  {
    if |s| < |pat| {
    } else {
      assert !SubstringAt(s, pat, 0);
      NotContainsSlice(s, pat, 1, |s|);
      assert s[1..|s|] == s[1..];
      ReplaceAbsent(s[1..], pat, repl);
    }
  }

  /** A `c`-free word that is a prefix of `Replace(t, pat, repl)`, where `repl`
      is a non-empty run of `c`, is already a prefix of `t`. */
  lemma {:induction false} ReplacePrefixBack(t: string, pat: string, repl: string, c: char, p: string)
    requires |pat| > 0 && |repl| > 0 && forall k | 0 <= k < |repl| :: repl[k] == c
    requires c !in p
    requires StartsWith(Replace(t, pat, repl), p)
    ensures StartsWith(t, p)
    decreases |t|
  {
    if |p| == 0 {
    } else if |t| < |pat| {
    } else if t[..|pat|] == pat {
      assert false;
    } else {
      var rest := Replace(t[1..], pat, repl);
      assert Replace(t, pat, repl) == [t[0]] + rest;
      assert p[0] == t[0];
      assert StartsWith(rest, p[1..]);
      ReplacePrefixBack(t[1..], pat, repl, c, p[1..]);
      assert p == [p[0]] + p[1..];
    }
  }

  /** Replacing by a run of `c` cannot create an occurrence of a non-empty
      `c`-free word. */
  lemma {:induction false} ReplaceAvoids(s: string, pat: string, repl: string, c: char, sub: string)
    requires |pat| > 0 && |repl| > 0 && forall k | 0 <= k < |repl| :: repl[k] == c
    requires |sub| > 0 && c !in sub
    requires !Contains(s, sub)
    ensures !Contains(Replace(s, pat, repl), sub)
    decreases |s|
  {
    if |s| < |pat| {
    } else if s[..|pat|] == pat {
      NotContainsSlice(s, sub, |pat|, |s|);
      assert s[|pat|..|s|] == s[|pat|..];
      ReplaceAvoids(s[|pat|..], pat, repl, c, sub);
      ReplaceAvoidsAfterMatch(s, pat, repl, c, sub);
    } else {
      NotContainsSlice(s, sub, 1, |s|);
      assert s[1..|s|] == s[1..];
      ReplaceAvoids(s[1..], pat, repl, c, sub);
      ReplaceAvoidsAfterMiss(s, pat, repl, c, sub);
    }
  }

  /** Step of `ReplaceAvoids` where `s` starts with `pat`. */
  lemma ReplaceAvoidsAfterMatch(s: string, pat: string, repl: string, c: char, sub: string)
    requires |pat| > 0 && |repl| > 0 && forall k | 0 <= k < |repl| :: repl[k] == c
    requires |sub| > 0 && c !in sub
    requires |s| >= |pat| && s[..|pat|] == pat
    requires !Contains(Replace(s[|pat|..], pat, repl), sub)
    ensures !Contains(Replace(s, pat, repl), sub)
  {
    var rest := Replace(s[|pat|..], pat, repl);
    assert Replace(s, pat, repl) == repl + rest;
    PrefixRunAvoids(repl, rest, c, sub);
  }

  /** A `c`-free word found in `run + t`, where `run` is all `c`, is found in `t`. */
  lemma PrefixRunAvoids(run: string, t: string, c: char, sub: string)
    requires forall k | 0 <= k < |run| :: run[k] == c
    requires |sub| > 0 && c !in sub
    requires !Contains(t, sub)
    ensures !Contains(run + t, sub)
  {
    var r := run + t;
    if Contains(r, sub) {
      var i :| 0 <= i <= |r| - |sub| && SubstringAt(r, sub, i);
      OccurrenceChars(r, sub, i);
      assert r[i] == sub[0];
      if i < |run| {
        assert false;
      }
      var j := i - |run|;
      forall k | 0 <= k < |sub| ensures t[j + k] == sub[k] {
        assert r[i + k] == t[j + k];
      }
      assert t[j..j + |sub|] == sub;
      ContainsWitness(t, sub, j);
    }
  }

  /** Step of `ReplaceAvoids` where `s` does not start with `pat`. */
  lemma ReplaceAvoidsAfterMiss(s: string, pat: string, repl: string, c: char, sub: string)
    requires |pat| > 0 && |repl| > 0 && forall k | 0 <= k < |repl| :: repl[k] == c
    requires |sub| > 0 && c !in sub
    requires |s| >= |pat| && s[..|pat|] != pat
    requires !Contains(s, sub)
    requires !Contains(Replace(s[1..], pat, repl), sub)
    ensures !Contains(Replace(s, pat, repl), sub)
  {
    var rest := Replace(s[1..], pat, repl);
    assert Replace(s, pat, repl) == [s[0]] + rest;
    if !StartsWith(rest, sub[1..]) {
      ConsAvoids(s[0], rest, sub);
    } else {
      ReplacePrefixBack(s[1..], pat, repl, c, sub[1..]);
      if s[0] == sub[0] {
        ConsStartsWith(s, sub);
        ContainsWitness(s, sub, 0);
      }
      ConsAvoids(s[0], rest, sub);
    }
  }

  /** A word whose head matches `s[0]` and whose tail starts `s[1..]` starts `s`. */
  lemma ConsStartsWith(s: string, p: string)
    requires |s| > 0 && |p| > 0 && s[0] == p[0] && StartsWith(s[1..], p[1..])
    ensures StartsWith(s, p)
  {
    assert s[..|p|] == [s[0]] + s[1..][..|p| - 1];
  }

  /** An occurrence of `sub` in `[x] + t` starts at 0 or lies inside `t`. */
  lemma ConsAvoids(x: char, t: string, sub: string)
    requires |sub| > 0
    requires !Contains(t, sub)
    requires x != sub[0] || !StartsWith(t, sub[1..])
    ensures !Contains([x] + t, sub)
  {
    var r := [x] + t;
    if Contains(r, sub) {
      var i :| 0 <= i <= |r| - |sub| && SubstringAt(r, sub, i);
      ConsOccurrenceAtZero(x, t, sub);
      if i == 0 {
        assert false;
      }
      assert r[i..i + |sub|] == t[i - 1..i - 1 + |sub|];
      ContainsWitness(t, sub, i - 1);
    }
  }

  /** An occurrence at the very start of `[x] + t` matches `x` and continues in `t`. */
  lemma ConsOccurrenceAtZero(x: char, t: string, sub: string)
    requires |sub| > 0
    ensures |sub| <= |t| + 1 && SubstringAt([x] + t, sub, 0) ==> x == sub[0] && StartsWith(t, sub[1..])
  {
    if |sub| <= |t| + 1 && SubstringAt([x] + t, sub, 0) {
      assert ([x] + t)[..|sub|][0] == x;
      assert ([x] + t)[..|sub|][1..] == t[..|sub| - 1];
    }
  }

  /** Python's `s.replace(pat, repl, 1)`: only the first occurrence. */
  function ReplaceFirst(s: string, pat: string, repl: string): (r: string)
    ensures !Contains(s, pat) ==> r == s
    ensures StartsWith(s, pat) ==> r == repl + s[|pat|..]
  {
    match IndexOf(s, pat)
    case None => s
    case Some(i) =>
      assert StartsWith(s, pat) ==> i == 0 by {
        if StartsWith(s, pat) && i > 0 { assert SubstringAt(s, pat, 0); }
      }
      s[..i] + repl + s[i + |pat|..]
  }

  // ---------------------------------------------------------------------
  // Decimal rendering of integers (Python `str(n)` / f-string `{n}`)
  // ---------------------------------------------------------------------

  predicate IsDigit(c: char) {
    '0' <= c <= '9'
  }

  function DigitChar(d: nat): (c: char)
    requires d < 10
    ensures IsDigit(c)
  {
    "0123456789"[d]
  }

  function DigitValue(c: char): nat
    requires IsDigit(c)
  {
    (c as int - '0' as int) as nat
  }

  function NatToString(n: nat): (s: string)
    ensures |s| >= 1
    ensures forall i | 0 <= i < |s| :: IsDigit(s[i])
    decreases n
  {
    if n < 10 then [DigitChar(n)] else NatToString(n / 10) + [DigitChar(n % 10)]
  }

  /** Python's `str(n)` for an `int`. */
  function IntToString(n: int): string {
    if n < 0 then "-" + NatToString(-n) else NatToString(n)
  }

  /** Python's `int(s)` for a string of decimal digits. */
  function ParseNat(s: string): nat
    requires forall i | 0 <= i < |s| :: IsDigit(s[i])
    decreases |s|
  {
    if |s| == 0 then 0 else ParseNat(s[..|s| - 1]) * 10 + DigitValue(s[|s| - 1])
  }

  /** Rendering a natural number and reading it back gives the number: the
      decimal text is faithful. */
  lemma {:induction false} ParseNatToString(n: nat)
    ensures ParseNat(NatToString(n)) == n
    decreases n
  {
    if n < 10 {
      assert DigitValue(DigitChar(n)) == n by {
        assert "0123456789"[n] as int == '0' as int + n;
      }
    } else {
      var s := NatToString(n);
      assert s[..|s| - 1] == NatToString(n / 10);
      ParseNatToString(n / 10);
      assert DigitValue(DigitChar(n % 10)) == n % 10 by {
        assert "0123456789"[n % 10] as int == '0' as int + n % 10;
      }
    }
  }

  /** The decimal text has no leading zero: it starts with `0` only for
      zero itself, and it is a single digit exactly below ten. */
  lemma {:induction false} NatToStringCanonical(n: nat)
    ensures var s := NatToString(n); (s[0] == '0' <==> n == 0) && (|s| == 1 <==> n < 10)
    decreases n
  {
    if n < 10 {
      assert NatToString(n)[0] == "0123456789"[n];
    } else {
      NatToStringCanonical(n / 10);
      assert NatToString(n)[0] == NatToString(n / 10)[0];
    }
  }

  /** `s` is the text `str` writes for the integer `n`: a `-` exactly when
      `n` is negative, then at least one digit with no leading zero, the
      digits reading back as the magnitude of `n`. */
  predicate IsDecimal(s: string, n: int) {
    && |s| >= 1 && (n < 0 <==> s[0] == '-')
    && var digits := if n >= 0 then s else s[1..];
      && |digits| >= 1
      && (forall i | 0 <= i < |digits| :: IsDigit(digits[i]))
      && ParseNat(digits) == (if n >= 0 then n else -n)
      && (|digits| > 1 ==> digits[0] != '0')
  }

  /** `str(n)` is the canonical decimal text of `n`. */
  lemma IntToStringDigits(n: int)
    ensures IsDecimal(IntToString(n), n)
  {
    var m: nat := if n >= 0 then n else -n;
    ParseNatToString(m);
    NatToStringCanonical(m);
    if n < 0 {
      assert IntToString(n)[1..] == NatToString(m);
    } else {
      assert IsDigit(NatToString(m)[0]);
    }
  }

  /** Distinct numbers render to distinct strings. */
  lemma NatToStringInjective(a: nat, b: nat)
    requires NatToString(a) == NatToString(b)
    ensures a == b
  {
    ParseNatToString(a);
    ParseNatToString(b);
  }

  /** Distinct integers render to distinct strings: a sign never looks like a digit. */
  lemma IntToStringInjective(a: int, b: int)
    requires IntToString(a) == IntToString(b)
    ensures a == b
  {
    assert a < 0 ==> IntToString(a)[0] == '-';
    assert a >= 0 ==> IsDigit(IntToString(a)[0]);
    assert b < 0 ==> IntToString(b)[0] == '-';
    assert b >= 0 ==> IsDigit(IntToString(b)[0]);
    if a < 0 && b < 0 {
      assert IntToString(a)[1..] == NatToString(-a);
      assert IntToString(b)[1..] == NatToString(-b);
      NatToStringInjective(-a, -b);
    } else if a >= 0 && b >= 0 {
      NatToStringInjective(a, b);
    }
  }

  /** The first components of a list of pairs, in order. */
  function Firsts<A, B>(ps: seq<(A, B)>): (r: seq<A>)
    ensures |r| == |ps| && forall i | 0 <= i < |ps| :: r[i] == ps[i].0
  {
    seq(|ps|, i requires 0 <= i < |ps| => ps[i].0)
  }

  lemma FirstsAppend<A, B>(a: seq<(A, B)>, b: seq<(A, B)>)
    ensures Firsts(a + b) == Firsts(a) + Firsts(b)
  {
  }
}

=== FILE: upload_validation.dfy ===
/**
  The upload gate: a file is accepted when its content type is one of the
  allowed ones and its size does not exceed the configured number of
  megabytes.
*/
module UploadValidation {
  import opened Text

  /** Bytes per megabyte. */
  const SizeScale: int := 1024 * 1024

  /** The two settings the gate reads. */
  datatype Settings = Settings(allowedTypes: seq<string>, maxSizeMb: int)

  /** What the gate sees of an upload. */
  datatype Upload = Upload(contentType: string, size: int)

  datatype Verdict = Verdict(valid: bool, message: string)

  /** `validate_uploaded_file`: the type check first, then the size check. */
  function ValidateUploadedFile(s: Settings, f: Upload): (v: Verdict)
    ensures v.valid <==> f.contentType in s.allowedTypes && f.size <= s.maxSizeMb * SizeScale
    ensures f.contentType !in s.allowedTypes ==> v.message == "File type " + f.contentType + " is not allowed."
    ensures f.contentType in s.allowedTypes && f.size > s.maxSizeMb * SizeScale ==>
      v.message == "File size " + IntToString(f.size) + " exceeds the maximum limit."
    ensures v.valid ==> v.message == "File is valid."
  {
    if f.contentType !in s.allowedTypes then Verdict(false, "File type " + f.contentType + " is not allowed.")
    else if f.size > s.maxSizeMb * SizeScale then
      Verdict(false, "File size " + IntToString(f.size) + " exceeds the maximum limit.")
    else Verdict(true, "File is valid.")
  }

  /** A rejected file's message names either its type or its size, and
      the type is reported whenever it is wrong, whatever the size. */
  lemma RejectionReasons(s: Settings, f: Upload)
    requires !ValidateUploadedFile(s, f).valid
    ensures var m := ValidateUploadedFile(s, f).message;
      && (StartsWith(m, "File type ") <==> f.contentType !in s.allowedTypes)
      && (StartsWith(m, "File size ") <==> f.contentType in s.allowedTypes)
  {
    var m := ValidateUploadedFile(s, f).message;
    assert ("File type " + f.contentType + " is not allowed.")[..10] == "File type ";
    assert ("File size " + IntToString(f.size) + " exceeds the maximum limit.")[..10] == "File size ";
    assert "File type "[5] != "File size "[5];
    assert m[5] == if f.contentType !in s.allowedTypes then 't' else 's';
  }

  /** The limit is inclusive: an allowed file of exactly the maximum size
      passes, one byte more fails. */
  lemma LimitInclusive(s: Settings, contentType: string)
    requires contentType in s.allowedTypes
    ensures ValidateUploadedFile(s, Upload(contentType, s.maxSizeMb * SizeScale)).valid
    ensures !ValidateUploadedFile(s, Upload(contentType, s.maxSizeMb * SizeScale + 1)).valid
  {
  }
}

=== FILE: uri_encoding.dfy ===
/**
  The URL encodings the front end and the proxy rely on: the UTF-8 bytes
  of a character, JavaScript's `encodeURIComponent`, the
  `application/x-www-form-urlencoded` serialisation that `URLSearchParams`
  produces, and the matching decoders (percent-decoding to bytes, then
  UTF-8 decoding), with the round trips between them.
*/
module UriEncoding {
  import opened Wrappers
  import opened Text

  type Byte = b: int | 0 <= b < 256

  // ---------------------------------------------------------------------
  // UTF-8
  // ---------------------------------------------------------------------

  predicate IsContinuation(b: Byte) {
    0x80 <= b < 0xC0
  }

  /** The UTF-8 bytes of one Unicode scalar value. */
  function Utf8(c: char): (r: seq<Byte>)
    ensures 1 <= |r| <= 4
    ensures forall i | 1 <= i < |r| :: IsContinuation(r[i])
  {
    var cp := c as int;
    if cp < 0x80 then [cp]
    else if cp < 0x800 then [0xC0 + cp / 64, 0x80 + cp % 64]
    else if cp < 0x10000 then [0xE0 + cp / 64 / 64, 0x80 + cp / 64 % 64, 0x80 + cp % 64]
    else [0xF0 + cp / 64 / 64 / 64, 0x80 + cp / 64 / 64 % 64, 0x80 + cp / 64 % 64, 0x80 + cp % 64]
  }

  /** The UTF-8 bytes of a string. */
  function Utf8Encode(s: string): seq<Byte> {
    if |s| == 0 then [] else Utf8(s[0]) + Utf8Encode(s[1..])
  }

  /** Reads one character from the front of a byte sequence: the character
      and the number of bytes it took, or `None` for a malformed, overlong
      or surrogate sequence. */
  function Utf8DecodeFirst(bs: seq<Byte>): (r: Option<(char, nat)>)
    requires |bs| > 0
    ensures r.Some? ==> 1 <= r.value.1 <= |bs|
  {
    var b0 := bs[0] as int;
    if b0 < 0x80 then Some((b0 as char, 1))
    else if 0xC2 <= b0 < 0xE0 && |bs| >= 2 && IsContinuation(bs[1]) then
      Some((Join64(b0 - 0xC0, bs[1] as int - 0x80) as char, 2))
    else if 0xE0 <= b0 < 0xF0 && |bs| >= 3 && IsContinuation(bs[1]) && IsContinuation(bs[2]) then
      var cp := Join64(Join64(b0 - 0xE0, bs[1] as int - 0x80), bs[2] as int - 0x80);
      if 0x800 <= cp && !(0xD800 <= cp < 0xE000) then Some((cp as char, 3)) else None
    else if 0xF0 <= b0 < 0xF5 && |bs| >= 4 && IsContinuation(bs[1]) && IsContinuation(bs[2])
            && IsContinuation(bs[3]) then
      var cp := Join64(Join64(Join64(b0 - 0xF0, bs[1] as int - 0x80), bs[2] as int - 0x80), bs[3] as int - 0x80);
      if 0x10000 <= cp < 0x110000 then Some((cp as char, 4)) else None
    else None
  }

  /** Appends a base-64 digit: the payload bits of one more byte. */
  function Join64(high: int, low: int): int {
    high * 64 + low
  }

  /** UTF-8 decoding of a whole byte sequence; `None` when it is malformed. */
  function Utf8Decode(bs: seq<Byte>): (r: Option<string>)
    decreases |bs|
  {
    if |bs| == 0 then Some([])
    else
      match Utf8DecodeFirst(bs)
      case None => None
      case Some((c, n)) =>
        match Utf8Decode(bs[n..])
        case None => None
        case Some(rest) => Some([c] + rest)
  }

  /** `x` from its base-64 quotient and remainder. */
  lemma Radix64(x: int)
    requires x >= 0
    ensures x == x / 64 * 64 + x % 64 && 0 <= x % 64 < 64 && x / 64 >= 0
  {
  }

  /** Decoding the bytes of a character reads that character back. */
  lemma Utf8DecodeFirstOf(c: char, rest: seq<Byte>)
    ensures Utf8DecodeFirst(Utf8(c) + rest) == Some((c, |Utf8(c)|))
  {
    var cp := c as int;
    var bs := Utf8(c) + rest;
    Radix64(cp);
    Radix64(cp / 64);
    Radix64(cp / 64 / 64);
    if cp < 0x80 {
    } else if cp < 0x800 {
      assert bs[0] as int - 0xC0 == cp / 64 && bs[1] as int - 0x80 == cp % 64;
    } else if cp < 0x10000 {
      assert bs[0] as int - 0xE0 == cp / 64 / 64 && bs[1] as int - 0x80 == cp / 64 % 64;
      assert bs[2] as int - 0x80 == cp % 64;
    } else {
      assert bs[0] as int - 0xF0 == cp / 64 / 64 / 64 && bs[1] as int - 0x80 == cp / 64 / 64 % 64;
      assert bs[2] as int - 0x80 == cp / 64 % 64 && bs[3] as int - 0x80 == cp % 64;
      Radix64(cp / 64 / 64 / 64);
    }
  }

  /** UTF-8 decoding inverts UTF-8 encoding. */
  lemma {:induction false} Utf8RoundTrip(s: string)
    ensures Utf8Decode(Utf8Encode(s)) == Some(s)
    decreases |s|
  {
    if |s| > 0 {
      var bs := Utf8Encode(s);
      Utf8DecodeFirstOf(s[0], Utf8Encode(s[1..]));
      assert bs[|Utf8(s[0])|..] == Utf8Encode(s[1..]);
      Utf8RoundTrip(s[1..]);
      assert [s[0]] + s[1..] == s;
    }
  }

  // ---------------------------------------------------------------------
  // Percent escapes
  // ---------------------------------------------------------------------

  /** An upper-case hexadecimal digit. */
  function HexChar(n: nat): (c: char)
    requires n < 16
  {
    if n < 10 then (48 + n) as char else (55 + n) as char
  }

  /** The value of a hexadecimal digit of either case. */
  function HexValue(c: char): Option<nat> {
    if '0' <= c <= '9' then Some(c as int - 48)
    else if 'A' <= c <= 'F' then Some(c as int - 55)
    else if 'a' <= c <= 'f' then Some(c as int - 87)
    else None
  }

  lemma HexValueOf(n: nat)
    requires n < 16
    ensures HexValue(HexChar(n)) == Some(n)
  {
  }

  predicate IsUpperHex(c: char) {
    ('0' <= c <= '9') || ('A' <= c <= 'F')
  }

  /** `%XX` for every byte. */
  function PercentBytes(bs: seq<Byte>): (r: string)
    ensures |r| == 3 * |bs|
    ensures forall i | 0 <= i < |r| :: r[i] == '%' || IsUpperHex(r[i])
  {
    if |bs| == 0 then "" else ['%', HexChar(bs[0] / 16), HexChar(bs[0] % 16)] + PercentBytes(bs[1..])
  }

  /** The bytes a percent-encoded string stands for: an escape gives its
      byte, any other character its UTF-8 bytes; `None` for a `%` that is
      not followed by two hexadecimal digits. */
  function PercentToBytes(s: string): Option<seq<Byte>>
    decreases |s|
  {
    if |s| == 0 then Some([])
    else if s[0] == '%' then
      if |s| >= 3 && HexValue(s[1]).Some? && HexValue(s[2]).Some? then
        Prepend([HexValue(s[1]).value * 16 + HexValue(s[2]).value], PercentToBytes(s[3..]))
      else None
    else Prepend(Utf8(s[0]), PercentToBytes(s[1..]))
  }

  function Prepend<T>(xs: seq<T>, r: Option<seq<T>>): Option<seq<T>> {
    if r.Some? then Some(xs + r.value) else None
  }

  /** `decodeURIComponent`: percent-decoding to bytes, then UTF-8. */
  function PercentDecode(s: string): Option<string> {
    var bs := PercentToBytes(s);
    if bs.None? then None else Utf8Decode(bs.value)
  }

  /** One escape reads back as its byte. */
  lemma PercentToBytesOfEscape(b: Byte, t: string)
    ensures PercentToBytes(['%', HexChar(b / 16), HexChar(b % 16)] + t) == Prepend([b], PercentToBytes(t))
  {
    var s := ['%', HexChar(b / 16), HexChar(b % 16)] + t;
    HexValueOf(b / 16);
    HexValueOf(b % 16);
    assert s[3..] == t;
  }

  lemma {:induction false} PercentToBytesOfEscapes(bs: seq<Byte>, rest: string)
    ensures PercentToBytes(PercentBytes(bs) + rest) == Prepend(bs, PercentToBytes(rest))
    decreases |bs|
  {
    var x := PercentToBytes(rest);
    if |bs| > 0 {
      var t := PercentBytes(bs[1..]) + rest;
      assert PercentBytes(bs) + rest == ['%', HexChar(bs[0] / 16), HexChar(bs[0] % 16)] + t;
      PercentToBytesOfEscape(bs[0], t);
      PercentToBytesOfEscapes(bs[1..], rest);
      if x.Some? {
        assert [bs[0]] + (bs[1..] + x.value) == bs + x.value;
      }
    } else {
      assert PercentBytes(bs) + rest == rest;
      if x.Some? {
        assert bs + x.value == x.value;
      }
    }
  }

  // ---------------------------------------------------------------------
  // encodeURIComponent
  // ---------------------------------------------------------------------

  predicate IsAlnum(c: char) {
    ('a' <= c <= 'z') || ('A' <= c <= 'Z') || ('0' <= c <= '9')
  }

  /** The characters `encodeURIComponent` leaves alone. */
  predicate UriUnreserved(c: char) {
    || IsAlnum(c)
    || c == '-' || c == '_' || c == '.' || c == '!' || c == '~' || c == '*' || c == '\'' || c == '(' || c == ')'
  }

  function EncodeUriChar(c: char): string {
    if UriUnreserved(c) then [c] else PercentBytes(Utf8(c))
  }

  /** JavaScript's `encodeURIComponent` (on scalar values, so it never
      throws). */
  function EncodeURIComponent(s: string): (r: string)
    ensures forall i | 0 <= i < |r| :: UriUnreserved(r[i]) || r[i] == '%'
    decreases |s|
  {
    if |s| == 0 then ""
    else
      var head := EncodeUriChar(s[0]);
      var tail := EncodeURIComponent(s[1..]);
      assert forall i | 0 <= i < |head| :: UriUnreserved(head[i]) || head[i] == '%';
      assert forall i | 0 <= i < |head + tail| ::
        (head + tail)[i] == (if i < |head| then head[i] else tail[i - |head|]);
      head + tail
  }

  /** The component encoding never writes `&`, `=` or `+`, so it survives
      query parsing intact. */
  lemma UriEncodeAvoids(s: string)
    ensures '&' !in EncodeURIComponent(s) && '=' !in EncodeURIComponent(s) && '+' !in EncodeURIComponent(s)
  {
    var r := EncodeURIComponent(s);
    assert forall i | 0 <= i < |r| :: r[i] != '&' && r[i] != '=' && r[i] != '+';
  }

  /** `decodeURIComponent` inverts `encodeURIComponent`. */
  lemma {:induction false} UriComponentRoundTrip(s: string)
    ensures PercentToBytes(EncodeURIComponent(s)) == Some(Utf8Encode(s))
    ensures PercentDecode(EncodeURIComponent(s)) == Some(s)
    decreases |s|
  {
    if |s| > 0 {
      var rest := EncodeURIComponent(s[1..]);
      UriComponentRoundTrip(s[1..]);
      if UriUnreserved(s[0]) {
        assert EncodeURIComponent(s) == [s[0]] + rest;
        assert ([s[0]] + rest)[1..] == rest;
      } else {
        PercentToBytesOfEscapes(Utf8(s[0]), rest);
      }
    }
    Utf8RoundTrip(s);
  }

  // ---------------------------------------------------------------------
  // application/x-www-form-urlencoded
  // ---------------------------------------------------------------------

  /** The characters the form serialiser leaves alone. */
  predicate FormSafe(c: char) {
    IsAlnum(c) || c == '*' || c == '-' || c == '.' || c == '_'
  }

  function FormEncodeChar(c: char): string {
    if c == ' ' then "+" else if FormSafe(c) then [c] else PercentBytes(Utf8(c))
  }

  /** The form serialiser's encoding of one name or value. */
  function FormEncode(s: string): (r: string)
    ensures forall i | 0 <= i < |r| :: FormSafe(r[i]) || r[i] == '+' || r[i] == '%'
    decreases |s|
  {
    if |s| == 0 then ""
    else
      var head := FormEncodeChar(s[0]);
      var tail := FormEncode(s[1..]);
      assert forall i | 0 <= i < |head| :: FormSafe(head[i]) || head[i] == '+' || head[i] == '%';
      assert forall i | 0 <= i < |head + tail| ::
        (head + tail)[i] == (if i < |head| then head[i] else tail[i - |head|]);
      head + tail
  }

  /** The form parser's first step: `+` stands for a space. */
  function PlusToSpace(s: string): (r: string)
    ensures |r| == |s|
    ensures forall i | 0 <= i < |s| :: r[i] == if s[i] == '+' then ' ' else s[i]
  {
    if |s| == 0 then "" else [if s[0] == '+' then ' ' else s[0]] + PlusToSpace(s[1..])
  }

  /** The form parser's decoding of one name or value. */
  function FormDecode(s: string): Option<string> {
    PercentDecode(PlusToSpace(s))
  }

  lemma PlusToSpaceAppend(a: string, b: string)
    ensures PlusToSpace(a + b) == PlusToSpace(a) + PlusToSpace(b)
  {
    var l, r := PlusToSpace(a + b), PlusToSpace(a) + PlusToSpace(b);
    assert forall i | 0 <= i < |l| :: l[i] == r[i];
  }

  /** The form parser reads back what the serialiser wrote. */
  lemma {:induction false} FormRoundTrip(s: string)
    ensures PercentToBytes(PlusToSpace(FormEncode(s))) == Some(Utf8Encode(s))
    ensures FormDecode(FormEncode(s)) == Some(s)
    decreases |s|
  {
    if |s| > 0 {
      var head := FormEncodeChar(s[0]);
      var rest := FormEncode(s[1..]);
      FormRoundTrip(s[1..]);
      PlusToSpaceAppend(head, rest);
      var prest := PlusToSpace(rest);
      if s[0] == ' ' {
        assert PlusToSpace(head) == " ";
        assert (" " + prest)[1..] == prest;
      } else if FormSafe(s[0]) {
        assert PlusToSpace(head) == [s[0]];
        assert ([s[0]] + prest)[1..] == prest;
      } else {
        assert PlusToSpace(head) == head;
        PercentToBytesOfEscapes(Utf8(s[0]), prest);
      }
    }
    Utf8RoundTrip(s);
  }

  /** The form serialiser's alphabet has neither `&` nor `=`. */
  lemma FormEncodeAvoids(s: string)
    ensures '&' !in FormEncode(s) && '=' !in FormEncode(s)
  {
    var r := FormEncode(s);
    assert forall i | 0 <= i < |r| :: r[i] != '&' && r[i] != '=';
  }

  // ---------------------------------------------------------------------
  // Query strings
  // ---------------------------------------------------------------------

  /** One `name=value` pair as the serialiser writes it. */
  function QueryPair(p: (string, string)): string {
    FormEncode(p.0) + "=" + FormEncode(p.1)
  }

  function QueryPieces(ps: seq<(string, string)>): (r: seq<string>)
    ensures |r| == |ps|
    ensures forall i | 0 <= i < |ps| :: r[i] == QueryPair(ps[i])
  {
    if |ps| == 0 then [] else [QueryPair(ps[0])] + QueryPieces(ps[1..])
  }

  /** `URLSearchParams.toString()`: the encoded pairs joined with `&`. */
  function SerializeQuery(ps: seq<(string, string)>): (r: string)
    ensures r == "" <==> |ps| == 0
  {
    var pieces := QueryPieces(ps);
    if |ps| == 0 then ""
    else
      assert |Join(pieces, "&")| >= |pieces[0]| by {
        if |pieces| > 1 {
          assert Join(pieces, "&") == pieces[0] + "&" + Join(pieces[1..], "&");
        }
      }
      assert |pieces[0]| > 0 by {
        assert pieces[0] == FormEncode(ps[0].0) + "=" + FormEncode(ps[0].1);
      }
      Join(pieces, "&")
  }

  /** A name or value as the form parser reads it; an undecodable text is
      kept as written. */
  function Decoded(s: string): string {
    FormDecode(s).GetOr(s)
  }

  /** A `name=value` piece split at its first `=`; a piece without one is
      a name with an empty value. */
  function ParsePair(piece: string): (string, string) {
    if '=' in piece then
      var i := IndexOfChar(piece, '=');
      (Decoded(piece[..i]), Decoded(piece[i + 1..]))
    else (Decoded(piece), "")
  }

  function ParsePieces(pieces: seq<string>): seq<(string, string)> {
    if |pieces| == 0 then []
    else (if pieces[0] == "" then [] else [ParsePair(pieces[0])]) + ParsePieces(pieces[1..])
  }

  /** The form parser: the `&`-separated pieces, empty pieces skipped. */
  function ParseQuery(qs: string): seq<(string, string)> {
    ParsePieces(Split(qs, '&'))
  }

  lemma ParsePairOf(p: (string, string))
    ensures ParsePair(QueryPair(p)) == p
  {
    var fk, fv := FormEncode(p.0), FormEncode(p.1);
    var s := QueryPair(p);
    FormEncodeAvoids(p.0);
    assert s[|fk|] == '=';
    assert s[..|fk|] == fk;
    var i := IndexOfChar(s, '=');
    assert i == |fk|;
    assert s[i + 1..] == fv;
    FormRoundTrip(p.0);
    FormRoundTrip(p.1);
  }

  /** A non-empty first piece is parsed as a pair. */
  lemma ParsePiecesCons(head: string, rest: seq<string>)
    requires head != ""
    ensures ParsePieces([head] + rest) == [ParsePair(head)] + ParsePieces(rest)
  {
    assert ([head] + rest)[1..] == rest;
  }

  lemma {:induction false} ParsePiecesOf(ps: seq<(string, string)>)
    ensures ParsePieces(QueryPieces(ps)) == ps
    decreases |ps|
  {
    if |ps| > 0 {
      var head := QueryPair(ps[0]);
      var rest := QueryPieces(ps[1..]);
      assert QueryPieces(ps) == [head] + rest;
      assert head != "" by {
        assert head[|FormEncode(ps[0].0)|] == '=';
      }
      ParsePiecesCons(head, rest);
      ParsePiecesOf(ps[1..]);
      ParsePairOf(ps[0]);
      assert [ps[0]] + ps[1..] == ps;
    }
  }

  /** Parsing a serialised query gives back the pairs, in order, whatever
      characters the names and values hold. */
  lemma QueryRoundTrip(ps: seq<(string, string)>)
    ensures ParseQuery(SerializeQuery(ps)) == ps
  {
    var pieces := QueryPieces(ps);
    if |ps| == 0 {
      assert Split("", '&') == [""];
    } else {
      forall i | 0 <= i < |pieces| ensures '&' !in pieces[i] {
        FormEncodeAvoids(ps[i].0);
        FormEncodeAvoids(ps[i].1);
      }
      SplitJoin(pieces, '&');
      assert SerializeQuery(ps) == Join(pieces, ['&']);
      ParsePiecesOf(ps);
    }
  }

  // ---------------------------------------------------------------------
  // Paths
  // ---------------------------------------------------------------------

  /** `p.startsWith('/') ? p.slice(1) : p`. */
  function DropLeadingSlash(p: string): (r: string)
    ensures StartsWith(p, "/") ==> "/" + r == p
    ensures !StartsWith(p, "/") ==> r == p
  {
    if StartsWith(p, "/") then p[1..] else p
  }

  /** `b.endsWith('/') ? b.slice(0, -1) : b`. */
  function DropTrailingSlash(b: string): (r: string)
    ensures EndsWith(b, "/") ==> r + "/" == b
    ensures !EndsWith(b, "/") ==> r == b
  {
    if EndsWith(b, "/") then b[..|b| - 1] else b
  }

  /** `b.endsWith('/') ? b : b + '/'`. */
  function WithTrailingSlash(b: string): (r: string)
    ensures EndsWith(r, "/")
    ensures EndsWith(b, "/") ==> r == b
    ensures !EndsWith(b, "/") ==> r == b + "/"
  {
    if EndsWith(b, "/") then b else b + "/"
  }
}

=== FILE: websocket_endpoint.dfy ===
/** The `/ws/progress/{project_id}` WebSocket route and the connection
    status route (src/routes/websocket.py). A client session is the
    sequence of things the socket delivers after `connect`: JSON frames,
    a close, or something `receive_json` cannot decode. Each frame carries
    the outcome of the reply's send and the outcome of the `get_status`
    query: the progress table as that query would see it (workflows
    advance concurrently), or `None` when the query raises. Only a
    `get_status` frame reads it. */
module WebSocketEndpoint {
  import opened Wrappers
  import opened Json
  import opened ProgressStore
  import opened ConnectionRegistry

  datatype Event =
    | Frame(data: Json, read: Option<Store>, sendOk: bool)
    | Closed
    | Undecodable

  /** The branch a frame takes. */
  datatype Action =
    | SubscribeTo(workflowId: string)
    | Ping
    | GetStatus(workflowId: string)
    | NoAction
    | Crash

  /** `data.get(k)`; a frame that is not a JSON object has no `get`. */
  function Field(fields: Dict, k: string): Option<Json> {
    Get(fields, k)
  }

  predicate TruthyStr(v: Option<Json>) {
    v.Some? && v.value.JStr? && v.value.s != ""
  }

  /** The `if / elif` chain of the receive loop. A frame that is not an
      object raises on `data.get` and ends the session. */
  function Classify(data: Json): (a: Action)
    ensures a.Crash? <==> !data.JObj?
    ensures data.JObj? && Field(data.fields, "action") == Some(JStr("subscribe"))
            && TruthyStr(Field(data.fields, "workflow_id")) ==>
      a == SubscribeTo(Field(data.fields, "workflow_id").value.s)
    ensures data.JObj? && Field(data.fields, "action") == Some(JStr("get_status"))
            && TruthyStr(Field(data.fields, "workflow_id")) ==>
      a == GetStatus(Field(data.fields, "workflow_id").value.s)
    ensures a.NoAction? <==> data.JObj? && Field(data.fields, "action") != Some(JStr("ping"))
                             && !(Field(data.fields, "action") in {Some(JStr("subscribe")), Some(JStr("get_status"))}
                                  && TruthyStr(Field(data.fields, "workflow_id")))
    ensures a.Ping? ==> Field(data.fields, "action") == Some(JStr("ping"))
    ensures a.SubscribeTo? ==> Field(data.fields, "action") == Some(JStr("subscribe"))
                               && Field(data.fields, "workflow_id") == Some(JStr(a.workflowId)) && a.workflowId != ""
    ensures a.GetStatus? ==> Field(data.fields, "action") == Some(JStr("get_status"))
                             && Field(data.fields, "workflow_id") == Some(JStr(a.workflowId)) && a.workflowId != ""
  {
    if !data.JObj? then Crash
    else
      var action := Field(data.fields, "action");
      var wid := Field(data.fields, "workflow_id");
      if action == Some(JStr("subscribe")) && TruthyStr(wid) then SubscribeTo(wid.value.s)
      else if action == Some(JStr("ping")) then Ping
      else if action == Some(JStr("get_status")) && TruthyStr(wid) then GetStatus(wid.value.s)
      else NoAction
  }

  /** The subscribe branch wins over ping only when the workflow id is
      usable; a ping frame is answered whatever else it carries. */
  lemma PingAnswered(data: Json)
    requires data.JObj? && Field(data.fields, "action") == Some(JStr("ping"))
    ensures Classify(data) == Ping
  {
  }

  function SubscribedReply(workflowId: string): Dict {
    FromPairs([("type", JStr("subscribed")),
               ("workflow_id", JStr(workflowId)),
               ("message", JStr("Subscribed to workflow " + workflowId))])
  }

  function PongReply(): Dict {
    FromPairs([("type", JStr("pong")), ("message", JStr("Connection alive"))])
  }

  /** The eleven columns a `get_status` reply copies from the row. */
  function StatusReply(rec: WorkflowProgress): Dict {
    FromPairs([("type", JStr("progress_update")),
               ("workflow_id", JStr(rec.workflowId)),
               ("project_id", JInt(rec.projectId)),
               ("status", JStr(rec.status)),
               ("current_step", OptStr(rec.currentStep)),
               ("current_step_number", JInt(rec.currentStepNumber)),
               ("total_steps", JInt(rec.totalSteps)),
               ("step_progress", JNum(rec.stepProgress)),
               ("overall_progress", JNum(rec.overallProgress)),
               ("message", OptStr(rec.message)),
               ("result", OptJson(rec.result)),
               ("error_message", OptStr(rec.errorMessage))])
  }

  function NotFoundReply(workflowId: string): Dict {
    FromPairs([("type", JStr("error")), ("message", JStr("Workflow " + workflowId + " not found"))])
  }

  /** The reply a frame asks for, if any. */
  function Reply(a: Action, table: Store): (m: Option<Dict>)
    requires !a.Crash?
    ensures m.None? <==> a.NoAction?
    ensures a.SubscribeTo? ==> m == Some(SubscribedReply(a.workflowId))
    ensures a.Ping? ==> m == Some(PongReply())
    ensures a.GetStatus? ==> m == Some(if a.workflowId in table then StatusReply(table[a.workflowId])
                                       else NotFoundReply(a.workflowId))
  {
    match a
    case SubscribeTo(w) => Some(SubscribedReply(w))
    case Ping => Some(PongReply())
    case GetStatus(w) =>
      var progress := GetProgress(table, w);
      Some(if progress.Some? then StatusReply(progress.value) else NotFoundReply(w))
    case NoAction => None
  }

  /** A subscribe frame is acknowledged as `subscribed`, echoing the
      workflow id. */
  lemma SubscribeReplyNamesWorkflow(w: string, table: Store)
    ensures var m := Reply(SubscribeTo(w), table).value;
      && Get(m, "type") == Some(JStr("subscribed"))
      && Get(m, "workflow_id") == Some(JStr(w))
  {
    var pairs := [("type", JStr("subscribed")), ("workflow_id", JStr(w)),
                  ("message", JStr("Subscribed to workflow " + w))];
    GetLiteral(pairs, "type", 0);
    GetLiteral(pairs, "workflow_id", 1);
  }

  /** The head of a status reply: its type and the workflow of the row. */
  lemma StatusReplyHead(rec: WorkflowProgress)
    ensures Get(StatusReply(rec), "type") == Some(JStr("progress_update"))
    ensures Get(StatusReply(rec), "workflow_id") == Some(JStr(rec.workflowId))
  {
    var pairs := [("type", JStr("progress_update")), ("workflow_id", JStr(rec.workflowId)),
                  ("project_id", JInt(rec.projectId)), ("status", JStr(rec.status)),
                  ("current_step", OptStr(rec.currentStep)), ("current_step_number", JInt(rec.currentStepNumber)),
                  ("total_steps", JInt(rec.totalSteps)), ("step_progress", JNum(rec.stepProgress)),
                  ("overall_progress", JNum(rec.overallProgress)), ("message", OptStr(rec.message)),
                  ("result", OptJson(rec.result)), ("error_message", OptStr(rec.errorMessage))];
    GetLiteral(pairs, "type", 0);
    GetLiteral(pairs, "workflow_id", 1);
  }

  /** A not-found reply is typed as an error. */
  lemma NotFoundReplyHead(w: string)
    ensures Get(NotFoundReply(w), "type") == Some(JStr("error"))
  {
    GetLiteral([("type", JStr("error")), ("message", JStr("Workflow " + w + " not found"))], "type", 0);
  }

  /** A `get_status` reply names the workflow asked about, and reports it
      as a progress update exactly when the table has its row. */
  lemma StatusReplyNamesWorkflow(w: string, table: Store)
    requires Keyed(table) && w != ""
    ensures var m := Reply(GetStatus(w), table).value;
      && (Get(m, "type") == Some(JStr("progress_update")) <==> w in table)
      && (w in table ==> Get(m, "workflow_id") == Some(JStr(w)))
  {
    if w in table {
      StatusReplyHead(table[w]);
    } else {
      NotFoundReplyHead(w);
    }
  }

  /** One decoded object frame: the registry change its branch makes, and
      the reply if it was delivered. */
  function HandleFrame(r: Registry, id: ConnId, a: Action, table: Store, sendOk: bool)
    : (res: (Registry, Option<Dict>))
    requires !a.Crash?
    ensures var (r', delivered) := res;
      && (delivered.Some? <==> !a.NoAction? && id in r.connections && sendOk)
      && (delivered.Some? ==> delivered == Reply(a, table))
      && (id !in r.connections ==> r' == r)
      && (delivered.Some? ==> id in r'.connections)
      && (a.SubscribeTo? && delivered.Some? ==> a.workflowId in r'.connections[id].workflowIds)
      && (id in r.connections && !a.NoAction? && !sendOk ==> id !in r'.connections)
    ensures a.NoAction? ==> res == (r, None)
    ensures var (r', delivered) := res;
      && (delivered.Some? && !a.SubscribeTo? ==> r' == r)
      && (delivered.Some? && a.SubscribeTo? ==> r' == Subscribe(r, id, a.workflowId))
      && (id in r.connections && !a.NoAction? && !sendOk ==>
            r' == Disconnect(if a.SubscribeTo? then Subscribe(r, id, a.workflowId) else r, id))
  {
    var r1 := if a.SubscribeTo? then Subscribe(r, id, a.workflowId) else r;
    match Reply(a, table)
    case None => (r1, None)
    case Some(m) =>
      var (r2, delivered) := SendPersonal(r1, id, sendOk);
      (r2, if delivered then Some(m) else None)
  }

  /** The events that leave the receive loop: a close, an undecodable
      frame, a frame whose `data.get` raises, and a `get_status` whose
      query raises. */
  predicate Ends(e: Event) {
    !e.Frame? || Classify(e.data).Crash? || (Classify(e.data).GetStatus? && e.read.None?)
  }

  /** The receive loop: replies delivered, in order, and the registry
      after it. An event that `Ends` the loop disconnects; a session whose
      events run out is still open. */
  function Session(r: Registry, id: ConnId, events: seq<Event>): (res: (Registry, seq<Dict>))
    ensures |res.1| <= |events|
    ensures |events| > 0 && Ends(events[0]) ==> id !in res.0.connections && res.1 == []
    decreases |events|
  {
    if |events| == 0 then (r, [])
    else match events[0]
      case Closed => (Disconnect(r, id), [])
      case Undecodable => (Disconnect(r, id), [])
      case Frame(data, read, sendOk) =>
        var a := Classify(data);
        if a.Crash? || (a.GetStatus? && read.None?) then (Disconnect(r, id), [])
        else
          var (r1, delivered) := HandleFrame(r, id, a, read.GetOr(map[]), sendOk);
          var (r2, rest) := Session(r1, id, events[1..]);
          (r2, (if delivered.Some? then [delivered.value] else []) + rest)
  }

  /** The loop keeps the registry's indexes consistent. */
  lemma {:induction false} SessionValid(r: Registry, id: ConnId, events: seq<Event>)
    requires Valid(r)
    ensures Valid(Session(r, id, events).0)
    decreases |events|
  {
    if |events| > 0 {
      DisconnectValid(r, id);
      if !Ends(events[0]) {
        var a := Classify(events[0].data);
        var r1 := if a.SubscribeTo? then Subscribe(r, id, a.workflowId) else r;
        if a.SubscribeTo? { SubscribeValid(r, id, a.workflowId); }
        DisconnectValid(r1, id);
        SessionValid(HandleFrame(r, id, a, events[0].read.GetOr(map[]), events[0].sendOk).0, id, events[1..]);
      }
    }
  }

  /** A session touches its own connection only: every other connection
      stays registered, with the same project and workflows. */
  predicate OthersUnchanged(r: Registry, r': Registry, id: ConnId) {
    forall c | c in r.connections && c != id :: c in r'.connections && r'.connections[c] == r.connections[c]
  }

  lemma OthersUnchangedTrans(r1: Registry, r2: Registry, r3: Registry, id: ConnId)
    requires OthersUnchanged(r1, r2, id) && OthersUnchanged(r2, r3, id)
    ensures OthersUnchanged(r1, r3, id)
  {
    forall c | c in r1.connections && c != id ensures c in r3.connections && r3.connections[c] == r1.connections[c] {
      assert c in r2.connections && r2.connections[c] == r1.connections[c];
    }
  }

  /** One frame touches its own connection only. */
  lemma FrameOthersUnchanged(r: Registry, id: ConnId, a: Action, table: Store, sendOk: bool)
    requires !a.Crash?
    ensures OthersUnchanged(r, HandleFrame(r, id, a, table, sendOk).0, id)
    ensures HandleFrame(r, id, a, table, sendOk).0.connections.Keys <= r.connections.Keys
  {
    var r1 := if a.SubscribeTo? then Subscribe(r, id, a.workflowId) else r;
    assert OthersUnchanged(r, Disconnect(r1, id), id);
  }

  lemma {:induction false} SessionOthersUnchanged(r: Registry, id: ConnId, events: seq<Event>)
    ensures OthersUnchanged(r, Session(r, id, events).0, id)
    ensures Session(r, id, events).0.connections.Keys <= r.connections.Keys
    decreases |events|
  {
    if |events| > 0 && !Ends(events[0]) {
      var a := Classify(events[0].data);
      var r1 := HandleFrame(r, id, a, events[0].read.GetOr(map[]), events[0].sendOk).0;
      FrameOthersUnchanged(r, id, a, events[0].read.GetOr(map[]), events[0].sendOk);
      SessionOthersUnchanged(r1, id, events[1..]);
      OthersUnchangedTrans(r, r1, Session(r, id, events).0, id);
    }
  }

  /** A session that ends ends disconnected. */
  lemma {:induction false} SessionEndsDisconnected(r: Registry, id: ConnId, events: seq<Event>)
    requires |events| > 0 && Ends(events[|events| - 1])
    ensures id !in Session(r, id, events).0.connections
    decreases |events|
  {
    if !Ends(events[0]) {
      var a := Classify(events[0].data);
      var r1 := HandleFrame(r, id, a, events[0].read.GetOr(map[]), events[0].sendOk).0;
      assert |events| > 1;
      assert events[1..][|events[1..]| - 1] == events[|events| - 1];
      SessionEndsDisconnected(r1, id, events[1..]);
    }
  }

  /** What a session may do to its own connection: drop it for good, or
      keep it with the same project and no fewer workflows. */
  predicate Kept(r: Registry, r': Registry, id: ConnId) {
    id in r'.connections ==>
      && id in r.connections
      && r'.connections[id].projectId == r.connections[id].projectId
      && r.connections[id].workflowIds <= r'.connections[id].workflowIds
  }

  /** One frame either drops the connection, subscribes it to one more
      workflow, or leaves it as it was. */
  lemma FrameKept(r: Registry, id: ConnId, a: Action, table: Store, sendOk: bool)
    requires !a.Crash?
    ensures Kept(r, HandleFrame(r, id, a, table, sendOk).0, id)
  {
    var r1 := if a.SubscribeTo? then Subscribe(r, id, a.workflowId) else r;
    assert Kept(r, r1, id);
    assert id !in Disconnect(r1, id).connections;
  }

  /** Over the whole loop the socket keeps its project and only gains
      workflows, for as long as it stays registered. */
  lemma {:induction false} SessionKept(r: Registry, id: ConnId, events: seq<Event>)
    ensures Kept(r, Session(r, id, events).0, id)
    decreases |events|
  {
    if |events| > 0 {
      if Ends(events[0]) {
        assert id !in Disconnect(r, id).connections;
      } else {
        var a := Classify(events[0].data);
        var r1 := HandleFrame(r, id, a, events[0].read.GetOr(map[]), events[0].sendOk).0;
        FrameKept(r, id, a, events[0].read.GetOr(map[]), events[0].sendOk);
        SessionKept(r1, id, events[1..]);
        assert Session(r, id, events).0 == Session(r1, id, events[1..]).0;
      }
    }
  }

  /** After a failed acknowledgement the loop still runs, but on an id the
      registry no longer knows: nothing is delivered and nothing changes. */
  lemma {:induction false} SessionWithoutConnection(r: Registry, id: ConnId, events: seq<Event>)
    requires id !in r.connections
    ensures Session(r, id, events) == (r, [])
    decreases |events|
  {
    if |events| > 0 && !Ends(events[0]) {
      var a := Classify(events[0].data);
      assert HandleFrame(r, id, a, events[0].read.GetOr(map[]), events[0].sendOk) == (r, None);
      SessionWithoutConnection(r, id, events[1..]);
      assert Session(r, id, events) == (Session(r, id, events[1..]).0, [] + Session(r, id, events[1..]).1);
      assert Session(r, id, events[1..]) == (r, []);
      assert Session(r, id, events).0 == r;
      assert Session(r, id, events).1 == [];
    } else if |events| > 0 {
      assert Disconnect(r, id) == r;
    }
  }

  /** Every delivered reply is the reply its frame asked for, so a session
      with only ping frames and good sends is answered by as many pongs. */
  lemma {:induction false} PingsAnswered(r: Registry, id: ConnId, events: seq<Event>)
    requires id in r.connections
    requires forall i | 0 <= i < |events| :: events[i].Frame? && events[i].sendOk
                                             && Classify(events[i].data) == Ping
    ensures Session(r, id, events).1 == seq(|events|, i => PongReply())
    ensures Session(r, id, events).0 == r
    decreases |events|
  {
    if |events| > 0 {
      var e := events[0];
      PingFrame(r, id, e.read.GetOr(map[]));
      SessionFrame(r, id, events);
      var tail := events[1..];
      assert forall i | 0 <= i < |tail| :: tail[i] == events[i + 1];
      PingsAnswered(r, id, tail);
      PongsCons(|tail|);
    }
  }

  /** One frame that does not end the loop, then the rest of the loop. */
  lemma SessionFrame(r: Registry, id: ConnId, events: seq<Event>)
    requires |events| > 0 && !Ends(events[0])
    ensures var (r1, d) := HandleFrame(r, id, Classify(events[0].data), events[0].read.GetOr(map[]), events[0].sendOk);
      var rest := Session(r1, id, events[1..]);
      Session(r, id, events) == (rest.0, (if d.Some? then [d.value] else []) + rest.1)
  {
  }

  lemma PongsCons(n: nat)
    ensures [PongReply()] + seq(n, i => PongReply()) == seq(n + 1, i => PongReply())
  {
  }

  /** A ping on a registered socket with a good send is answered by one
      pong and changes nothing. */
  lemma PingFrame(r: Registry, id: ConnId, table: Store)
    requires id in r.connections
    ensures HandleFrame(r, id, Ping, table, true) == (r, Some(PongReply()))
  {
    assert Reply(Ping, table) == Some(PongReply());
    assert SendPersonal(r, id, true) == (r, true);
  }

  /** The whole route: `connect`, then the receive loop. */
  function Endpoint(r: Registry, projectId: int, workflowId: Option<string>, stamp: string, now: int,
                    ackOk: bool, events: seq<Event>): (res: (Registry, ConnId, Option<Dict>, seq<Dict>))
    ensures Valid(r) ==> Valid(res.0)
    ensures Valid(r) ==> forall c | c in res.0.connections :: c in r.connections || c == res.1
    ensures !ackOk ==> res.2.None? && res.3 == []
    ensures ackOk && res.1 in res.0.connections ==>
      && res.0.connections[res.1].projectId == Some(projectId)
      && (Truthy(workflowId) ==> workflowId.value in res.0.connections[res.1].workflowIds)
  {
    var (r1, id, ack) := Connect(r, Some(projectId), workflowId, stamp, now, ackOk);
    assert Valid(r) ==> Valid(r1) && Valid(Session(r1, id, events).0) by {
      if Valid(r) {
        ConnectValid(r, Some(projectId), workflowId, stamp, now, ackOk);
        SessionValid(r1, id, events);
      }
    }
    assert !ackOk ==> Session(r1, id, events) == (r1, []) by {
      if !ackOk { SessionWithoutConnection(r1, id, events); }
    }
    SessionOthersUnchanged(r1, id, events);
    SessionKept(r1, id, events);
    var (r2, replies) := Session(r1, id, events);
    (r2, id, ack, replies)
  }

  /** `GET /ws/connections/status`. */
  function ConnectionsStatus(r: Registry): (d: Dict)
    ensures Get(d, "active_connections") == Some(JInt(ActiveCount(r)))
    ensures Get(d, "status") == Some(JStr("healthy"))
  {
    var pairs := [("active_connections", JInt(|r.connections|)), ("status", JStr("healthy"))];
    GetFromPairs(pairs, "active_connections");
    GetAt(pairs, "active_connections", 0);
    GetFromPairs(pairs, "status");
    GetAt(pairs, "status", 1);
    FromPairs(pairs)
  }
}

=== FILE: wrappers.dfy ===
/** Failure-compatible wrappers shared by every module of the model:
    `Option` stands for Python's `Optional[...]` / `None`, `Result` for a
    value-or-raised-exception outcome. */
module Wrappers {

  datatype Option<+T> = None | Some(value: T) {

    predicate IsFailure() {
      None?
    }

    function PropagateFailure<U>(): Option<U>
      requires None?
    {
      None
    }

    function Extract(): T
      requires Some?
    {
      value
    }

    /** Python's `x or default` for a possibly-missing value. */
    function GetOr(default: T): T {
      match this
      case Some(v) => v
      case None => default
    }
  }

  /** `Err` carries the text of the exception that the source would raise. */
  datatype Result<+T> = Ok(value: T) | Err(error: string) {

    predicate IsFailure() {
      Err?
    }

    function PropagateFailure<U>(): Result<U>
      requires Err?
    {
      Err(error)
    }

    function Extract(): T
      requires Ok?
    {
      value
    }
  }

  /** Truthiness of an optional Python string: present and non-empty. */
  predicate Truthy(s: Option<string>) {
    s.Some? && s.value != ""
  }
}
